=== FILE: README.md ===
# EthoGrid data pipeline in Dafny

A functional model of EthoGrid's two batch workers and the small tracker
adapter they share, with proofs of what each stage guarantees.

- **Batch processor** (`workers/batch_processor.py`): for every video,
  - locate its detection CSV;
  - read each row leniently (every cell that `float()` accepts becomes a number);
  - derive missing centroids from the box;
  - tag each detection with the tank cell of the grid it falls in;
  - reduce the detections, either by per-tank multi-object tracking or by the
    per-frame, per-tank top-K confidence filter;
  - build the outputs this model covers:
    - the enriched CSV table, floats written with four decimals;
    - the class → colour palette;
    - the per-tank behaviour timeline, a run-length segmentation of labelled
      frames.
- **Analysis processor** (`workers/analysis_processor.py`):
  - the workbook's file name;
  - each input's sheet name;
  - per file, one endpoint result per tank with at least three rows, plus an
    average row that divides by the number of tanks;
  - the grand summary over all files.
- **Tracker adapter** (`core/tracker.py`): `to_norfair`, the detection-dict →
  tracker-detection conversion with its defaults.

Everything outside these files is a parameter of the model:
- the file system (the set of existing files and directories);
- the CSV reader;
- Python's `float()` on a cell;
- the opened video's size and frame count;
- the saved grid placement: centre, rotation (as its cosine and sine) and scale;
- the tracker library's `update`;
- the endpoint analyser;
- the key order of dictionaries and data frames;
- the indices `random.sample` draws.

A Python dict row is a `map<string, Value>`, and `Value` is float, int, str or
None. An exception that ends a job is an `Err(Fault)`.

Modules, in dependency order:

| module | file | contents |
|---|---|---|
| `Base` | base.dfy | Option, Result, Fault, cell values |
| `Paths` | paths.dfy | basename, dirname, splitext, join |
| `Decimal` | decimal.dfy | the `%.4f` formatting and its parse |
| `Geometry` | geometry.dfy | affine maps, the grid transform, the inverse, tank cells |
| `Detections` | detections.dfy | loading, centroid fallback, tank tagging |
| `Order` | order.dfy | Python's `<` on cells |
| `Sorting` | sorting.dfy | a stable insertion sort |
| `Ranking` | ranking.dfy | per-tank top K |
| `Tracking` | tracking.dfy | `to_norfair` and the per-tank tracker dispatch |
| `Frames` | frames.dfy | sorted frame keys and flattening |
| `EnrichedCsv` | enriched_csv.dfy | the CSV table |
| `Palette` | palette.dfy | behaviour colours |
| `Timeline` | timeline.dfy | the segmenter |
| `TimelineData` | timeline_data.dfy | per-tank label collection |
| `BatchRun` | batch_run.dfy | the batch worker's run |
| `AnalysisNaming` | analysis_naming.dfy | output file and sheet names |
| `AnalysisSummary` | analysis_summary.dfy | per-file and grand averages |

## Model

| member | source | states |
|---|---|---|
| Geometry.TankForPoint | workers/batch_processor.py:34-38 | a point gets no tank exactly when its inverse-mapped coordinates fall outside [0,w)×[0,h); a zero-sized grid with an in-frame point is the ZeroDivisionError |
| Geometry.TankNumberInRange | workers/batch_processor.py:37-38 | on a non-empty grid every tank returned lies in 1 .. cols*rows |
| Geometry.CellIndexInjective | workers/batch_processor.py:38 | two distinct in-grid cells never share a tank number |
| Geometry.CellOfCellIndex | workers/batch_processor.py:38 | the tank number determines its (row, col): decoding it gives the cell back |
| Geometry.CellIndexOfCellOf | workers/batch_processor.py:38 | every tank number 1 .. cols*rows decodes to an in-grid cell whose number it is |
| Geometry.TankIsContainingCell | workers/batch_processor.py:37-38 | in exact arithmetic the clamps never fire: the tank is the cell whose half-open rectangle contains the mapped point |
| Geometry.TwoTankExample | workers/batch_processor.py:34-38 | a 2×1 grid under the identity: left half is tank 1, right half tank 2, above the frame no tank |
| Geometry.ComposeApplies | workers/batch_processor.py:72 | applying a composed transform applies the inner one first, then the outer one |
| Geometry.GridTransformMaps | workers/batch_processor.py:72 | the grid transform moves a point by minus half the frame, scales it, rotates it and moves it to the placement's centre scaled by the frame size |
| Geometry.GridTransformCentre | workers/batch_processor.py:72 | the frame's centre lands on the placement's centre, scaled by the frame size |
| Geometry.Inverted | workers/batch_processor.py:73 | the inverse is flagged invertible exactly when the determinant is outside Qt's fuzzy zero; otherwise it is the identity |
| Geometry.InverseUndoesForward | workers/batch_processor.py:73 | for an invertible transform, the inverse maps every forward-mapped point back |
| Geometry.ForwardUndoesInverse | workers/batch_processor.py:73 | for an invertible transform, the forward map undoes the inverse |
| Paths.Basename | workers/batch_processor.py:49 | the base name is the slash-free tail of the path, cut right after its last slash |
| Paths.Dirname | workers/batch_processor.py:50 | the folder of a path is a prefix of it |
| Paths.SplitExt | workers/batch_processor.py:50 | root + ext is the path; the extension is empty or a single dot-led suffix with no dot or slash after the leading dot, and is never a leading-dot name |
| Paths.SplitExtFindsDot | workers/batch_processor.py:50 | a dot in the base name that follows a non-dot character gives a non-empty extension, cut at the last dot |
| Paths.Join | workers/batch_processor.py:51 | an absolute second part replaces the first; otherwise the parts are joined with exactly one slash added unless the first is empty or already ends in one |
| BatchRun.Candidates | workers/batch_processor.py:50-54 | three detection files are tried for each video |
| BatchRun.FirstExisting | workers/batch_processor.py:52-55 | nothing is found exactly when none of the candidates exists; a found path is an existing candidate |
| BatchRun.CandidatesPriority | workers/batch_processor.py:50-55 | the file found is the stem's `.csv` if it exists, else its `_detections.csv`, else its `_segmentations.csv`, all in the searched folder; otherwise none |
| BatchRun.FirstExistingIsFirst | workers/batch_processor.py:51-54 | the chosen file comes no later than any existing candidate, so `.csv` wins over `_detections.csv`, which wins over `_segmentations.csv` |
| BatchRun.SearchDir | workers/batch_processor.py:50 | the chosen folder is searched when it is set and is a directory; otherwise the video's own folder, a prefix of its path |
| BatchRun.Locate | workers/batch_processor.py:50-55 | no file is found exactly when none of the three candidates in the searched folder exists; a found file is an existing candidate |
| BatchRun.RunJob | workers/batch_processor.py:50-60 | a video is skipped exactly when no candidate exists, and fails when its file cannot be read |
| BatchRun.RunBatch | workers/batch_processor.py:41-47 | a settings file that cannot be read or lacks a section runs no job; otherwise one outcome per video, in order, each independent of the others, with the keys inside the sections read per job |
| BatchRun.RunJobFromFile | workers/batch_processor.py:50-186 | with every settings key present a job is the job under those settings; a video is skipped exactly when no candidate exists, and fails when its file cannot be read |
| BatchRun.DetectFromFile | workers/batch_processor.py:59-83 | a missing transform key fails the job once the detections are loaded and the video opened; a missing grid key fails it at the first detection, or at the trackers' creation when there is none; a job with a missing key succeeds only as a confidence filter over no detections |
| BatchRun.FirstTagFault | workers/batch_processor.py:76-77 | the first detection's centroid fallback and its cy are read before the grid's column and row counts, so their faults come first |
| BatchRun.IncompleteSettingsDone | workers/batch_processor.py:72-112 | a job whose settings lack a key finishes only in the confidence-filter mode with no detections |
| BatchRun.IncompleteSettingsFailJob | workers/batch_processor.py:69-77 | a job whose settings lack a key fails, without a table, once it has a detection to tag in an openable video |
| BatchRun.GridOf | workers/batch_processor.py:71-77 | the tank grid of a video has that video's own width and height and the saved columns and rows |
| BatchRun.GridOfCentre | workers/batch_processor.py:71-73 | the inverse, rebuilt from each video's size, maps the placed centre back to that video's frame centre |
| BatchRun.Reduce | workers/batch_processor.py:80-81 | the tracking mode without the tracker library abandons the job |
| BatchRun.Detect | workers/batch_processor.py:69-70 | a video that cannot be opened abandons the job once its detections are loaded |
| BatchRun.Export | workers/batch_processor.py:114-186 | a finished job keeps its detections, and has a table exactly when the CSV is asked for and colours and a timeline exactly when the video is; a failed job keeps whatever table it had written, the whole table when the failure comes after writing it; a failed write is the writer's fault |
| BatchRun.PaletteFailureKeepsTable | workers/batch_processor.py:114-146 | a palette failure fails the job with its fault and leaves the whole table on disk |
| BatchRun.PaletteOkTimelineOk | workers/batch_processor.py:146-151 | the palette reads every detection's class_name and the timeline only those of tanked detections, so once the palette is built the timeline cannot fail |
| BatchRun.ExportFailureCauses | workers/batch_processor.py:114-159 | an export fails only while writing the table, with the writer's fault, or while building the palette, with the palette's fault |
| BatchRun.WriteFailureKeepsPrefix | workers/batch_processor.py:119-125 | a row with a field outside the header fails the job naming those fields, and the file keeps the header and the lines of every earlier detection |
| BatchRun.HeaderFor | workers/batch_processor.py:116-118 | the header lists the first output detection's fields, each once |
| BatchRun.UniformTableWritten | workers/batch_processor.py:114-125 | with the CSV asked for and every detection having the first one's fields, the job finishes with a written table under that header |
| BatchRun.FilteringKeepsTopK | workers/batch_processor.py:102-112 | in the confidence-filter mode every output detection has a tank and each tank keeps at most K per frame |
| BatchRun.TrackingRowsInGrid | workers/batch_processor.py:83-98 | in the tracking mode every output row lies in a frame of the video, records that frame, and names a tank of the grid |
| BatchRun.DoneFilteringKeepsTopK | workers/batch_processor.py:102-112 | the top-K guarantee holds for every finished job |
| BatchRun.DoneTrackingInGrid | workers/batch_processor.py:83-98 | the tracking guarantee holds for every finished job |
| Detections.NormaliseCell | workers/batch_processor.py:64-66 | a cell that float() accepts becomes that float; any other cell stays a string; an absent cell is None |
| Detections.NormaliseRow | workers/batch_processor.py:64-66 | normalising keeps the row's fields and converts each cell on its own |
| Detections.FrameIndex | workers/batch_processor.py:63 | the frame index exists exactly when frame_idx is present and parses, and is int() of that float |
| Detections.LoadFrames | workers/batch_processor.py:59-67 | loading succeeds exactly when every row has a frame index |
| Detections.LoadFramesKeys | workers/batch_processor.py:67 | the loaded frames are exactly the frame indices some row names |
| Detections.LoadFramesGroups | workers/batch_processor.py:67 | each frame holds its rows in file order |
| Detections.DeriveCentroid | workers/batch_processor.py:76 | a row with cx is left unchanged; otherwise cx, cy become the box midpoints, a missing coordinate counting as 0, and no other field changes |
| Detections.DerivedCentroidInsideBox | workers/batch_processor.py:76 | a derived centroid lies inside its box |
| Detections.DeriveCentroidIdempotent | workers/batch_processor.py:76 | deriving twice changes nothing |
| Detections.AssignRow | workers/batch_processor.py:76-77 | tagging succeeds exactly when the centroid can be derived, cx and cy are numbers and the grid can classify the point; the tagged row keeps the derived centroid, and its tank_number is the tank the grid gives that centroid (None outside the frame, otherwise an int in 1 .. cols*rows); other fields are unchanged |
| Detections.AssignRows | workers/batch_processor.py:75-77 | a frame's detections are tagged one by one, in order |
| Detections.AssignTanks | workers/batch_processor.py:74-77 | tagging succeeds exactly when every frame can be tagged, keeps the set of frames and tags each on its own; a failure is the error of a failing frame with no failing frame below it |
| Detections.AssignedTanksInRange | workers/batch_processor.py:77 | on a non-empty grid every tank assigned is None or lies in 1 .. cols*rows |
| Detections.AssignedTankOfCentroid | workers/batch_processor.py:74-77 | every detection of the store is tagged with the tank of its own derived centroid: None exactly when the inverse-mapped centroid is outside the frame, and otherwise the row-major number of the grid cell whose slices contain it |
| Order.KeyOf | workers/batch_processor.py:92 | a cell's sort key: None has none, numbers compare as numbers, strings as strings |
| Order.KeyLtStrictOrder | workers/batch_processor.py:92 | Python's < on comparable cells is a strict total order |
| Order.PyEqIsKeyEq | workers/batch_processor.py:158 | Python's == on cells agrees with equality of sort keys |
| Sorting.Sort | workers/batch_processor.py:110 | the sort is a stable permutation, and it is ordered whenever the keys are mutually comparable |
| Ranking.ConfValue | workers/batch_processor.py:110 | a missing conf counts as 0.0 |
| Ranking.TopK | workers/batch_processor.py:110-111 | top K exists exactly when the confidences are mutually comparable, keeps min(K, n) detections (Python slice semantics for negative K), keeps only input detections, and lists them most confident first |
| Ranking.TopKKeepsMostConfident | workers/batch_processor.py:110-111 | kept and dropped split the input, and no dropped detection is more confident than a kept one |
| Ranking.TopKStable | workers/batch_processor.py:110-111 | ties keep their input order, so the earlier of equally confident detections is kept |
| Ranking.KeepOneExample | workers/batch_processor.py:110-111 | with confidences 0.4 and 0.9 and K = 1, the 0.9 detection is kept |
| Ranking.KeepTwoExample | workers/batch_processor.py:110-111 | with confidences 0.4 then 0.9 and K = 2, both are kept and the 0.9 detection comes first |
| Ranking.TankOrder | workers/batch_processor.py:106-108 | a frame's tanks are listed once each, exactly those some detection names |
| Ranking.MembersNonEmpty | workers/batch_processor.py:108 | a tank's group is non-empty exactly when some detection names it |
| Ranking.FilterFramePerTank | workers/batch_processor.py:105-111 | per frame, each tank's kept detections are the top K of its own group, an untanked detection is never kept, and an absent tank keeps nothing |
| Ranking.FilterFrameBound | workers/batch_processor.py:111 | no tank keeps more than K detections in a frame |
| Ranking.FilterTanks | workers/batch_processor.py:109-111 | filtering the listed tanks succeeds exactly when each listed tank's detections can be ranked |
| Ranking.FilterFrame | workers/batch_processor.py:105-111 | filtering a frame succeeds exactly when the detections of each tank in it can be ranked |
| Ranking.ConfidenceFilter | workers/batch_processor.py:104-112 | the filter fails exactly when some frame cannot be ranked; the frames kept are exactly those with a tanked detection, each filtered on its own |
| Tracking.Convert | core/tracker.py:23-32 | points are (cx, cy); class_name, conf, box and polygon are copied when present and otherwise default to '', 0.0, 0 and '' |
| Tracking.ToNorfair | core/tracker.py:19-33 | without the tracker library the result is empty whatever the input; otherwise one detection per input, in order, failing only on a missing cx or cy |
| Tracking.ToNorfairPoints | core/tracker.py:24 | each output's points are its input's cx, cy |
| Tracking.TrackedRow | workers/batch_processor.py:96-97 | a tracked row has exactly the twelve listed fields, taken from the frame, the tank, the track id, the estimate and the last detection's data |
| Tracking.Feed | workers/batch_processor.py:92-98 | a tracker call gets the tank's selected input; the tracker's next state and the rows written are those its update returns for that input, each row recording the frame and the tank |
| Tracking.TrackTanks | workers/batch_processor.py:90-98 | a frame's step keeps the set of tanks that have a tracker |
| Tracking.TrackTanksCalls | workers/batch_processor.py:90-94 | every call in a frame goes to a listed tank that has a tracker, with that tank's input |
| Tracking.TrackTanksKeepsOthers | workers/batch_processor.py:90-94 | a tank that is not listed in the frame keeps its tracker state |
| Tracking.TrackTanksUpdates | workers/batch_processor.py:90-94 | with distinct tanks listed, each listed tank's tracker leaves the frame updated once, from its state before the frame, with its own input |
| Tracking.TrackTanksStepRows | workers/batch_processor.py:90-98 | with distinct tanks listed, a frame's rows are each listed tank's reported tracks, in tank order, each tracker fed from its state before the frame |
| Tracking.TrackTanksOncePerTank | workers/batch_processor.py:90-94 | with distinct tanks, no tracker is called twice in a frame |
| Tracking.TrackFramesInOrder | workers/batch_processor.py:85-94 | tracker calls happen frame by frame, in non-decreasing frame order |
| Tracking.TrackFrames | workers/batch_processor.py:85-98 | the run keeps the set of tanks that have a tracker, and has output only for frames 0 .. n-1 that some tracker reported in |
| Tracking.TrackFramesTankState | workers/batch_processor.py:85-94 | after n frames a tank's tracker is in the state of its own history: updated with its input in each frame holding one of its detections, left alone in the others, whatever the other tanks do |
| Tracking.TrackFramesHistories | workers/batch_processor.py:85-94 | after n frames all the trackers are in the states of their own histories |
| Tracking.TrackFramesOut | workers/batch_processor.py:85-98 | frame f has output exactly when its tanks' trackers, fed from their histories up to f, report a track, and the output is those reports in tank order |
| Tracking.TrackAll | workers/batch_processor.py:81-99 | without the tracker library the job fails; otherwise there is one tracker per tank 1 .. cols*rows and output only for frames of the video |
| Tracking.TrackAllOut | workers/batch_processor.py:81-99 | frame for frame, the output for a frame of the video is what the frame's tanks' trackers report when fed their top K from the states their own earlier frames left them in |
| Tracking.TrackAllCalls | workers/batch_processor.py:83-94 | every tracker call is for a frame of the video and a tank of the grid that has a detection in it, with that tank's top K of the frame |
| Tracking.TrackAllCoversTanks | workers/batch_processor.py:85-94 | in every frame of the video, each grid tank with a detection in it has its tracker called |
| Tracking.TrackAllOncePerTank | workers/batch_processor.py:90-94 | within one frame, no tank's tracker is called twice |
| Tracking.TrackAllRows | workers/batch_processor.py:95-98 | every tracked row sits under its own frame and names a tank of the grid |
| Tracking.TrackerInputBound | workers/batch_processor.py:92-93 | no tracker sees more than K detections in a call, each with the centroid of a detection of its own tank in that frame |
| Frames.SortedInts | workers/batch_processor.py:116 | sorting a key set gives each key once, strictly ascending |
| Frames.FlattenMembers | workers/batch_processor.py:116 | the flattened detections are exactly those of some frame |
| Decimal.FormatFixed4RoundTrip | workers/batch_processor.py:124 | reading back a `%.4f` string gives the value rounded half-to-even to four decimals |
| Decimal.Rounded4Error | workers/batch_processor.py:124 | the written value is within 0.00005 of the float |
| Decimal.IntStringRoundTrip | workers/batch_processor.py:125 | an int cell is written so that it parses back to itself |
| Decimal.FormatFixed4 | workers/batch_processor.py:124 | a `%.4f` text has at least six characters with its dot fifth from the end, and starts with '-' exactly for a negative value |
| EnrichedCsv.Cell | workers/batch_processor.py:122-125 | floats are written with four decimals, ints and strings as themselves, None as empty |
| EnrichedCsv.Line | workers/batch_processor.py:120-125 | a line has one cell per header field |
| EnrichedCsv.WriteRows | workers/batch_processor.py:119-125 | writing succeeds exactly when no row has a field outside the header |
| EnrichedCsv.WriteRowsFault | workers/batch_processor.py:125 | a failed write reports the extra fields of the first misfitting row |
| EnrichedCsv.LineReadBack | workers/batch_processor.py:122-125 | each line's cell under a header field reads back as that field's value |
| EnrichedCsv.EnrichedTable | workers/batch_processor.py:116-125 | no file is written exactly when there are no detections; a written table has the given header and one line per detection |
| EnrichedCsv.WrittenLinesStop | workers/batch_processor.py:119-125 | the writer leaves the lines of the rows before the first misfitting row, in order, and stops short exactly when writing fails, naming that row's extra fields |
| EnrichedCsv.WrittenLinesComplete | workers/batch_processor.py:119-125 | a write that does not fail leaves every line of the table |
| EnrichedCsv.TableOnDisk | workers/batch_processor.py:116-125 | the file left behind is absent exactly when there are no detections, and is the table itself whenever writing succeeds |
| EnrichedCsv.TableOnDiskPartial | workers/batch_processor.py:119-125 | a failed write leaves the header and the lines of every row before the misfit |
| EnrichedCsv.UniformFieldsWrite | workers/batch_processor.py:118-125 | when every detection has the first one's fields, the table is written |
| Palette.ColoursAt | workers/batch_processor.py:146 | the i-th name of a duplicate-free list gets colour i mod 10 |
| Palette.BehaviorColors | workers/batch_processor.py:146 | the palette fails only for a missing class_name or for names that cannot be sorted together, and for the latter whenever every detection has a name |
| Palette.BehaviorColorsOk | workers/batch_processor.py:146 | the palette exists exactly when every detection has a class name and the names are mutually comparable |
| Palette.BehaviorColorsByRank | workers/batch_processor.py:146 | exactly the class names present get a colour: the one at their rank in sorted order, mod 10 |
| Palette.BehaviorColorsAreRankColours | workers/batch_processor.py:146 | the palette is the rank colouring of the set of names present |
| Palette.SameColours | workers/batch_processor.py:146 | the palette depends only on the set of class names, not on frames, order or repetition |
| Timeline.SegmentRuns | workers/batch_processor.py:155-159 | the loop computes the run-length segments: they run from the first frame to the last, neighbours differ in label or leave a gap, and expanding them gives back every input frame, in order, with an equal label |
| Timeline.Runs | workers/batch_processor.py:153-159 | there are no more segments than labelled frames, and at least one when there is a frame |
| Timeline.RunsEnds | workers/batch_processor.py:155-159 | the first segment starts at the first frame and the last ends at the last frame, with its label |
| Timeline.RunsOrdered | workers/batch_processor.py:155-159 | segments have start ≤ end, and each ends before the next starts |
| Timeline.RunsMaximal | workers/batch_processor.py:158 | neighbouring segments are separated by a frame gap or a label change |
| Timeline.RunsBoundaries | workers/batch_processor.py:158 | a later frame starts a segment exactly when its label differs from the previous frame's or it does not follow it directly |
| Timeline.ExpandRuns | workers/batch_processor.py:155-159 | expanding the segments gives back the input frames with equal labels |
| TimelineData.LastLabelPresent | workers/batch_processor.py:151 | a frame labels a tank exactly when the tank has a detection in it |
| TimelineData.BuildTimeline | workers/batch_processor.py:147-159 | without overlays the timeline is empty; otherwise it fails exactly when a detection lacks class_name, and every tank listed has a segment |
| TimelineData.TimelineTanks | workers/batch_processor.py:149-153 | the timeline lists exactly the tanks with a detection |
| TimelineData.TimelineCoverage | workers/batch_processor.py:149-159 | a tank's expanded segments are its detection frames, ascending, each labelled with the class name of the tank's last detection in that frame |
| AnalysisNaming.OutputFilename | workers/analysis_processor.py:15-40 | no input gives "analysis_endpoints"; otherwise the name is the first min(200, n) characters of the n-character sanitised joined base names |
| AnalysisNaming.OutputFilenameSafe | workers/analysis_processor.py:34-40 | the name holds none of `[ ] : * ? / \` or space |
| AnalysisNaming.OutputFilenameLeads | workers/analysis_processor.py:21-24 | the name begins with the first input's sanitised base name, as far as 200 characters allow |
| AnalysisNaming.Selected | workers/analysis_processor.py:23-29 | the first base name leads, followed by min(2, n-1) sampled others, min(3, n) in all |
| AnalysisNaming.JoinWithLength | workers/analysis_processor.py:32 | the joined name is as long as its parts plus one separator between neighbours |
| AnalysisNaming.SanitiseSpec | workers/analysis_processor.py:35-37 | sanitising replaces each listed character by '_' and keeps every other character and the length |
| AnalysisNaming.SanitiseIdempotent | workers/analysis_processor.py:35-37 | sanitising twice changes nothing |
| AnalysisNaming.Sanitise | workers/analysis_processor.py:35-37 | a sanitised name keeps its length, replaces each listed character by '_' and keeps every other character |
| AnalysisNaming.SheetName | workers/analysis_processor.py:142-147 | the sheet name is the last min(31, n) characters of the sanitised base name |
| AnalysisNaming.SheetNameSafe | workers/analysis_processor.py:142-147 | the sheet name holds no listed character, and a short name is kept whole |
| AnalysisSummary.TankRows | workers/analysis_processor.py:93 | a tank's rows are exactly the file's rows that name it |
| AnalysisSummary.TankRowsCount | workers/analysis_processor.py:93 | a row occurs in a tank's rows as often as in the file when it names the tank, and never otherwise |
| AnalysisSummary.TankRowsConcat | workers/analysis_processor.py:93 | selecting a tank's rows keeps file order: selecting from two parts is selecting from each |
| AnalysisSummary.Results | workers/analysis_processor.py:85-114 | a tank gets a result exactly when it is listed and has at least three rows, each analysed on that tank's rows alone |
| AnalysisSummary.FileResultsSpec | workers/analysis_processor.py:85-114 | a file's results are in strictly ascending tank order, one for each tank with at least three rows |
| AnalysisSummary.FileResults | workers/analysis_processor.py:85-114 | every tank with a result has at least three rows, and each result is the analysis of that tank's rows alone |
| AnalysisSummary.AverageIsZeroFilledMean | workers/analysis_processor.py:124-128 | each average is the mean over all tanks with a missing value counted as 0 |
| AnalysisSummary.AverageBounds | workers/analysis_processor.py:124-128 | with every value present and within [lo, hi], the average lies within [lo, hi] |
| AnalysisSummary.AverageAllMissing | workers/analysis_processor.py:127-128 | a column with no value averages to 0 |
| AnalysisSummary.AverageOfConcat | workers/analysis_processor.py:124-128 | the average of two groups is their count-weighted combination |
| AnalysisSummary.Averages | workers/analysis_processor.py:118-128 | the average row has a cell for every endpoint column: the sum of the present values over the number of tanks |
| AnalysisSummary.MoveToFrontPermutes | workers/analysis_processor.py:136-140 | File and Tank are moved to the front, and no column is lost or repeated |
| AnalysisSummary.MoveToFront | workers/analysis_processor.py:136-140 | the columns are rearranged without loss or repetition, File and Tank lead when both are present, and otherwise nothing moves |
| AnalysisSummary.AnalyseFile | workers/analysis_processor.py:77-157 | a file gets a sheet exactly when it can be read, has every required column, the analyser returns for each tank with enough rows, and some tank has enough rows; the sheet has the file's results, the sanitised name, an average per column, and File, Tank and the endpoint columns each once |
| AnalysisSummary.AnalysedEndpoints | workers/analysis_processor.py:93-114 | each result of a sheet is what the analyser returned for exactly that tank's rows |
| AnalysisSummary.Sheets | workers/analysis_processor.py:68-157 | at most one sheet per input, and every sheet has results |
| AnalysisSummary.SheetsConcat | workers/analysis_processor.py:68-157 | the sheets of two lists of inputs are those of the first followed by those of the second |
| AnalysisSummary.SheetsMembers | workers/analysis_processor.py:68-157 | a sheet is written exactly when it is the sheet of some input |
| AnalysisSummary.AllResults | workers/analysis_processor.py:152 | the grand results are empty exactly when no sheet has results |
| AnalysisSummary.AllResultsConcat | workers/analysis_processor.py:152 | the grand results of two groups of sheets are those of the first followed by those of the second |
| AnalysisSummary.AllResultsMembers | workers/analysis_processor.py:152 | a result is in the grand results exactly when some sheet has it |
| AnalysisSummary.RunAnalysis | workers/analysis_processor.py:58-184 | the workbook is named from the inputs and holds the inputs' sheets; it has a summary exactly when some sheet was written, averaging every endpoint column, and as written that summary repeats a column |
| AnalysisSummary.RunAnalysisIntended | workers/analysis_processor.py:159-184 | the same file, sheets and averages, with the summary's columns File, Tank and the endpoint columns, each once |
| AnalysisSummary.GrandSum | workers/analysis_processor.py:152-172 | each grand column sum is the sum over sheets of sheet average times the number of tanks |
| AnalysisSummary.GrandColumnsRepeat | workers/analysis_processor.py:174-182 | as written, the summary's columns list File and Tank twice |
| AnalysisSummary.GrandColumnsDistinct | workers/analysis_processor.py:136-139 | arranged as the file sheets are, the summary's columns are File, Tank and the averaged columns, each once |

## Left out

- The Qt thread, signals, progress, timing, FPS and the cancellation flag. These are UI plumbing, and a cancelled run is just a shorter input.
- Video decoding and writing, the annotated video's drawing, and the stopwatch. These are I/O and timing. The model stops at the timeline and palette handed to the video writer.
- The centroid CSV, Excel, trajectory-image and heatmap exporters. They live in `core/data_exporter.py`, which is not part of this model.
- The angle of the grid transform. The transform is rebuilt for every video from that video's width and height, but its rotation is given by a cosine and sine: turning the angle in degrees into them, and Qt's exact values at multiples of 90°, need trigonometry over floats. Only the 2×3 affine part of Qt's transform is modelled; its projective part is always the identity here.
- Geometry.Inverted: one fuzzy-zero test on the determinant. Qt chooses its test by the transform's type (a pure scaling is tested entry by entry on the diagonal, a pure translation is always invertible), so a nearly singular transform may be judged differently.
- BatchRun.GridOf: the worker ignores the invertibility flag, so a singular transform leaves Qt's identity as the inverse. The model does the same.
- Floating point. Coordinates, confidences and averages are exact reals, so the `int()` truncation in the tank computation is exact here. NaN and infinity are not modelled: an endpoint value pandas coerces to NaN is a missing value (None).
- Tracking.TrackAll: the tracker's estimates, Kalman filtering and track ids come from a parameter `update`. The model states what each tracker is fed and which of its reports are written, not what the tracker computes.
- Dictionary and data-frame key order is a parameter in two places, each constrained to list its set once per element:
  - the enriched CSV header is the first detection's fields in a given order (`KeyOrder`);
  - the endpoint columns of the sheets and the summary come in a given order (`ListsSets`).

  A frame's tank order is not a parameter: `Ranking.TankOrder` computes it as the order of first appearance.
- CSV quoting and parsing. A detection file is a sequence of rows of optional cells, and a written table is a sequence of cell strings.
- Path handling is POSIX only. Drive letters and backslash separators are not modelled.
- `random.sample` is a parameter: a sequence of min(2, n-1) distinct indices.
- AnalysisSummary.AnalyseFile: an analyser that raises drops the file, as the per-file handler does, but a failure of the Excel writer on one sheet is not modelled.
- BatchRun.DetectFromFile: the centroid CSV option reads the grid's column and row counts too. That exporter is not part of this model, so a confidence-filter job over an empty detection file, with that option set and a grid key missing, finishes here but fails in the worker.
- Detections.AssignTanks: on failure it reports the lowest-numbered failing frame. Python reports the first failing frame in file order; the two agree when the file is sorted by frame.
- AnalysisSummary.FileResults: tanks come from `sorted(df['tank_number'].unique())`. The model takes integer tanks, with blanks dropped. Non-integral tank numbers, their `int()` merging, and NaN's effect on `sorted()` are not modelled.
- The per-tank analyser parameters: adjusted centres, corners and side-view zones. They only feed the endpoint analyser, which is a parameter (`core/endpoints_analyzer.py` is not part of this model).
- Duplicate sheet names are written as separate sheets. The Excel writer's behaviour on them is not modelled, and neither is an Excel file with no sheet at all.
- The detection dialog's own CSV search (`widgets/batch_dialog.py`). It uses a different priority order and is not part of this model.

## Findings

| source | as written | input that shows it | evidently intended | confidence | as-written member | corrected member |
|---|---|---|---|---|---|---|
| workers/analysis_processor.py:174-182 | the average row already ends with File and Tank, and the code inserts both again at the front, so the summary sheet selects each of those columns twice | any run with one analysed tank, endpoint columns `[d]`: columns become File, Tank, d, File, Tank | File and Tank once, in front, as the file sheets arrange theirs (lines 136-139) | not executed | AnalysisSummary.RunAnalysis | AnalysisSummary.RunAnalysisIntended |

=== FILE: analysis_naming.dfy ===
/** Names chosen by the analysis worker (workers/analysis_processor.py):
    the workbook's file name, built from the first input and a random
    sample of the others, and each file's sheet name. The random sample is
    a parameter. */
module AnalysisNaming {
  import opened Base
  import opened Paths

  /** The characters replaced, one after another, in the order listed:
      [ ] : * ? / \ \ and space (the backslash is listed twice). */
  const InvalidChars: string := "[]:*?/\\\\ "

  /** Every occurrence of c replaced by d. */
  function Replace(s: string, c: char, d: char): (r: string)
    ensures |r| == |s|
    ensures forall i :: 0 <= i < |s| ==> r[i] == (if s[i] == c then d else s[i])
  {
    if s == [] then [] else [if s[0] == c then d else s[0]] + Replace(s[1..], c, d)
  }

  /** name.replace(char, '_') for each listed char in turn. */
  function ReplaceEach(s: string, cs: string): string
    decreases |cs|
  {
    if cs == [] then s else ReplaceEach(Replace(s, cs[0], '_'), cs[1..])
  }

  /** Sanitising: the listed characters become '_', all others stay. */
  function Sanitise(s: string): (r: string)
    ensures |r| == |s|
    ensures forall i :: 0 <= i < |s| ==> r[i] == (if s[i] in InvalidChars then '_' else s[i])
  {
    ReplaceEachPointwise(s, InvalidChars);
    ReplaceEach(s, InvalidChars)
  }

  /** Replacing the listed characters one at a time acts on each position
      at once: since '_' is never itself listed, a later step cannot touch
      what an earlier one wrote. */
  lemma {:induction false} ReplaceEachPointwise(s: string, cs: string)
    requires '_' !in cs
    ensures |ReplaceEach(s, cs)| == |s|
    ensures forall i :: 0 <= i < |s| ==> ReplaceEach(s, cs)[i] == (if s[i] in cs then '_' else s[i])
    decreases |cs|
  {
    if cs != [] {
      var s' := Replace(s, cs[0], '_');
      assert forall k :: 0 <= k < |cs[1..]| ==> cs[1..][k] == cs[k + 1];
      ReplaceEachPointwise(s', cs[1..]);
      forall i | 0 <= i < |s|
        ensures ReplaceEach(s, cs)[i] == (if s[i] in cs then '_' else s[i])
      {
        assert s[i] in cs <==> s[i] == cs[0] || s[i] in cs[1..];
      }
    }
  }

  /** A sanitised name keeps its length and its other characters, and
      holds none of the listed ones. */
  lemma SanitiseSpec(s: string)
    ensures |Sanitise(s)| == |s|
    ensures forall i :: 0 <= i < |s| ==> Sanitise(s)[i] == (if s[i] in InvalidChars then '_' else s[i])
    ensures forall i :: 0 <= i < |s| ==> Sanitise(s)[i] !in InvalidChars
  {
    ReplaceEachPointwise(s, InvalidChars);
  }

  /** Sanitising a second time changes nothing. */
  lemma SanitiseIdempotent(s: string)
    ensures Sanitise(Sanitise(s)) == Sanitise(s)
  {
    SanitiseSpec(s);
    SanitiseSpec(Sanitise(s));
  }

  lemma ReplaceConcat(a: string, b: string, c: char, d: char)
    ensures Replace(a + b, c, d) == Replace(a, c, d) + Replace(b, c, d)
  {
    var l, ra, rb := Replace(a + b, c, d), Replace(a, c, d), Replace(b, c, d);
    var r := ra + rb;
    forall i | 0 <= i < |l|
      ensures l[i] == r[i]
    {
      if i < |a| {
        assert (a + b)[i] == a[i];
        assert r[i] == ra[i];
      } else {
        assert (a + b)[i] == b[i - |a|];
        assert r[i] == rb[i - |a|];
      }
    }
  }

  /** Sanitising works character by character, so it commutes with
      concatenation. */
  lemma {:induction false} ReplaceEachConcat(a: string, b: string, cs: string)
    ensures ReplaceEach(a + b, cs) == ReplaceEach(a, cs) + ReplaceEach(b, cs)
    decreases |cs|
  {
    if cs != [] {
      ReplaceConcat(a, b, cs[0], '_');
      ReplaceEachConcat(Replace(a, cs[0], '_'), Replace(b, cs[0], '_'), cs[1..]);
    }
  }

  /** Sanitising a longer name keeps the sanitised shorter one in front,
      also after cutting both to the same length. */
  lemma SanitisePrefix(x: string, y: string, n: int)
    requires x <= y && n >= 0
    ensures TakePrefix(Sanitise(x), n) <= TakePrefix(Sanitise(y), n)
  {
    var rest := y[|x|..];
    assert y == x + rest;
    ReplaceEachConcat(x, rest, InvalidChars);
  }

  /** str.join: the parts with the separator between neighbours. */
  function JoinWith(parts: seq<string>, sep: string): (r: string)
    ensures parts != [] ==> parts[0] <= r
  {
    if parts == [] then []
    else if |parts| == 1 then parts[0]
    else parts[0] + sep + JoinWith(parts[1..], sep)
  }

  /** The total length of the parts. */
  function TotalLength(parts: seq<string>): nat
  {
    if parts == [] then 0 else |parts[0]| + TotalLength(parts[1..])
  }

  /** A joined string is as long as its parts and the separators between
      them. */
  lemma {:induction false} JoinWithLength(parts: seq<string>, sep: string)
    requires parts != []
    ensures |JoinWith(parts, sep)| == TotalLength(parts) + (|parts| - 1) * |sep|
    decreases |parts|
  {
    if |parts| > 1 {
      JoinWithLength(parts[1..], sep);
    }
  }

  /** random.sample(population, k) with population size m and
      k = min(2, m): k distinct positions of the population. */
  predicate Sample(picks: seq<int>, m: int)
  {
    && |picks| == Min(2, m)
    && (forall k :: 0 <= k < |picks| ==> 0 <= picks[k] < m)
    && (forall k, l :: 0 <= k < l < |picks| ==> picks[k] != picks[l])
  }

  /** The elements at the given positions. */
  function At<T>(xs: seq<T>, picks: seq<int>): (r: seq<T>)
    requires forall k :: 0 <= k < |picks| ==> 0 <= picks[k] < |xs|
    ensures |r| == |picks|
    ensures forall k :: 0 <= k < |picks| ==> r[k] == xs[picks[k]]
  {
    if picks == [] then [] else [xs[picks[0]]] + At(xs, picks[1..])
  }

  /** The names chosen: the first, then those at the sampled positions of
      the rest. */
  function Selected<T>(names: seq<T>, picks: seq<int>): (sel: seq<T>)
    requires names != [] && forall k :: 0 <= k < |picks| ==> 0 <= picks[k] < |names| - 1
    ensures |sel| == 1 + |picks|
    ensures Sample(picks, |names| - 1) ==> |sel| == Min(3, |names|)
    ensures sel[0] == names[0]
    ensures forall k :: 1 <= k < |sel| ==> sel[k] == names[1 + picks[k - 1]]
  {
    [names[0]] + At(names[1..], picks)
  }

  /** The workbook's base name: "analysis_endpoints" without inputs;
      otherwise the chosen base names joined with "__AND__", sanitised and
      cut to 200 characters. */
  function OutputFilename(files: seq<string>, picks: seq<int>): (r: string)
    requires files == [] || Sample(picks, |files| - 1)
    ensures files == [] ==> r == "analysis_endpoints"
    ensures files != [] ==> r <= Sanitise(JoinWith(Selected(Each(Stem, files), picks), "__AND__"))
    ensures files != [] ==> |r| == Min(200, |Sanitise(JoinWith(Selected(Each(Stem, files), picks), "__AND__"))|)
    ensures |r| <= 200
  {
    if files == [] then "analysis_endpoints"
    else TakePrefix(Sanitise(JoinWith(Selected(Each(Stem, files), picks), "__AND__")), 200)
  }

  /** The name is safe: it holds none of the replaced characters. */
  lemma OutputFilenameSafe(files: seq<string>, picks: seq<int>, i: int)
    requires files == [] || Sample(picks, |files| - 1)
    requires 0 <= i < |OutputFilename(files, picks)|
    ensures OutputFilename(files, picks)[i] !in InvalidChars
  {
    var r := OutputFilename(files, picks);
    if files != [] {
      PrefixSafe(JoinWith(Selected(Each(Stem, files), picks), "__AND__"), r, i);
    }
  }

  /** A prefix of a sanitised string holds none of the replaced
      characters. */
  lemma PrefixSafe(x: string, r: string, i: int)
    requires r <= Sanitise(x) && 0 <= i < |r|
    ensures r[i] !in InvalidChars
  {
    SanitiseSpec(x);
    assert r[i] == Sanitise(x)[i];
  }

  /** A suffix of a sanitised string holds none of the replaced
      characters. */
  lemma SuffixSafe(x: string, r: string, i: int)
    requires |r| <= |Sanitise(x)| && r == Sanitise(x)[|Sanitise(x)| - |r|..] && 0 <= i < |r|
    ensures r[i] !in InvalidChars
  {
    SanitiseSpec(x);
    assert r[i] == Sanitise(x)[|Sanitise(x)| - |r| + i];
  }

  /** The name begins with the first input's sanitised base name (as much
      of it as fits in 200 characters), whatever the sample. */
  lemma OutputFilenameLeads(files: seq<string>, picks: seq<int>)
    requires files != [] && Sample(picks, |files| - 1)
    ensures TakePrefix(Sanitise(Stem(files[0])), 200) <= OutputFilename(files, picks)
  {
    var sel := Selected(Each(Stem, files), picks);
    SanitisePrefix(sel[0], JoinWith(sel, "__AND__"), 200);
  }

  /** An input's sheet name: its base name without extension, sanitised,
      and, when longer than 31 characters, only its last 31. */
  function SheetName(filename: string): (r: string)
    ensures |r| <= 31
    ensures var s := Sanitise(SplitExt(filename).0);
            && |r| == Min(31, |s|) && r == s[|s| - |r|..]
  {
    var s := Sanitise(SplitExt(filename).0);
    if |s| > 31 then s[|s| - 31..] else s
  }

  /** A sheet name holds none of the replaced characters, and a short
      enough name is kept whole. */
  lemma SheetNameSafe(filename: string, i: int)
    requires 0 <= i < |SheetName(filename)|
    ensures SheetName(filename)[i] !in InvalidChars
    ensures |SplitExt(filename).0| <= 31 ==> SheetName(filename) == Sanitise(SplitExt(filename).0)
  {
    var stem := SplitExt(filename).0;
    SanitiseSpec(stem);
    SuffixSafe(stem, SheetName(filename), i);
  }
}

=== FILE: analysis_summary.dfy ===
/** The analysis worker's tables (workers/analysis_processor.py): per input
    file, one result per tank with enough rows, in ascending tank order,
    and an average row; over all files, a grand average. The endpoint
    analyser, the file reader and pandas' column order are parameters; an
    endpoint value that is missing or not numeric is None. */
module AnalysisSummary {
  import opened Base
  import opened Paths
  import opened Frames
  import opened AnalysisNaming

  /** A tank needs this many rows to be analysed. */
  const MinRows := 3

  /** The columns a file must have to be analysed. */
  const Required: seq<string> := ["frame_idx", "cx", "cy", "tank_number", "class_name"]

  /** One tank's endpoints; the File and Tank cells are kept apart. */
  datatype TankResult = TankResult(tank: int, endpoints: map<string, Option<real>>)

  /** df[df['tank_number'] == t]: the rows of tank t, in file order. */
  function TankRows<R>(rows: seq<R>, tankOf: R -> Option<int>, t: int): (r: seq<R>)
    ensures |r| <= |rows|
    ensures forall i :: 0 <= i < |r| ==> tankOf(r[i]) == Some(t) && r[i] in rows
    ensures forall i :: 0 <= i < |rows| && tankOf(rows[i]) == Some(t) ==> rows[i] in r
  {
    if rows == [] then []
    else
      var rest := TankRows(rows[1..], tankOf, t);
      assert forall i :: 1 <= i < |rows| ==> rows[i] == rows[1..][i - 1];
      if tankOf(rows[0]) == Some(t) then [rows[0]] + rest else rest
  }

  /** A row of tank t occurs among the tank's rows as often as in the file;
      any other row not at all. */
  lemma {:induction false} TankRowsCount<R>(rows: seq<R>, tankOf: R -> Option<int>, t: int, x: R)
    ensures multiset(TankRows(rows, tankOf, t))[x] == if tankOf(x) == Some(t) then multiset(rows)[x] else 0
    decreases |rows|
  {
    if rows != [] {
      TankRowsCount(rows[1..], tankOf, t, x);
      assert rows == [rows[0]] + rows[1..];
    }
  }

  /** Selecting a tank's rows commutes with concatenation: the rows keep
      their file order, repeats included. */
  lemma {:induction false} TankRowsConcat<R>(a: seq<R>, b: seq<R>, tankOf: R -> Option<int>, t: int)
    ensures TankRows(a + b, tankOf, t) == TankRows(a, tankOf, t) + TankRows(b, tankOf, t)
    decreases |a|
  {
    if a == [] {
      assert a + b == b;
    } else {
      assert (a + b)[0] == a[0];
      assert (a + b)[1..] == a[1..] + b;
      TankRowsConcat(a[1..], b, tankOf, t);
    }
  }

  /** The tank numbers present; a blank tank cell names none. */
  function TankIds<R>(rows: seq<R>, tankOf: R -> Option<int>): set<int>
  {
    set i | 0 <= i < |rows| && tankOf(rows[i]).Some? :: tankOf(rows[i]).value
  }

  /** Tank t has enough rows to be analysed. */
  predicate Kept<R>(rows: seq<R>, tankOf: R -> Option<int>, t: int)
  {
    |TankRows(rows, tankOf, t)| >= MinRows
  }

  /** The tank numbers of a list of results. */
  function TanksOf(rs: seq<TankResult>): (ts: seq<int>)
    ensures |ts| == |rs|
    ensures forall i :: 0 <= i < |rs| ==> ts[i] == rs[i].tank
  {
    if rs == [] then [] else [rs[0].tank] + TanksOf(rs[1..])
  }

  /** The tanks' results in the given order, skipping tanks with fewer than
      MinRows rows. */
  function Results<R>(tanks: seq<int>, rows: seq<R>, tankOf: R -> Option<int>,
                      analyze: seq<R> -> map<string, Option<real>>): (rs: seq<TankResult>)
    ensures |rs| <= |tanks|
    ensures forall t :: t in TanksOf(rs) <==> t in tanks && Kept(rows, tankOf, t)
    ensures forall i :: 0 <= i < |rs| ==> rs[i].endpoints == analyze(TankRows(rows, tankOf, rs[i].tank))
  {
    if tanks == [] then []
    else
      var t := tanks[0];
      var rest := Results(tanks[1..], rows, tankOf, analyze);
      assert forall x :: x in tanks <==> x == t || x in tanks[1..];
      if !Kept(rows, tankOf, t) then rest
      else
        var rs := [TankResult(t, analyze(TankRows(rows, tankOf, t)))] + rest;
        assert TanksOf(rs) == [t] + TanksOf(rest);
        assert forall i :: 1 <= i < |rs| ==> rs[i] == rest[i - 1];
        rs
  }

  /** Strictly ascending integers. */
  predicate Ascending(xs: seq<int>)
  {
    forall i, j :: 0 <= i < j < |xs| ==> xs[i] < xs[j]
  }

  /** Results keep the order of the tanks they come from. */
  lemma {:induction false} ResultsOrdered<R>(tanks: seq<int>, rows: seq<R>, tankOf: R -> Option<int>,
                                             analyze: seq<R> -> map<string, Option<real>>)
    requires Ascending(tanks)
    ensures Ascending(TanksOf(Results(tanks, rows, tankOf, analyze)))
    decreases |tanks|
  {
    if tanks != [] {
      var t := tanks[0];
      var rest := Results(tanks[1..], rows, tankOf, analyze);
      ResultsOrdered(tanks[1..], rows, tankOf, analyze);
      var ts := TanksOf(rest);
      AscendingHead(tanks);
      assert forall i :: 0 <= i < |ts| ==> t < ts[i] by {
        forall i | 0 <= i < |ts|
          ensures t < ts[i]
        {
          assert ts[i] in ts;
        }
      }
      if Kept(rows, tankOf, t) {
        var r := TankResult(t, analyze(TankRows(rows, tankOf, t)));
        assert Results(tanks, rows, tankOf, analyze) == [r] + rest;
        assert TanksOf([r] + rest) == [t] + ts;
        AscendingCons(t, ts);
      } else {
        assert Results(tanks, rows, tankOf, analyze) == rest;
      }
    }
  }

  /** The head of an ascending sequence is below all the rest. */
  lemma AscendingHead(xs: seq<int>)
    requires xs != [] && Ascending(xs)
    ensures forall u :: u in xs[1..] ==> xs[0] < u
  {
    forall u | u in xs[1..]
      ensures xs[0] < u
    {
      var k :| 0 <= k < |xs[1..]| && xs[1..][k] == u;
      assert xs[k + 1] == u;
    }
  }

  /** A value below an ascending sequence extends it at the front. */
  lemma AscendingCons(t: int, ts: seq<int>)
    requires Ascending(ts) && forall i :: 0 <= i < |ts| ==> t < ts[i]
    ensures Ascending([t] + ts)
  {
    var all := [t] + ts;
    forall i, j | 0 <= i < j < |all|
      ensures all[i] < all[j]
    {
      assert all[j] == ts[j - 1];
      if i > 0 {
        assert all[i] == ts[i - 1];
      }
    }
  }

  /** Strictly ascending tanks give results in strictly ascending tank
      order, and a result for every tank that has enough rows. */
  lemma ResultsFor<R>(tanks: seq<int>, rows: seq<R>, tankOf: R -> Option<int>,
                      analyze: seq<R> -> map<string, Option<real>>, t: int)
    requires Ascending(tanks)
    requires Kept(rows, tankOf, t) ==> t in tanks
    ensures var rs := Results(tanks, rows, tankOf, analyze);
            && (t in TanksOf(rs) <==> Kept(rows, tankOf, t))
            && (forall i, j :: 0 <= i < j < |rs| ==> rs[i].tank < rs[j].tank)
  {
    ResultsOrdered(tanks, rows, tankOf, analyze);
    var rs := Results(tanks, rows, tankOf, analyze);
    var ts := TanksOf(rs);
    forall i, j | 0 <= i < j < |rs|
      ensures rs[i].tank < rs[j].tank
    {
      assert ts[i] == rs[i].tank && ts[j] == rs[j].tank;
    }
  }

  /** One file's results: its tanks in ascending order (blank cells
      dropped), each analysed on its own rows when it has at least
      MinRows of them. */
  function FileResults<R>(rows: seq<R>, tankOf: R -> Option<int>,
                          analyze: seq<R> -> map<string, Option<real>>): (rs: seq<TankResult>)
    ensures forall t :: t in TanksOf(rs) ==> Kept(rows, tankOf, t)
    ensures forall i :: 0 <= i < |rs| ==> rs[i].endpoints == analyze(TankRows(rows, tankOf, rs[i].tank))
  {
    Results(SortedInts(TankIds(rows, tankOf)), rows, tankOf, analyze)
  }

  /** A tank with a row is among the file's tanks. */
  lemma PresentTank<R>(rows: seq<R>, tankOf: R -> Option<int>, t: int)
    requires TankRows(rows, tankOf, t) != []
    ensures t in TankIds(rows, tankOf)
  {
    var tr := TankRows(rows, tankOf, t);
    var d := tr[0];
    assert tankOf(d) == Some(t) && d in rows;
    var i :| 0 <= i < |rows| && rows[i] == d;
  }

  /** A file has a result for tank t exactly when at least MinRows of its
      rows name t; results come in strictly ascending tank order, each
      computed from that tank's rows alone. */
  lemma FileResultsSpec<R>(rows: seq<R>, tankOf: R -> Option<int>,
                           analyze: seq<R> -> map<string, Option<real>>, t: int)
    ensures var rs := FileResults(rows, tankOf, analyze);
            && (t in TanksOf(rs) <==> |TankRows(rows, tankOf, t)| >= MinRows)
            && (forall i, j :: 0 <= i < j < |rs| ==> rs[i].tank < rs[j].tank)
            && (forall i :: 0 <= i < |rs| ==> rs[i].endpoints == analyze(TankRows(rows, tankOf, rs[i].tank)))
  {
    var tanks := SortedInts(TankIds(rows, tankOf));
    if Kept(rows, tankOf, t) {
      PresentTank(rows, tankOf, t);
    }
    ResultsFor(tanks, rows, tankOf, analyze, t);
  }

  /** A result's cell in a column: None when the analyser gave no value. */
  function Cell(r: TankResult, col: string): Option<real>
  {
    if col in r.endpoints then r.endpoints[col] else None
  }

  /** A cell's contribution to a column sum: nothing when it is missing. */
  function Val(r: TankResult, col: string): real
  {
    if Cell(r, col).Some? then Cell(r, col).value else 0.0
  }

  /** Column sum with missing cells skipped. */
  function SumPresent(rs: seq<TankResult>, col: string): real
  {
    if rs == [] then 0.0 else Val(rs[0], col) + SumPresent(rs[1..], col)
  }

  /** The column average: the sum of the present cells over the number of
      all rows, missing ones included. */
  function Average(rs: seq<TankResult>, col: string): real
    requires rs != []
  {
    SumPresent(rs, col) / (|rs| as real)
  }

  /** A column's cells with the missing ones read as zero. */
  function ZeroFilled(rs: seq<TankResult>, col: string): (xs: seq<real>)
    ensures |xs| == |rs|
    ensures forall i :: 0 <= i < |rs| ==> xs[i] == (if Cell(rs[i], col).Some? then Cell(rs[i], col).value else 0.0)
  {
    if rs == [] then [] else [Val(rs[0], col)] + ZeroFilled(rs[1..], col)
  }

  function Sum(xs: seq<real>): real
  {
    if xs == [] then 0.0 else xs[0] + Sum(xs[1..])
  }

  /** The average is the plain mean of the column with missing cells read
      as zero. */
  lemma {:induction false} AverageIsZeroFilledMean(rs: seq<TankResult>, col: string)
    requires rs != []
    ensures Average(rs, col) == Sum(ZeroFilled(rs, col)) / (|rs| as real)
  {
    SumPresentZeroFilled(rs, col);
  }

  lemma {:induction false} SumPresentZeroFilled(rs: seq<TankResult>, col: string)
    ensures SumPresent(rs, col) == Sum(ZeroFilled(rs, col))
    decreases |rs|
  {
    if rs != [] {
      SumPresentZeroFilled(rs[1..], col);
      assert ZeroFilled(rs, col)[1..] == ZeroFilled(rs[1..], col);
    }
  }

  /** A column with no value at all averages to zero, not to a blank. */
  lemma {:induction false} AverageAllMissing(rs: seq<TankResult>, col: string)
    requires rs != [] && forall i :: 0 <= i < |rs| ==> Cell(rs[i], col).None?
    ensures Average(rs, col) == 0.0
  {
    SumAllMissing(rs, col);
  }

  lemma {:induction false} SumAllMissing(rs: seq<TankResult>, col: string)
    requires forall i :: 0 <= i < |rs| ==> Cell(rs[i], col).None?
    ensures SumPresent(rs, col) == 0.0
    decreases |rs|
  {
    if rs != [] {
      assert forall i :: 0 <= i < |rs[1..]| ==> rs[1..][i] == rs[i + 1];
      SumAllMissing(rs[1..], col);
    }
  }

  /** With no cell missing, the average lies between the least and the
      greatest value. */
  lemma AverageBounds(rs: seq<TankResult>, col: string, lo: real, hi: real)
    requires rs != []
    requires forall i :: 0 <= i < |rs| ==> Cell(rs[i], col).Some? && lo <= Cell(rs[i], col).value <= hi
    ensures lo <= Average(rs, col) <= hi
  {
    SumBounds(rs, col, lo, hi);
    var n := |rs| as real;
    var s := SumPresent(rs, col);
    var a := s / n;
    assert a * n == s;
    if a < lo {
      assert a * n < lo * n;
    }
    if a > hi {
      assert a * n > hi * n;
    }
  }

  lemma {:induction false} SumBounds(rs: seq<TankResult>, col: string, lo: real, hi: real)
    requires forall i :: 0 <= i < |rs| ==> Cell(rs[i], col).Some? && lo <= Cell(rs[i], col).value <= hi
    ensures (|rs| as real) * lo <= SumPresent(rs, col) <= (|rs| as real) * hi
    decreases |rs|
  {
    if rs != [] {
      assert forall i :: 0 <= i < |rs[1..]| ==> rs[1..][i] == rs[i + 1];
      SumBounds(rs[1..], col, lo, hi);
      assert Cell(rs[0], col).Some?;
    }
  }

  lemma {:induction false} SumPresentConcat(a: seq<TankResult>, b: seq<TankResult>, col: string)
    ensures SumPresent(a + b, col) == SumPresent(a, col) + SumPresent(b, col)
    decreases |a|
  {
    if a != [] {
      assert (a + b)[0] == a[0];
      assert (a + b)[1..] == a[1..] + b;
      SumPresentConcat(a[1..], b, col);
    } else {
      assert a + b == b;
    }
  }

  /** Averaging two files' results together weighs each file's average by
      its number of tanks. */
  lemma AverageOfConcat(a: seq<TankResult>, b: seq<TankResult>, col: string)
    requires a != [] && b != []
    ensures Average(a + b, col) * ((|a| + |b|) as real) == Average(a, col) * (|a| as real) + Average(b, col) * (|b| as real)
  {
    SumPresentConcat(a, b, col);
  }

  /** The averaged columns: every endpoint some result has, except File and
      Tank. */
  function Columns(rs: seq<TankResult>): set<string>
  {
    set i, c | 0 <= i < |rs| && c in rs[i].endpoints && c != "File" && c != "Tank" :: c
  }

  /** The average row. */
  function Averages(rs: seq<TankResult>): (avg: map<string, real>)
    requires rs != []
    ensures avg.Keys == Columns(rs)
    ensures forall c :: c in avg ==> avg[c] == SumPresent(rs, c) / (|rs| as real)
  {
    map c | c in Columns(rs) :: Average(rs, c)
  }

  /** xs.index(x): the first position of x. */
  function IndexOf<T(==)>(xs: seq<T>, x: T): (i: int)
    requires x in xs
    ensures 0 <= i < |xs| && xs[i] == x && x !in xs[..i]
  {
    if xs[0] == x then 0
    else
      var k := IndexOf(xs[1..], x);
      assert xs[..k + 1] == [xs[0]] + xs[1..][..k];
      k + 1
  }

  /** xs.pop(xs.index(x)): the first x taken out, the rest in order. */
  function RemoveFirst<T(==)>(xs: seq<T>, x: T): (r: seq<T>)
    requires x in xs
    ensures multiset(r) == multiset(xs) - multiset{x}
  {
    var i := IndexOf(xs, x);
    assert xs == xs[..i] + [x] + xs[i + 1..];
    xs[..i] + xs[i + 1..]
  }

  /** xs.insert(0, xs.pop(xs.index(x))): x moved to the front, nothing
      lost or added. */
  function ToFront<T(==)>(xs: seq<T>, x: T): (r: seq<T>)
    requires x in xs
    ensures multiset(r) == multiset(xs)
    ensures r[0] == x
  {
    [x] + RemoveFirst(xs, x)
  }

  /** Moving an appended x that was not there before puts it in front of
      the rest, which keeps its order. */
  lemma ToFrontAppended<T>(xs: seq<T>, x: T)
    requires x !in xs
    ensures x in xs + [x]
    ensures ToFront(xs + [x], x) == [x] + xs
  {
    var ys := xs + [x];
    var i := IndexOf(ys, x);
    assert forall k :: 0 <= k < |xs| ==> ys[k] == xs[k];
    assert ys[..i] == xs;
  }

  /** Moving an x that is not in front leaves the old head second. */
  lemma ToFrontKeepsHead<T>(xs: seq<T>, x: T)
    requires x in xs && xs[0] != x
    ensures |ToFront(xs, x)| >= 2 && ToFront(xs, x)[1] == xs[0]
  {
    var i := IndexOf(xs, x);
    assert xs[..i][0] == xs[0];
  }

  /** A file sheet's columns: Tank, then File, are moved to the front when
      both are present; the others keep their order. */
  function MoveToFront(cols: seq<string>): (r: seq<string>)
    ensures multiset(r) == multiset(cols)
    ensures "File" in cols && "Tank" in cols ==> |r| >= 2 && r[0] == "File" && r[1] == "Tank"
    ensures !("File" in cols && "Tank" in cols) ==> r == cols
  {
    if "File" in cols && "Tank" in cols then
      var withTank := ToFront(cols, "Tank");
      assert "File" in withTank by {
        assert multiset(withTank)["File"] == multiset(cols)["File"];
      }
      ToFrontKeepsHead(withTank, "File");
      ToFront(withTank, "File")
    else cols
  }

  /** Moving to the front rearranges the columns: it neither loses nor
      repeats one, and File and Tank lead. */
  lemma MoveToFrontPermutes(cols: seq<string>)
    requires "File" in cols && "Tank" in cols
    ensures multiset(MoveToFront(cols)) == multiset(cols)
    ensures MoveToFront(cols)[..2] == ["File", "Tank"]
  {
    ToFrontKeepsHead(ToFront(cols, "Tank"), "File");
    FirstTwo(MoveToFront(cols));
  }

  lemma FirstTwo<T>(r: seq<T>)
    requires |r| >= 2
    ensures r[..2] == [r[0], r[1]]
  {
  }

  predicate Distinct(cols: seq<string>)
  {
    forall i, j :: 0 <= i < j < |cols| ==> cols[i] != cols[j]
  }

  /** The summary sheet's columns as written: File and Tank inserted in
      front of the average row's columns, which already end with them. */
  function GrandColumnsAsWritten(numeric: seq<string>): seq<string>
  {
    ["File", "Tank"] + (numeric + ["File", "Tank"])
  }

  /** Whatever the averaged columns, the summary sheet repeats File and
      Tank. */
  lemma GrandColumnsRepeat(numeric: seq<string>)
    ensures var cols := GrandColumnsAsWritten(numeric);
            && cols[0] == cols[|numeric| + 2] == "File"
            && cols[1] == cols[|numeric| + 3] == "Tank"
            && !Distinct(cols)
  {
    var cols := GrandColumnsAsWritten(numeric);
    assert cols[|numeric| + 2] == "File";
  }

  /** The summary sheet's columns as the file sheets arrange theirs. */
  function GrandColumns(numeric: seq<string>): seq<string>
  {
    MoveToFront(numeric + ["File", "Tank"])
  }

  /** The arranged summary columns are File, Tank and then the averaged
      columns, each once. */
  lemma GrandColumnsDistinct(numeric: seq<string>)
    requires Distinct(numeric) && "File" !in numeric && "Tank" !in numeric
    ensures GrandColumns(numeric) == ["File", "Tank"] + numeric
    ensures Distinct(GrandColumns(numeric))
  {
    GrandColumnsShape(numeric);
    DistinctCons("Tank", numeric);
    DistinctCons("File", ["Tank"] + numeric);
    PairInFront("File", "Tank", numeric);
  }

  lemma GrandColumnsShape(numeric: seq<string>)
    requires "File" !in numeric && "Tank" !in numeric
    ensures GrandColumns(numeric) == ["File", "Tank"] + numeric
  {
    assert "Tank" != "File" by {
      assert "Tank"[0] != "File"[0];
    }
    var a := numeric + ["File"];
    var b := ["Tank"] + numeric;
    PairAtEnd(numeric, "File", "Tank");
    ToFrontAppended(a, "Tank");
    Regroup(["Tank"], numeric, ["File"]);
    ToFrontAppended(b, "File");
    PairInFront("File", "Tank", numeric);
  }

  /** Concatenation regroups freely. */
  lemma Regroup<T>(xs: seq<T>, ys: seq<T>, zs: seq<T>)
    ensures xs + (ys + zs) == (xs + ys) + zs
  {
  }

  lemma PairAtEnd<T>(xs: seq<T>, x: T, y: T)
    ensures xs + [x, y] == (xs + [x]) + [y]
  {
  }

  lemma PairInFront<T>(x: T, y: T, xs: seq<T>)
    ensures [x] + ([y] + xs) == [x, y] + xs
  {
  }

  /** A new element in front of distinct ones keeps them distinct. */
  lemma DistinctCons(x: string, xs: seq<string>)
    requires Distinct(xs) && x !in xs
    ensures Distinct([x] + xs)
  {
    var r := [x] + xs;
    forall i, j | 0 <= i < j < |r|
      ensures r[i] != r[j]
    {
      assert r[j] == xs[j - 1];
      if i > 0 {
        assert r[i] == xs[i - 1];
      }
    }
  }

  /** One file's sheet: its name, its columns, its tank results and its
      average row. */
  datatype Sheet = Sheet(name: string, columns: seq<string>, results: seq<TankResult>, averages: map<string, real>)

  /** The summary sheet: its columns and the grand average row. */
  datatype Summary = Summary(columns: seq<string>, averages: map<string, real>)

  /** What an input file holds once read: its columns and its rows. */
  datatype Table<R> = Table(columns: seq<string>, rows: seq<R>)

  /** The endpoint analyser: a tank's endpoints from its rows, or None when
      it raises. */
  type Analyser<-R> = seq<R> -> Option<map<string, Option<real>>>

  /** The endpoints the analyser returns, read as empty where it raised. */
  function Endpoints<R>(analyze: Analyser<R>): seq<R> -> map<string, Option<real>>
  {
    (rows: seq<R>) => if analyze(rows).Some? then analyze(rows).value else map[]
  }

  /** The analyser returns for every tank of the file that has enough rows. */
  predicate AnalysedAll<R>(rows: seq<R>, tankOf: R -> Option<int>, analyze: Analyser<R>)
  {
    forall t :: t in TankIds(rows, tankOf) && Kept(rows, tankOf, t) ==> analyze(TankRows(rows, tankOf, t)).Some?
  }

  /** xs lists the set s, each element once. */
  predicate Lists(xs: seq<string>, s: set<string>)
  {
    Distinct(xs) && (forall c :: c in xs ==> c in s) && (forall c :: c in s ==> c in xs)
  }

  /** The column order lists every set of columns, each column once. */
  ghost predicate ListsSets(order: set<string> -> seq<string>)
  {
    forall s :: Lists(order(s), s)
  }

  /** One input: None when it cannot be read, lacks a required column, has
      a tank on which the analyser raises, or has no tank with enough rows;
      otherwise its sheet, whose columns are File, Tank and then the
      endpoint columns, each once. */
  function AnalyseFile<R>(path: string, data: Option<Table<R>>, tankOf: R -> Option<int>,
                          analyze: Analyser<R>, order: set<string> -> seq<string>): (s: Option<Sheet>)
    requires ListsSets(order)
    ensures s.Some? ==> data.Some? && (forall c :: c in Required ==> c in data.value.columns)
    ensures s.Some? ==> AnalysedAll(data.value.rows, tankOf, analyze)
    ensures s.Some? ==> s.value.results == FileResults(data.value.rows, tankOf, Endpoints(analyze)) && s.value.results != []
    ensures s.Some? ==> s.value.name == SheetName(Basename(path)) && s.value.averages.Keys == Columns(s.value.results)
    ensures s.Some? ==> s.value.columns == ["File", "Tank"] + order(Columns(s.value.results)) && Distinct(s.value.columns)
    ensures (data.Some? && (forall c :: c in Required ==> c in data.value.columns) &&
             AnalysedAll(data.value.rows, tankOf, analyze) &&
             FileResults(data.value.rows, tankOf, Endpoints(analyze)) != []) ==> s.Some?
  {
    match data
    case None => None
    case Some(table) =>
      if exists c :: c in Required && c !in table.columns then None
      else if !AnalysedAll(table.rows, tankOf, analyze) then None
      else
        var rs := FileResults(table.rows, tankOf, Endpoints(analyze));
        if rs == [] then None
        else
          var numeric := order(Columns(rs));
          GrandColumnsDistinct(numeric);
          Some(Sheet(SheetName(Basename(path)), MoveToFront(numeric + ["File", "Tank"]), rs, Averages(rs)))
  }

  /** Each result of a sheet is what the analyser returned for that tank's
      rows. */
  lemma AnalysedEndpoints<R>(path: string, data: Option<Table<R>>, tankOf: R -> Option<int>,
                             analyze: Analyser<R>, order: set<string> -> seq<string>, i: int)
    requires ListsSets(order)
    requires AnalyseFile(path, data, tankOf, analyze, order).Some?
    requires 0 <= i < |AnalyseFile(path, data, tankOf, analyze, order).value.results|
    ensures var r := AnalyseFile(path, data, tankOf, analyze, order).value.results[i];
            analyze(TankRows(data.value.rows, tankOf, r.tank)) == Some(r.endpoints)
  {
    var rows := data.value.rows;
    var rs := FileResults(rows, tankOf, Endpoints(analyze));
    var t := rs[i].tank;
    assert TanksOf(rs)[i] == t;
    FileResultsSpec(rows, tankOf, Endpoints(analyze), t);
    PresentTank(rows, tankOf, t);
  }

  /** One input's sheet, if it has one; a sheet always has results. */
  function SheetOf<R>(path: string, read: string -> Option<Table<R>>, tankOf: R -> Option<int>,
                      analyze: Analyser<R>, order: set<string> -> seq<string>): (s: Option<Sheet>)
    requires ListsSets(order)
    ensures s.Some? ==> s.value.results != []
  {
    AnalyseFile(path, read(path), tankOf, analyze, order)
  }

  /** Every sheet has a result. */
  predicate AllAnalysed(ss: seq<Sheet>)
  {
    forall s :: s in ss ==> s.results != []
  }

  /** SheetOf as a function of the path alone. */
  function SheetFn<R>(read: string -> Option<Table<R>>, tankOf: R -> Option<int>,
                      analyze: Analyser<R>, order: set<string> -> seq<string>): (f: string -> Option<Sheet>)
    requires ListsSets(order)
    ensures forall p :: f(p) == SheetOf(p, read, tankOf, analyze, order)
  {
    (p: string) => SheetOf(p, read, tankOf, analyze, order)
  }

  /** The sheets of the inputs, in input order. */
  function Sheets<R>(paths: seq<string>, read: string -> Option<Table<R>>, tankOf: R -> Option<int>,
                     analyze: Analyser<R>, order: set<string> -> seq<string>): (ss: seq<Sheet>)
    requires ListsSets(order)
    ensures |ss| <= |paths|
    ensures AllAnalysed(ss)
  {
    var f := SheetFn(read, tankOf, analyze, order);
    var ss := Keep(f, paths);
    assert AllAnalysed(ss) by {
      forall s | s in ss
        ensures s.results != []
      {
        KeepMembers(f, paths, s);
        var i :| 0 <= i < |paths| && f(paths[i]) == Some(s);
      }
    }
    ss
  }

  /** The sheets of two runs of inputs are those of the first run followed
      by those of the second: input order is kept. */
  lemma SheetsConcat<R>(a: seq<string>, b: seq<string>, read: string -> Option<Table<R>>,
                        tankOf: R -> Option<int>, analyze: Analyser<R>,
                        order: set<string> -> seq<string>)
    requires ListsSets(order)
    ensures Sheets(a + b, read, tankOf, analyze, order)
              == Sheets(a, read, tankOf, analyze, order) + Sheets(b, read, tankOf, analyze, order)
  {
    KeepConcat(SheetFn(read, tankOf, analyze, order), a, b);
  }

  /** A sheet is in the workbook exactly when some input yields it. */
  lemma SheetsMembers<R>(paths: seq<string>, read: string -> Option<Table<R>>,
                         tankOf: R -> Option<int>, analyze: Analyser<R>,
                         order: set<string> -> seq<string>, s: Sheet)
    requires ListsSets(order)
    ensures s in Sheets(paths, read, tankOf, analyze, order) <==>
              exists i :: 0 <= i < |paths| && SheetOf(paths[i], read, tankOf, analyze, order) == Some(s)
  {
    var f := SheetFn(read, tankOf, analyze, order);
    KeepMembers(f, paths, s);
    assert forall i :: 0 <= i < |paths| ==> f(paths[i]) == SheetOf(paths[i], read, tankOf, analyze, order);
  }

  /** grand_total_results: every sheet's tank results, in order. */
  function AllResults(ss: seq<Sheet>): (rs: seq<TankResult>)
    ensures (rs == []) <==> forall i :: 0 <= i < |ss| ==> ss[i].results == []
  {
    if ss == [] then [] else ss[0].results + AllResults(ss[1..])
  }

  /** The grand results of two runs of sheets are the first run's followed
      by the second's. */
  lemma {:induction false} AllResultsConcat(a: seq<Sheet>, b: seq<Sheet>)
    ensures AllResults(a + b) == AllResults(a) + AllResults(b)
    decreases |a|
  {
    if a == [] {
      assert a + b == b;
    } else {
      var ab := a + b;
      assert ab[0] == a[0] && ab[1..] == a[1..] + b;
      AllResultsConcat(a[1..], b);
      calc {
        AllResults(ab);
        ab[0].results + AllResults(ab[1..]);
        a[0].results + (AllResults(a[1..]) + AllResults(b));
        (a[0].results + AllResults(a[1..])) + AllResults(b);
      }
    }
  }

  /** A tank result is in the grand results exactly when some sheet has it. */
  lemma {:induction false} AllResultsMembers(ss: seq<Sheet>, r: TankResult)
    ensures r in AllResults(ss) <==> exists i :: 0 <= i < |ss| && r in ss[i].results
    decreases |ss|
  {
    if ss != [] {
      AllResultsMembers(ss[1..], r);
      if exists i :: 0 <= i < |ss[1..]| && r in ss[1..][i].results {
        var i :| 0 <= i < |ss[1..]| && r in ss[1..][i].results;
        assert ss[i + 1] == ss[1..][i];
      }
      if exists i :: 0 <= i < |ss| && r in ss[i].results {
        var i :| 0 <= i < |ss| && r in ss[i].results;
        if i > 0 {
          assert ss[1..][i - 1] == ss[i];
        }
      }
    }
  }

  /** The workbook: its file name, the file sheets and, when any tank
      was analysed, the summary. */
  datatype Workbook = Workbook(file: string, sheets: seq<Sheet>, summary: Option<Summary>)

  /** The run as written: the summary's columns repeat File and Tank. */
  function RunAnalysis<R>(paths: seq<string>, picks: seq<int>, read: string -> Option<Table<R>>,
                          tankOf: R -> Option<int>, analyze: Analyser<R>,
                          order: set<string> -> seq<string>): (w: Workbook)
    requires ListsSets(order)
    requires paths == [] || Sample(picks, |paths| - 1)
    ensures w.file == OutputFilename(paths, picks) + ".xlsx"
    ensures w.sheets == Sheets(paths, read, tankOf, analyze, order)
    ensures w.summary.Some? <==> w.sheets != []
    ensures w.summary.Some? ==> w.summary.value.averages.Keys == Columns(AllResults(w.sheets))
    ensures w.summary.Some? ==> !Distinct(w.summary.value.columns)
  {
    var ss := Sheets(paths, read, tankOf, analyze, order);
    var all := AllResults(ss);
    var summary := if all == [] then None else Some(Summary(GrandColumnsAsWritten(order(Columns(all))), Averages(all)));
    GrandColumnsRepeat(order(Columns(all)));
    Workbook(OutputFilename(paths, picks) + ".xlsx", ss, summary)
  }

  /** The run as evidently intended: the same workbook, with the summary's
      columns arranged as the file sheets arrange theirs. */
  function RunAnalysisIntended<R>(paths: seq<string>, picks: seq<int>, read: string -> Option<Table<R>>,
                                  tankOf: R -> Option<int>, analyze: Analyser<R>,
                                  order: set<string> -> seq<string>): (w: Workbook)
    requires ListsSets(order)
    requires paths == [] || Sample(picks, |paths| - 1)
    ensures var v := RunAnalysis(paths, picks, read, tankOf, analyze, order);
            && w.file == v.file && w.sheets == v.sheets && (w.summary.Some? <==> v.summary.Some?)
            && (w.summary.Some? ==> w.summary.value.averages == v.summary.value.averages)
    ensures w.summary.Some? ==>
              w.summary.value.columns == ["File", "Tank"] + order(Columns(AllResults(w.sheets)))
              && Distinct(w.summary.value.columns)
  {
    var v := RunAnalysis(paths, picks, read, tankOf, analyze, order);
    if v.summary.None? then v
    else
      var numeric := order(Columns(AllResults(v.sheets)));
      GrandColumnsDistinct(numeric);
      v.(summary := Some(v.summary.value.(columns := GrandColumns(numeric))))
  }

  /** The summary's column sums are the sums of the sheets' column sums:
      each sheet contributes its average times its number of tanks. */
  lemma {:induction false} GrandSum(ss: seq<Sheet>, col: string)
    requires AllAnalysed(ss)
    ensures SumPresent(AllResults(ss), col) == SheetSums(ss, col)
    decreases |ss|
  {
    if ss != [] {
      var rs := ss[0].results;
      assert forall s :: s in ss[1..] ==> s in ss;
      var rest := AllResults(ss[1..]);
      assert AllResults(ss) == rs + rest;
      SumPresentConcat(rs, rest, col);
      GrandSum(ss[1..], col);
      AverageTimesCount(rs, col);
    }
  }

  /** A sheet's average weighted by its number of tanks. */
  function Weighted(rs: seq<TankResult>, col: string): real
    requires rs != []
  {
    Average(rs, col) * (|rs| as real)
  }

  /** Multiplying the average back by the count gives the sum. */
  lemma AverageTimesCount(rs: seq<TankResult>, col: string)
    requires rs != []
    ensures Weighted(rs, col) == SumPresent(rs, col)
  {
  }

  /** The sum over the sheets of each sheet's average times its size. */
  function SheetSums(ss: seq<Sheet>, col: string): real
    requires AllAnalysed(ss)
  {
    if ss == [] then 0.0
    else
      assert forall s :: s in ss[1..] ==> s in ss;
      Weighted(ss[0].results, col) + SheetSums(ss[1..], col)
  }
}

=== FILE: base.dfy ===
/** Shared vocabulary of the pipeline: optional values, job-level results,
    and the dynamically typed cell values a detection row holds once the
    loader has tried to read every cell as a number. */
module Base {

  datatype Option<+T> = None | Some(value: T)

  /** Why a job (one video, or one analysis file) is abandoned. Each case
      stands for an exception the worker lets escape to its per-job handler. */
  datatype Fault =
    | MissingKey(key: string)        // a KeyError on a row
    | NotNumeric(key: string)        // a TypeError or ValueError reading a number
    | DivisionByZero                 // a grid with zero columns or rows
    | UncomparableConfidence         // sorting confidences that are not numbers
    | ExtraFields(keys: set<string>) // the CSV writer meets fields not in its header
    | UnreadableSource               // the detection file cannot be read
    | UnreadableVideo                // the video cannot be opened
    | TrackerUnavailable             // multi-object tracking selected without its library
    | UncomparableClassNames         // the palette cannot order the class names

  datatype Result<+T> = Ok(value: T) | Err(fault: Fault)

  /** A cell: Python float, int, str or None. */
  datatype Value = FloatV(x: real) | IntV(n: int) | StrV(s: string) | NullV

  /** A detection record, as the dict the worker passes around. */
  type Row = map<string, Value>

  /** The number a value stands for in arithmetic, if it is one. */
  function Numeric(v: Value): (r: Option<real>)
    ensures r.Some? <==> (v.FloatV? || v.IntV?)
  {
    match v
    case FloatV(x) => Some(x)
    case IntV(n) => Some(n as real)
    case _ => None
  }

  /** Python's dict.get(key, default). */
  function Get(row: Row, key: string, default: Value): (v: Value)
    ensures key in row ==> v == row[key]
    ensures key !in row ==> v == default
  {
    if key in row then row[key] else default
  }

  /** Python's int() applied to a float: truncation toward zero. */
  function Trunc(x: real): (n: int)
    ensures x >= 0.0 ==> n as real <= x < n as real + 1.0
    ensures x < 0.0 ==> n as real - 1.0 < x <= n as real
  {
    if x >= 0.0 then x.Floor else -((-x).Floor)
  }

  function Min(a: int, b: int): int { if a <= b then a else b }
  function Max(a: int, b: int): int { if a >= b then a else b }

  /** Python's slice s[:k], where a negative k counts from the end. */
  function TakePrefix<T>(s: seq<T>, k: int): (r: seq<T>)
    ensures r <= s
    ensures k >= 0 ==> |r| == Min(k, |s|)
    ensures k < 0 ==> |r| == Max(0, |s| + k)
  {
    if k >= 0 then (if k <= |s| then s[..k] else s)
    else if |s| + k >= 0 then s[..|s| + k] else []
  }

  /** f applied to each element. */
  function Each<A, B>(f: A -> B, xs: seq<A>): (r: seq<B>)
    ensures |r| == |xs|
    ensures forall i :: 0 <= i < |xs| ==> r[i] == f(xs[i])
  {
    if xs == [] then [] else [f(xs[0])] + Each(f, xs[1..])
  }

  /** The values f gives for xs, in order, skipping the inputs it gives
      None for. */
  function Keep<A, B>(f: A -> Option<B>, xs: seq<A>): (r: seq<B>)
    ensures |r| <= |xs|
  {
    if xs == [] then []
    else
      var rest := Keep(f, xs[1..]);
      if f(xs[0]).Some? then [f(xs[0]).value] + rest else rest
  }

  /** Keeping commutes with concatenation: the order of the inputs is the
      order of the values. */
  lemma {:induction false} KeepConcat<A, B>(f: A -> Option<B>, a: seq<A>, b: seq<A>)
    ensures Keep(f, a + b) == Keep(f, a) + Keep(f, b)
    decreases |a|
  {
    if a == [] {
      assert a + b == b;
    } else {
      assert (a + b)[0] == a[0];
      assert (a + b)[1..] == a[1..] + b;
      KeepConcat(f, a[1..], b);
    }
  }

  /** A value is kept exactly when f gives it for some input. */
  lemma {:induction false} KeepMembers<A, B>(f: A -> Option<B>, xs: seq<A>, y: B)
    ensures y in Keep(f, xs) <==> exists i :: 0 <= i < |xs| && f(xs[i]) == Some(y)
    decreases |xs|
  {
    if xs != [] {
      var tail := xs[1..];
      KeepMembers(f, tail, y);
      if exists i :: 0 <= i < |tail| && f(tail[i]) == Some(y) {
        var i :| 0 <= i < |tail| && f(tail[i]) == Some(y);
        assert xs[i + 1] == tail[i];
      }
      if exists i :: 0 <= i < |xs| && f(xs[i]) == Some(y) {
        var i :| 0 <= i < |xs| && f(xs[i]) == Some(y);
        if i > 0 {
          assert tail[i - 1] == xs[i];
        }
      }
    }
  }
}

=== FILE: batch_run.dfy ===
/** The batch worker's run (workers/batch_processor.py): for each video,
    find its detection file, load and tag the detections, reduce them by
    tracking or by the confidence filter, and build the exports this
    model covers. The file system, the detection reader, the video's
    properties, float() and the tracker are parameters. */
module BatchRun {
  import opened Base
  import opened Paths
  import opened Geometry
  import opened Detections
  import opened Ranking
  import opened Tracking
  import opened Frames
  import opened EnrichedCsv
  import opened Palette
  import opened Timeline
  import opened TimelineData

  /** The grid settings: the grid's shape and its placement, from which a
      grid transform is built for each video's frame size. */
  datatype Settings = Settings(cols: int, rows: int, placement: Placement)

  /** The settings file's two sections as the worker finds them. Only the
      sections are looked up before the first video; the keys inside them
      are read within each job, where they are used, so a missing key is
      a KeyError of that job alone. The column and row counts are None
      when missing; the placement is the KeyError of its first missing
      key when one is. */
  datatype SettingsFile = SettingsFile(cols: Option<int>, rows: Option<int>, placement: Result<Placement>)

  predicate Complete(file: SettingsFile)
  {
    file.cols.Some? && file.rows.Some? && file.placement.Ok?
  }

  function SettingsOf(file: SettingsFile): (settings: Settings)
    requires Complete(file)
    ensures Some(settings.cols) == file.cols && Some(settings.rows) == file.rows && Ok(settings.placement) == file.placement
  {
    Settings(file.cols.value, file.rows.value, file.placement.value)
  }

  /** The grid key the worker misses first: cols is read before rows. */
  function MissingGridKey(file: SettingsFile): string
  {
    if file.cols.None? then "cols" else "rows"
  }

  /** What the opened video reports. */
  datatype VideoInfo = VideoInfo(width: int, height: int, totalFrames: int)

  /** The tracking method chosen in the dialog. */
  datatype Method = MultiObjectTracking | ConfidenceFiltering

  datatype Options = Options(mode: Method, maxPerTank: int, csvDir: string,
                             saveCsv: bool, saveVideo: bool, drawOverlays: bool)

  /** Everything outside the worker: which paths exist and which are
      directories, the rows of a detection file (None when it cannot be
      read), the opened video (None when it cannot be opened), Python's
      float() on a cell, the tracker library, and the key order of a
      detection's dictionary. */
  datatype Environment<!S> = Environment(
    files: set<string>, dirs: set<string>,
    read: string -> Option<seq<RawRow>>, open: string -> Option<VideoInfo>,
    parse: string -> Option<real>,
    trackerAvailable: bool, update: Update<S>, init: S,
    fieldOrder: Row -> seq<string>)

  /** A dictionary's keys list each of its fields once. */
  ghost predicate KeyOrder<S>(env: Environment<S>)
  {
    forall r :: HeaderOf(env.fieldOrder(r), r)
  }

  /** The folder searched for a video's detections: the chosen folder when
      it is set and is a directory, else the video's own folder. */
  function SearchDir<S>(env: Environment<S>, csvDir: string, video: string): (dir: string)
    ensures csvDir != "" && csvDir in env.dirs ==> dir == csvDir
    ensures !(csvDir != "" && csvDir in env.dirs) ==> dir == Dirname(video) && dir <= video
  {
    if csvDir != "" && csvDir in env.dirs then csvDir else Dirname(video)
  }

  /** The detection files tried for a video, in order. */
  function Candidates(dir: string, video: string): (c: seq<string>)
    ensures |c| == 3
  {
    var base := Stem(video);
    [Join(dir, base + ".csv"), Join(dir, base + "_detections.csv"), Join(dir, base + "_segmentations.csv")]
  }

  /** The first of the paths that exists. */
  function FirstExisting<T(==)>(files: set<T>, c: seq<T>): (r: Option<T>)
    ensures r.None? <==> forall x :: x in c ==> x !in files
    ensures r.Some? ==> r.value in c && r.value in files
  {
    if c == [] then None
    else if c[0] in files then Some(c[0])
    else FirstExisting(files, c[1..])
  }

  /** No existing path comes before the one chosen: it appears no later
      than any path that exists. */
  lemma {:induction false} FirstExistingIsFirst<T>(files: set<T>, c: seq<T>, j: int)
    requires 0 <= j < |c| && c[j] in files
    ensures FirstExisting(files, c).Some?
    ensures FirstExisting(files, c).value in c[..j + 1]
    decreases |c|
  {
    if c[0] !in files {
      assert c[j] == c[1..][j - 1];
      FirstExistingIsFirst(files, c[1..], j - 1);
      assert c[1..][..j] == c[1..j + 1];
    }
  }

  /** The plain `.csv` file wins, then `_detections.csv`, then
      `_segmentations.csv`, all in the searched folder and named after the
      video's stem; with none of them present there is no file. */
  lemma CandidatesPriority(files: set<string>, dir: string, video: string)
    ensures var plain := Join(dir, Stem(video) + ".csv");
            var dets := Join(dir, Stem(video) + "_detections.csv");
            var segs := Join(dir, Stem(video) + "_segmentations.csv");
            FirstExisting(files, Candidates(dir, video))
              == if plain in files then Some(plain)
                 else if dets in files then Some(dets)
                 else if segs in files then Some(segs)
                 else None
  {
    var c := Candidates(dir, video);
    FirstOfThree(files, c[0], c[1], c[2]);
    assert c == [c[0], c[1], c[2]];
  }

  lemma FirstOfThree<T>(files: set<T>, x: T, y: T, z: T)
    ensures FirstExisting(files, [x, y, z])
              == if x in files then Some(x) else if y in files then Some(y) else if z in files then Some(z) else None
  {
    assert [x, y, z][1..] == [y, z] && [y, z][1..] == [z] && [z][1..] == [];
  }

  /** The detection file of a video, or None (the video is skipped). */
  function Locate<S>(env: Environment<S>, csvDir: string, video: string): (r: Option<string>)
    ensures var c := Candidates(SearchDir(env, csvDir, video), video);
            && (r.None? <==> forall x :: x in c ==> x !in env.files)
            && (r.Some? ==> r.value in c && r.value in env.files)
  {
    FirstExisting(env.files, Candidates(SearchDir(env, csvDir, video), video))
  }

  /** The tagging grid: the video's size, the grid's shape, and the inverse
      of the grid transform built for this video's size (the invertibility
      flag is not consulted, so a singular transform leaves the identity). */
  function GridOf(settings: Settings, info: VideoInfo): (g: Grid)
    ensures g.width == info.width && g.height == info.height && g.cols == settings.cols && g.rows == settings.rows
  {
    Grid(info.width, info.height, settings.cols, settings.rows,
         Inverted(GridTransform(info.width, info.height, settings.placement)).0)
  }

  /** With an invertible transform, the grid's inverse takes the grid
      centre of this video (its fractions of this video's width and
      height) back to the centre of its frame. */
  lemma GridOfCentre(settings: Settings, info: VideoInfo)
    requires Inverted(GridTransform(info.width, info.height, settings.placement)).1
    ensures Apply(GridOf(settings, info).inverse,
                  Point(info.width as real * settings.placement.centerX, info.height as real * settings.placement.centerY))
              == Point(info.width as real / 2.0, info.height as real / 2.0)
  {
    var centre := Point(info.width as real / 2.0, info.height as real / 2.0);
    GridTransformCentre(info.width, info.height, settings.placement);
    InverseUndoesForward(GridTransform(info.width, info.height, settings.placement), centre);
  }

  /** The detections after the chosen method: the tracker's rows per frame,
      or each frame's per-tank top K. */
  function Reduce<S>(env: Environment<S>, opts: Options, settings: Settings, info: VideoInfo,
                     tagged: map<int, seq<Row>>): (r: Result<map<int, seq<Row>>>)
    ensures opts.mode.MultiObjectTracking? && !env.trackerAvailable ==> r == Err(TrackerUnavailable)
  {
    match opts.mode
    case MultiObjectTracking =>
      (match TrackAll(env.trackerAvailable, env.update, env.init, tagged, info.totalFrames,
                      settings.cols, settings.rows, opts.maxPerTank)
       case Err(e) => Err(e)
       case Ok(run) => Ok(run.out))
    case ConfidenceFiltering => ConfidenceFilter(tagged, opts.maxPerTank)
  }

  /** From the detection file's rows to the reduced detections. */
  function Detect<S>(env: Environment<S>, opts: Options, settings: Settings, video: string,
                     raws: seq<RawRow>): (r: Result<map<int, seq<Row>>>)
    ensures env.open(video).None? && LoadFrames(env.parse, raws).Ok? ==> r == Err(UnreadableVideo)
  {
    match LoadFrames(env.parse, raws)
    case Err(e) => Err(e)
    case Ok(raw) =>
      match env.open(video)
      case None => Err(UnreadableVideo)
      case Some(info) =>
        match AssignTanks(GridOf(settings, info), raw)
        case Err(e) => Err(e)
        case Ok(tagged) => Reduce(env, opts, settings, info, tagged)
  }

  /** The fault the first detection raises when a grid key is missing.
      The tagging call evaluates its arguments in order: the centroid
      fallback and the cy lookup come before the grid's column and row
      counts. */
  function FirstTagFault(row: Row, key: string): (e: Fault)
    ensures DeriveCentroid(row).Err? ==> e == DeriveCentroid(row).fault
    ensures DeriveCentroid(row).Ok? && "cy" !in DeriveCentroid(row).value ==> e == MissingKey("cy")
    ensures DeriveCentroid(row).Ok? && "cy" in DeriveCentroid(row).value ==> e == MissingKey(key)
  {
    match DeriveCentroid(row)
    case Err(e) => e
    case Ok(c) => if "cy" !in c then MissingKey("cy") else MissingKey(key)
  }

  /** Detect with the settings file's keys read where the worker reads
      them: the transform's once the video is open, the grid's when the
      first detection is tagged or, with no detection at all, when the
      trackers are made. A confidence-filter job over an empty detection
      file never reads the grid's keys. */
  function DetectFromFile<S>(env: Environment<S>, opts: Options, file: SettingsFile, video: string,
                             raws: seq<RawRow>): (r: Result<map<int, seq<Row>>>)
    ensures Complete(file) ==> r == Detect(env, opts, SettingsOf(file), video, raws)
    ensures LoadFrames(env.parse, raws).Err? ==> r == Err(LoadFrames(env.parse, raws).fault)
    ensures LoadFrames(env.parse, raws).Ok? && env.open(video).None? ==> r == Err(UnreadableVideo)
    ensures !Complete(file) && r.Ok? ==> raws == [] && opts.mode.ConfidenceFiltering? && r.value == map[]
    ensures !Complete(file) && LoadFrames(env.parse, raws).Ok? && env.open(video).Some? && file.placement.Err? ==>
              r == Err(file.placement.fault)
    ensures !Complete(file) && LoadFrames(env.parse, raws).Ok? && env.open(video).Some? && file.placement.Ok? && raws != [] ==>
              r == Err(FirstTagFault(NormaliseRow(env.parse, raws[0]), MissingGridKey(file)))
    ensures !Complete(file) && LoadFrames(env.parse, raws).Ok? && env.open(video).Some? && file.placement.Ok? && raws == [] ==>
              (opts.mode.ConfidenceFiltering? ==> r == Ok(map[])) &&
              (opts.mode.MultiObjectTracking? ==> r == Err(if env.trackerAvailable then MissingKey(MissingGridKey(file)) else TrackerUnavailable))
  {
    if Complete(file) then Detect(env, opts, SettingsOf(file), video, raws)
    else
      match LoadFrames(env.parse, raws)
      case Err(e) => Err(e)
      case Ok(raw) =>
        if env.open(video).None? then Err(UnreadableVideo)
        else if file.placement.Err? then Err(file.placement.fault)
        else if raws != [] then Err(FirstTagFault(NormaliseRow(env.parse, raws[0]), MissingGridKey(file)))
        else if opts.mode.ConfidenceFiltering? then Ok(map[])
        else if env.trackerAvailable then Err(MissingKey(MissingGridKey(file)))
        else Err(TrackerUnavailable)
  }

  /** What a finished job produced: its detections and, when asked for,
      the enriched table, the behaviour colours and the timeline. */
  datatype Outputs = Outputs(detections: map<int, seq<Row>>, table: Option<Table>,
                             colours: Option<map<Name, Colour>>, timeline: Option<map<int, seq<Segment>>>)

  /** One video's outcome: skipped for want of a detection file, abandoned
      with a fault (keeping the enriched table the job had put on disk by
      then, if any), or done. */
  datatype Outcome = Skipped | Failed(fault: Fault, table: Option<Table>) | Done(outputs: Outputs)

  /** The header of the enriched table: the first detection's fields. */
  function HeaderFor<S>(env: Environment<S>, dets: map<int, seq<Row>>): (h: seq<string>)
    requires KeyOrder(env)
    ensures Flatten(dets) != [] ==> HeaderOf(h, Flatten(dets)[0])
  {
    var all := Flatten(dets);
    if all == [] then [] else env.fieldOrder(all[0])
  }

  /** The exports, in the order the worker builds them; the first failure
      abandons the job. The enriched table is written first, so a later
      failure leaves it on disk, and a failure while
      writing it leaves the lines written so far. */
  function Export<S>(env: Environment<S>, opts: Options, dets: map<int, seq<Row>>): (o: Outcome)
    requires KeyOrder(env)
    ensures o.Done? ==> o.outputs.detections == dets
    ensures o.Done? ==> (o.outputs.table.Some? <==> opts.saveCsv)
    ensures o.Done? ==> (o.outputs.colours.Some? <==> opts.saveVideo) && (o.outputs.timeline.Some? <==> opts.saveVideo)
    ensures o.Failed? ==> (o.table.Some? <==> opts.saveCsv)
    ensures o.Failed? && opts.saveCsv ==> o.table == Some(TableOnDisk(dets, HeaderFor(env, dets)))
    ensures opts.saveCsv && EnrichedTable(dets, HeaderFor(env, dets)).Ok? ==>
              var written := Some(EnrichedTable(dets, HeaderFor(env, dets)).value);
              (o.Done? ==> o.outputs.table == written) && (o.Failed? ==> o.table == written)
    ensures opts.saveCsv && EnrichedTable(dets, HeaderFor(env, dets)).Err? ==>
              o.Failed? && o.fault == EnrichedTable(dets, HeaderFor(env, dets)).fault
    ensures !o.Skipped?
  {
    var header := HeaderFor(env, dets);
    var table := if opts.saveCsv then EnrichedTable(dets, header) else Ok(NoFile);
    var onDisk := if opts.saveCsv then Some(TableOnDisk(dets, header)) else None;
    if table.Err? then Failed(table.fault, onDisk)
    else if !opts.saveVideo then Done(Outputs(dets, onDisk, None, None))
    else
      match BehaviorColors(dets)
      case Err(e) => Failed(e, onDisk)
      case Ok(colours) =>
        match BuildTimeline(dets, opts.drawOverlays)
        case Err(e) => Failed(e, onDisk)
        case Ok(timeline) => Done(Outputs(dets, onDisk, Some(colours), Some(timeline)))
  }

  /** A palette failure (a detection without class_name, or names that
      cannot be sorted together) comes after the table is written: the
      job fails with the palette's fault and the whole table on disk. */
  lemma PaletteFailureKeepsTable<S>(env: Environment<S>, opts: Options, dets: map<int, seq<Row>>)
    requires KeyOrder(env) && opts.saveCsv && opts.saveVideo
    requires EnrichedTable(dets, HeaderFor(env, dets)).Ok? && BehaviorColors(dets).Err?
    ensures Export(env, opts, dets) == Failed(BehaviorColors(dets).fault, Some(EnrichedTable(dets, HeaderFor(env, dets)).value))
  {
  }

  /** The palette reads the class name of every detection and the
      timeline only those of detections with a tank, so once the palette
      is built the timeline cannot fail. */
  lemma PaletteOkTimelineOk(dets: map<int, seq<Row>>, drawOverlays: bool)
    requires BehaviorColors(dets).Ok?
    ensures BuildTimeline(dets, drawOverlays).Ok?
  {
    BehaviorColorsOk(dets);
    forall f | f in dets
      ensures Named(dets[f])
    {
      forall i | 0 <= i < |dets[f]|
        ensures "class_name" in dets[f][i]
      {
        assert dets[f][i] in dets[f];
      }
    }
  }

  /** So the exports fail only in two places: writing the table, with the
      writer's fault, or building the palette, with the palette's fault. */
  lemma ExportFailureCauses<S>(env: Environment<S>, opts: Options, dets: map<int, seq<Row>>)
    requires KeyOrder(env)
    ensures var o := Export(env, opts, dets);
            o.Failed? ==>
              || (opts.saveCsv && EnrichedTable(dets, HeaderFor(env, dets)) == Err(o.fault))
              || (opts.saveVideo && BehaviorColors(dets) == Err(o.fault))
  {
    if BehaviorColors(dets).Ok? {
      PaletteOkTimelineOk(dets, opts.drawOverlays);
    }
  }

  /** A row with a field outside the header stops the writer: the job
      fails naming that row's extra fields, and the file keeps the header
      and the lines of every earlier detection, in order. */
  lemma WriteFailureKeepsPrefix<S>(env: Environment<S>, opts: Options, dets: map<int, seq<Row>>)
    requires KeyOrder(env) && opts.saveCsv
    requires EnrichedTable(dets, HeaderFor(env, dets)).Err?
    ensures var o := Export(env, opts, dets);
            var header := HeaderFor(env, dets);
            var rows := Flatten(dets);
            && o.Failed? && o.table.Some? && o.table.value.Written?
            && o.table.value.header == header && |o.table.value.lines| < |rows|
            && (forall i :: 0 <= i < |o.table.value.lines| ==> o.table.value.lines[i] == Line(header, rows[i]))
            && FirstMisfit(header, rows, |o.table.value.lines|)
            && o.fault == ExtraFields(Extras(header, rows[|o.table.value.lines|]))
  {
    TableOnDiskPartial(dets, HeaderFor(env, dets));
  }

  /** One video, start to finish. */
  function RunJob<S>(env: Environment<S>, opts: Options, settings: Settings, video: string): (o: Outcome)
    requires KeyOrder(env)
    ensures o.Skipped? <==> Locate(env, opts.csvDir, video).None?
    ensures Locate(env, opts.csvDir, video).Some? && env.read(Locate(env, opts.csvDir, video).value).None? ==>
              o == Failed(UnreadableSource, None)
  {
    match Locate(env, opts.csvDir, video)
    case None => Skipped
    case Some(path) =>
      match env.read(path)
      case None => Failed(UnreadableSource, None)
      case Some(raws) =>
        match Detect(env, opts, settings, video, raws)
        case Err(e) => Failed(e, None)
        case Ok(dets) => Export(env, opts, dets)
  }

  /** One video, start to finish, with the settings file's keys read
      inside the job. With every key present it is the job under those
      settings. */
  function RunJobFromFile<S>(env: Environment<S>, opts: Options, file: SettingsFile, video: string): (o: Outcome)
    requires KeyOrder(env)
    ensures Complete(file) ==> o == RunJob(env, opts, SettingsOf(file), video)
    ensures o.Skipped? <==> Locate(env, opts.csvDir, video).None?
    ensures Locate(env, opts.csvDir, video).Some? && env.read(Locate(env, opts.csvDir, video).value).None? ==>
              o == Failed(UnreadableSource, None)
  {
    match Locate(env, opts.csvDir, video)
    case None => Skipped
    case Some(path) =>
      match env.read(path)
      case None => Failed(UnreadableSource, None)
      case Some(raws) =>
        match DetectFromFile(env, opts, file, video, raws)
        case Err(e) => Failed(e, None)
        case Ok(dets) => Export(env, opts, dets)
  }

  /** The whole batch: no job at all when the settings file cannot be read
      or lacks one of its two sections; otherwise one outcome per video, in
      order, each the outcome that video has on its own (jobs do not
      influence one another, and a key missing inside a section only
      affects the jobs that read it). */
  function RunBatch<S>(env: Environment<S>, opts: Options, settings: Result<SettingsFile>, videos: seq<string>): (out: seq<Outcome>)
    requires KeyOrder(env)
    ensures settings.Err? ==> out == []
    ensures settings.Ok? ==> |out| == |videos|
    ensures settings.Ok? ==> forall i :: 0 <= i < |videos| ==> out[i] == RunJobFromFile(env, opts, settings.value, videos[i])
  {
    if settings.Err? then []
    else Each((video: string) => RunJobFromFile(env, opts, settings.value, video), videos)
  }

  /** A job whose settings lack a key finishes only in the confidence-filter
      mode with an empty detection file, and then has no detections. */
  lemma IncompleteSettingsDone<S>(env: Environment<S>, opts: Options, file: SettingsFile, video: string)
    requires KeyOrder(env) && !Complete(file)
    requires RunJobFromFile(env, opts, file, video).Done?
    ensures opts.mode.ConfidenceFiltering?
    ensures RunJobFromFile(env, opts, file, video).outputs.detections == map[]
  {
    var raws := env.read(Locate(env, opts.csvDir, video).value).value;
    assert DetectFromFile(env, opts, file, video, raws).Ok?;
  }

  /** A job whose settings lack a key, and that has a detection to tag in
      an openable video, fails, with no table written; other jobs of the
      batch are not affected. */
  lemma IncompleteSettingsFailJob<S>(env: Environment<S>, opts: Options, file: SettingsFile, video: string)
    requires KeyOrder(env) && !Complete(file)
    requires Locate(env, opts.csvDir, video).Some?
    requires env.read(Locate(env, opts.csvDir, video).value).Some?
    requires var raws := env.read(Locate(env, opts.csvDir, video).value).value;
             raws != [] && LoadFrames(env.parse, raws).Ok? && env.open(video).Some?
    ensures RunJobFromFile(env, opts, file, video).Failed?
    ensures RunJobFromFile(env, opts, file, video).table.None?
  {
  }

  /** In the confidence-filter mode every output detection names a tank,
      and no tank keeps more than K detections in a frame. */
  lemma FilteringKeepsTopK<S>(env: Environment<S>, opts: Options, settings: Settings, video: string,
                              raws: seq<RawRow>, f: int, t: int)
    requires opts.mode.ConfidenceFiltering? && opts.maxPerTank >= 0
    requires Detect(env, opts, settings, video, raws).Ok?
    requires f in Detect(env, opts, settings, video, raws).value
    ensures AllTanked(Detect(env, opts, settings, video, raws).value[f])
    ensures |Members(Detect(env, opts, settings, video, raws).value[f], t)| <= opts.maxPerTank
  {
    var raw := LoadFrames(env.parse, raws).value;
    var info := env.open(video).value;
    var tagged := AssignTanks(GridOf(settings, info), raw).value;
    assert Detect(env, opts, settings, video, raws) == ConfidenceFilter(tagged, opts.maxPerTank);
    FilterFramePerTank(tagged[f], opts.maxPerTank, t);
    FilterFrameBound(tagged[f], opts.maxPerTank, t);
  }

  /** In the tracking mode every output row lies in a frame of the video,
      records that frame, and names a tank of the grid. */
  lemma TrackingRowsInGrid<S>(env: Environment<S>, opts: Options, settings: Settings, video: string,
                              raws: seq<RawRow>, f: int, i: int)
    requires opts.mode.MultiObjectTracking?
    requires Detect(env, opts, settings, video, raws).Ok?
    requires f in Detect(env, opts, settings, video, raws).value
    requires 0 <= i < |Detect(env, opts, settings, video, raws).value[f]|
    ensures 0 <= f < env.open(video).value.totalFrames
    ensures var row := Detect(env, opts, settings, video, raws).value[f][i];
            Get(row, "frame_idx", NullV) == IntV(f) && TankOf(row).Some? && 1 <= TankOf(row).value <= settings.cols * settings.rows
  {
    var raw := LoadFrames(env.parse, raws).value;
    var info := env.open(video).value;
    var tagged := AssignTanks(GridOf(settings, info), raw).value;
    var run := TrackAll(env.trackerAvailable, env.update, env.init, tagged, info.totalFrames,
                        settings.cols, settings.rows, opts.maxPerTank);
    assert Detect(env, opts, settings, video, raws) == Ok(run.value.out);
    TrackAllRows(env.trackerAvailable, env.update, env.init, tagged, info.totalFrames,
                 settings.cols, settings.rows, opts.maxPerTank, f, i);
  }

  /** A finished job's detections are what its detection file's rows
      became. */
  lemma DoneDetections<S>(env: Environment<S>, opts: Options, settings: Settings, video: string)
    requires KeyOrder(env)
    requires RunJob(env, opts, settings, video).Done?
    ensures var path := Locate(env, opts.csvDir, video);
            && path.Some? && env.read(path.value).Some?
            && Detect(env, opts, settings, video, env.read(path.value).value)
                 == Ok(RunJob(env, opts, settings, video).outputs.detections)
  {
  }

  /** A finished job in the confidence-filter mode keeps, in every frame,
      only detections with a tank and at most K of each tank's. */
  lemma DoneFilteringKeepsTopK<S>(env: Environment<S>, opts: Options, settings: Settings, video: string, f: int, t: int)
    requires KeyOrder(env)
    requires opts.mode.ConfidenceFiltering? && opts.maxPerTank >= 0
    requires RunJob(env, opts, settings, video).Done? && f in RunJob(env, opts, settings, video).outputs.detections
    ensures AllTanked(RunJob(env, opts, settings, video).outputs.detections[f])
    ensures |Members(RunJob(env, opts, settings, video).outputs.detections[f], t)| <= opts.maxPerTank
  {
    DoneDetections(env, opts, settings, video);
    var raws := env.read(Locate(env, opts.csvDir, video).value).value;
    FilteringKeepsTopK(env, opts, settings, video, raws, f, t);
  }

  /** A finished job in the tracking mode outputs rows only for frames of
      the video, each naming its frame and a tank of the grid. */
  lemma DoneTrackingInGrid<S>(env: Environment<S>, opts: Options, settings: Settings, video: string, f: int, i: int)
    requires KeyOrder(env)
    requires opts.mode.MultiObjectTracking?
    requires RunJob(env, opts, settings, video).Done? && f in RunJob(env, opts, settings, video).outputs.detections
    requires 0 <= i < |RunJob(env, opts, settings, video).outputs.detections[f]|
    ensures 0 <= f < env.open(video).value.totalFrames
    ensures var row := RunJob(env, opts, settings, video).outputs.detections[f][i];
            Get(row, "frame_idx", NullV) == IntV(f) && TankOf(row).Some? && 1 <= TankOf(row).value <= settings.cols * settings.rows
  {
    DoneDetections(env, opts, settings, video);
    var raws := env.read(Locate(env, opts.csvDir, video).value).value;
    TrackingRowsInGrid(env, opts, settings, video, raws, f, i);
  }

  /** When every detection has the first one's fields, asking for the
      table alone never fails: the table is written under exactly the
      first detection's fields. */
  lemma UniformTableWritten<S>(env: Environment<S>, opts: Options, dets: map<int, seq<Row>>)
    requires KeyOrder(env) && opts.saveCsv && !opts.saveVideo
    requires Flatten(dets) != []
    requires forall i :: 0 <= i < |Flatten(dets)| ==> Flatten(dets)[i].Keys == Flatten(dets)[0].Keys
    ensures Export(env, opts, dets).Done? && Export(env, opts, dets).outputs.table.Some?
    ensures var table := Export(env, opts, dets).outputs.table.value;
            table.Written? && HeaderOf(table.header, Flatten(dets)[0])
  {
    UniformFieldsWrite(dets, HeaderFor(env, dets));
  }
}

=== FILE: decimal.dfy ===
/** Decimal text for numbers: Python's str() of an int, and the fixed
    four-decimal rendering f"{x:.4f}" of a float, each with a reader that
    undoes it. */
module Decimal {
  import opened Base

  predicate IsDigit(c: char) { '0' <= c <= '9' }

  predicate AllDigits(s: string) { forall i :: 0 <= i < |s| ==> IsDigit(s[i]) }

  function DigitChar(d: nat): (c: char)
    requires d < 10
    ensures IsDigit(c) && DigitValue(c) == d
  {
    (48 + d) as char
  }

  function DigitValue(c: char): (d: nat)
    requires IsDigit(c)
    ensures d < 10
  {
    c as int - 48
  }

  /** Shortest decimal digits of n, as str(n) prints them. */
  function NatToString(n: nat): (s: string)
    ensures 1 <= |s| && AllDigits(s)
    ensures |s| > 1 ==> s[0] != '0'
    decreases n
  {
    if n < 10 then [DigitChar(n)] else NatToString(n / 10) + [DigitChar(n % 10)]
  }

  /** The number a string of decimal digits denotes. */
  function StringToNat(s: string): nat
    requires AllDigits(s)
    decreases |s|
  {
    if s == [] then 0 else StringToNat(s[..|s| - 1]) * 10 + DigitValue(s[|s| - 1])
  }

  lemma {:induction false} NatStringRoundTrip(n: nat)
    ensures StringToNat(NatToString(n)) == n
    decreases n
  {
    var s := NatToString(n);
    if n >= 10 {
      NatStringRoundTrip(n / 10);
      assert s[..|s| - 1] == NatToString(n / 10);
    }
  }

  /** Python's str() of an int. */
  function IntToString(i: int): (s: string)
    ensures |s| >= 1
    ensures i < 0 <==> s[0] == '-'
  {
    if i < 0 then "-" + NatToString(-i) else NatToString(i)
  }

  /** The int a string written by IntToString denotes. */
  function ParseInt(s: string): Option<int>
  {
    if |s| >= 2 && s[0] == '-' && AllDigits(s[1..]) then Some(-(StringToNat(s[1..]) as int))
    else if |s| >= 1 && AllDigits(s) then Some(StringToNat(s))
    else None
  }

  lemma IntStringRoundTrip(i: int)
    ensures ParseInt(IntToString(i)) == Some(i)
  {
    var s := IntToString(i);
    if i < 0 {
      assert s[1..] == NatToString(-i);
      NatStringRoundTrip(-i);
    } else {
      NatStringRoundTrip(i);
    }
  }

  function Abs(x: real): (r: real)
    ensures r >= 0.0 && (r == x || r == -x)
  {
    if x < 0.0 then -x else x
  }

  /** The integer nearest q, ties going to the even neighbour, as Python's
      float formatting rounds. */
  function RoundHalfEven(q: real): (n: int)
    ensures -0.5 <= n as real - q <= 0.5
    ensures n as real - q == 0.5 || n as real - q == -0.5 ==> n % 2 == 0
  {
    var f := q.Floor;
    var frac := q - f as real;
    if frac < 0.5 then f
    else if frac > 0.5 then f + 1
    else if f % 2 == 0 then f else f + 1
  }

  /** The magnitude of x in units of 0.0001, rounded as the formatter rounds. */
  function TenThousandths(x: real): (m: nat)
    ensures -0.5 <= m as real - Abs(x) * 10000.0 <= 0.5
  {
    RoundHalfEven(Abs(x) * 10000.0)
  }

  /** The four fractional digits of m ten-thousandths, zero-padded. */
  function FourDigits(frac: nat): (s: string)
    requires frac < 10000
    ensures |s| == 4 && AllDigits(s)
  {
    var r3 := frac % 1000;
    var r2 := r3 % 100;
    [DigitChar(frac / 1000), DigitChar(r3 / 100), DigitChar(r2 / 10), DigitChar(r2 % 10)]
  }

  function FourDigitsValue(s: string): nat
    requires |s| == 4 && AllDigits(s)
  {
    DigitValue(s[0]) * 1000 + DigitValue(s[1]) * 100 + DigitValue(s[2]) * 10 + DigitValue(s[3])
  }

  /** f"{x:.4f}": a minus sign for a negative x (even when it rounds to
      zero), the whole part, a point, and exactly four digits. */
  function FormatFixed4(x: real): (s: string)
    ensures |s| >= 6 && s[|s| - 5] == '.'
    ensures x < 0.0 <==> s[0] == '-'
  {
    var m := TenThousandths(x);
    var body := NatToString(m / 10000) + "." + FourDigits(m % 10000);
    if x < 0.0 then "-" + body else body
  }

  /** The value x is shown as: its magnitude rounded to four decimals, with x's sign. */
  function Rounded4(x: real): real
  {
    var v := TenThousandths(x) as real / 10000.0;
    if x < 0.0 then -v else v
  }

  /** Reads back a string of the shape FormatFixed4 writes. */
  function ParseFixed4(s: string): Option<real>
  {
    if |s| < 6 || s[|s| - 5] != '.' || !AllDigits(s[|s| - 4..]) then None
    else
      var whole := s[..|s| - 5];
      var frac := FourDigitsValue(s[|s| - 4..]) as real / 10000.0;
      if |whole| >= 2 && whole[0] == '-' && AllDigits(whole[1..]) then
        Some(-(StringToNat(whole[1..]) as real + frac))
      else if |whole| >= 1 && AllDigits(whole) then Some(StringToNat(whole) as real + frac)
      else None
  }

  lemma FourDigitsRoundTrip(frac: nat)
    requires frac < 10000
    ensures FourDigitsValue(FourDigits(frac)) == frac
  {
    var r3 := frac % 1000;
    var r2 := r3 % 100;
    assert frac == frac / 1000 * 1000 + r3;
    assert r3 == r3 / 100 * 100 + r2;
    assert r2 == r2 / 10 * 10 + r2 % 10;
  }

  lemma SplitTenThousandths(m: nat)
    ensures m as real / 10000.0 == (m / 10000) as real + (m % 10000) as real / 10000.0
  {
    var q, r := m / 10000, m % 10000;
    assert m == q * 10000 + r;
    assert m as real == q as real * 10000.0 + r as real;
  }

  /** Reading the formatted text back gives the four-decimal rounding of x. */
  lemma FormatFixed4RoundTrip(x: real)
    ensures ParseFixed4(FormatFixed4(x)) == Some(Rounded4(x))
  {
    var m := TenThousandths(x);
    var w := NatToString(m / 10000);
    var f := FourDigits(m % 10000);
    var s := FormatFixed4(x);
    NatStringRoundTrip(m / 10000);
    FourDigitsRoundTrip(m % 10000);
    SplitTenThousandths(m);
    assert s[|s| - 4..] == f;
    if x < 0.0 {
      assert s[..|s| - 5] == "-" + w;
      assert ("-" + w)[1..] == w;
    } else {
      assert s[..|s| - 5] == w;
    }
  }

  /** The shown value is within half a unit in the fourth decimal of x. */
  lemma Rounded4Error(x: real)
    ensures Abs(Rounded4(x) - x) <= 0.00005
  {
    var m := TenThousandths(x);
    assert -0.5 <= m as real - Abs(x) * 10000.0 <= 0.5;
    assert -0.00005 <= m as real / 10000.0 - Abs(x) <= 0.00005;
  }
}

=== FILE: detections.dfy ===
/** The detection store and the assignment stage of the batch worker
    (workers/batch_processor.py): reading CSV rows leniently, grouping them
    by frame, deriving a missing centroid from the box, and tagging every
    detection with the tank its centroid falls in. */
module Detections {
  import opened Base
  import opened Geometry
  import opened Frames

  /** A row as the CSV reader yields it: each header names its cell text,
      or None when the line ran short of cells. */
  type RawRow = map<string, Option<string>>

  /** What float(val) makes of a cell: the number read, or nothing when
      the cell is not a number. Text that is not a number stays text; a
      missing cell stays None. */
  function NormaliseCell(parse: string -> Option<real>, cell: Option<string>): (v: Value)
    ensures cell.None? ==> v == NullV
    ensures cell.Some? && parse(cell.value).Some? ==> v == FloatV(parse(cell.value).value)
    ensures cell.Some? && parse(cell.value).None? ==> v == StrV(cell.value)
  {
    match cell
    case None => NullV
    case Some(text) =>
      match parse(text)
      case Some(x) => FloatV(x)
      case None => StrV(text)
  }

  /** Every cell of the row tried as a number; no column is lost or added. */
  function NormaliseRow(parse: string -> Option<real>, raw: RawRow): (row: Row)
    ensures row.Keys == raw.Keys
    ensures forall k :: k in raw ==> row[k] == NormaliseCell(parse, raw[k])
  {
    map k | k in raw :: NormaliseCell(parse, raw[k])
  }

  /** The frame a raw row belongs to: int(float(row["frame_idx"])). */
  function FrameIndex(parse: string -> Option<real>, raw: RawRow): (r: Result<int>)
    ensures r.Ok? <==> "frame_idx" in raw && raw["frame_idx"].Some? && parse(raw["frame_idx"].value).Some?
    ensures r.Ok? ==> r.value == Trunc(parse(raw["frame_idx"].value).value)
  {
    if "frame_idx" !in raw then Err(MissingKey("frame_idx"))
    else match raw["frame_idx"]
      case None => Err(NotNumeric("frame_idx"))
      case Some(text) =>
        match parse(text)
        case None => Err(NotNumeric("frame_idx"))
        case Some(x) => Ok(Trunc(x))
  }

  /** Reference definition of one frame's group: the normalised rows of
      that frame, in file order. */
  function RowsOfFrame(parse: string -> Option<real>, raws: seq<RawRow>, f: int): seq<Row>
  {
    if raws == [] then []
    else
      var init := RowsOfFrame(parse, raws[..|raws| - 1], f);
      var last := raws[|raws| - 1];
      if FrameIndex(parse, last) == Ok(f) then init + [NormaliseRow(parse, last)] else init
  }

  /** The frame-indexed store: rows grouped by frame index, file order kept
      within a frame. One row without a readable frame index fails the
      whole file. */
  function LoadFrames(parse: string -> Option<real>, raws: seq<RawRow>): (r: Result<map<int, seq<Row>>>)
    ensures r.Ok? <==> forall i :: 0 <= i < |raws| ==> FrameIndex(parse, raws[i]).Ok?
    decreases |raws|
  {
    if raws == [] then Ok(map[])
    else
      var init := raws[..|raws| - 1];
      var last := raws[|raws| - 1];
      assert forall i :: 0 <= i < |init| ==> init[i] == raws[i];
      match LoadFrames(parse, init)
      case Err(e) => Err(e)
      case Ok(m) =>
        match FrameIndex(parse, last)
        case Err(e) => Err(e)
        case Ok(f) => Ok(m[f := (if f in m then m[f] else []) + [NormaliseRow(parse, last)]])
  }

  /** Some row names frame g. */
  predicate NamesFrame(parse: string -> Option<real>, raws: seq<RawRow>, g: int)
  {
    exists i :: 0 <= i < |raws| && FrameIndex(parse, raws[i]) == Ok(g)
  }

  lemma NamesFrameSnoc(parse: string -> Option<real>, raws: seq<RawRow>, g: int)
    requires raws != []
    ensures NamesFrame(parse, raws, g) <==>
              NamesFrame(parse, raws[..|raws| - 1], g) || FrameIndex(parse, raws[|raws| - 1]) == Ok(g)
  {
    var init := raws[..|raws| - 1];
    if NamesFrame(parse, init, g) {
      var i :| 0 <= i < |init| && FrameIndex(parse, init[i]) == Ok(g);
      assert raws[i] == init[i];
    }
    if NamesFrame(parse, raws, g) {
      var i :| 0 <= i < |raws| && FrameIndex(parse, raws[i]) == Ok(g);
      if i < |init| {
        assert raws[i] == init[i];
      }
    }
  }

  /** The store holds exactly the frames some row names. */
  lemma {:induction false} LoadFramesKeys(parse: string -> Option<real>, raws: seq<RawRow>)
    requires LoadFrames(parse, raws).Ok?
    ensures forall f :: f in LoadFrames(parse, raws).value <==> NamesFrame(parse, raws, f)
    decreases |raws|
  {
    if raws != [] {
      var init := raws[..|raws| - 1];
      var last := raws[|raws| - 1];
      LoadFramesKeys(parse, init);
      var m := LoadFrames(parse, init).value;
      var f := FrameIndex(parse, last).value;
      var r := LoadFrames(parse, raws).value;
      assert r == m[f := (if f in m then m[f] else []) + [NormaliseRow(parse, last)]];
      forall g
        ensures g in r <==> NamesFrame(parse, raws, g)
      {
        NamesFrameSnoc(parse, raws, g);
      }
    }
  }

  /** Each frame's group is that frame's rows in file order. */
  lemma {:induction false} LoadFramesGroups(parse: string -> Option<real>, raws: seq<RawRow>)
    requires LoadFrames(parse, raws).Ok?
    ensures forall f :: f in LoadFrames(parse, raws).value ==> LoadFrames(parse, raws).value[f] == RowsOfFrame(parse, raws, f)
    decreases |raws|
  {
    if raws != [] {
      var init := raws[..|raws| - 1];
      var last := raws[|raws| - 1];
      LoadFramesGroups(parse, init);
      var m := LoadFrames(parse, init).value;
      var f := FrameIndex(parse, last).value;
      var r := LoadFrames(parse, raws).value;
      assert r == m[f := (if f in m then m[f] else []) + [NormaliseRow(parse, last)]];
      if f !in m {
        LoadFramesKeys(parse, init);
        assert !NamesFrame(parse, init, f);
        NoRowsOfAbsentFrame(parse, init, f);
      }
    }
  }

  lemma {:induction false} NoRowsOfAbsentFrame(parse: string -> Option<real>, raws: seq<RawRow>, f: int)
    requires forall i :: 0 <= i < |raws| ==> FrameIndex(parse, raws[i]) != Ok(f)
    ensures RowsOfFrame(parse, raws, f) == []
    decreases |raws|
  {
    if raws != [] {
      NoRowsOfAbsentFrame(parse, raws[..|raws| - 1], f);
    }
  }

  /** Reading a box coordinate: a missing one counts as 0. */
  function BoxCoord(row: Row, key: string): Option<real>
  {
    Numeric(Get(row, key, IntV(0)))
  }

  predicate HasCentroid(row: Row)
  {
    "cx" in row && row["cx"] != NullV
  }

  /** The centroid fallback: a row without cx (or with cx None) gets cx and
      cy from the midpoint of its box; a row with cx is left alone. A box
      coordinate that is not a number fails the job. */
  function DeriveCentroid(row: Row): (r: Result<Row>)
    ensures HasCentroid(row) ==> r == Ok(row)
    ensures !HasCentroid(row) ==>
      (r.Ok? <==> BoxCoord(row, "x1").Some? && BoxCoord(row, "x2").Some? && BoxCoord(row, "y1").Some? && BoxCoord(row, "y2").Some?)
    ensures r.Ok? ==> r.value.Keys == row.Keys + {"cx", "cy"} || (HasCentroid(row) && r.value == row)
    ensures r.Ok? ==> forall k :: k in row && k != "cx" && k != "cy" ==> k in r.value && r.value[k] == row[k]
    ensures r.Ok? && !HasCentroid(row) ==>
      && r.value["cx"] == FloatV((BoxCoord(row, "x1").value + BoxCoord(row, "x2").value) / 2.0)
      && r.value["cy"] == FloatV((BoxCoord(row, "y1").value + BoxCoord(row, "y2").value) / 2.0)
  {
    if HasCentroid(row) then Ok(row)
    else
      match (BoxCoord(row, "x1"), BoxCoord(row, "x2"), BoxCoord(row, "y1"), BoxCoord(row, "y2"))
      case (Some(x1), Some(x2), Some(y1), Some(y2)) =>
        Ok(row["cx" := FloatV((x1 + x2) / 2.0)]["cy" := FloatV((y1 + y2) / 2.0)])
      case _ => Err(NotNumeric("x1"))
  }

  /** A derived centroid lies inside the box it came from. */
  lemma DerivedCentroidInsideBox(row: Row)
    requires !HasCentroid(row) && DeriveCentroid(row).Ok?
    ensures var c := DeriveCentroid(row).value;
            var x1, x2 := BoxCoord(row, "x1").value, BoxCoord(row, "x2").value;
            var y1, y2 := BoxCoord(row, "y1").value, BoxCoord(row, "y2").value;
            && Min2(x1, x2) <= c["cx"].x <= Max2(x1, x2)
            && Min2(y1, y2) <= c["cy"].x <= Max2(y1, y2)
  {
  }

  function Min2(a: real, b: real): real { if a <= b then a else b }
  function Max2(a: real, b: real): real { if a >= b then a else b }

  /** Deriving twice changes nothing: once a row has a centroid it keeps it. */
  lemma DeriveCentroidIdempotent(row: Row)
    requires DeriveCentroid(row).Ok?
    ensures DeriveCentroid(DeriveCentroid(row).value) == DeriveCentroid(row)
  {
  }

  /** The centroid of an assigned row, read as numbers. */
  function CentroidOf(row: Row): Option<Point>
  {
    if "cx" in row && "cy" in row && Numeric(row["cx"]).Some? && Numeric(row["cy"]).Some? then
      Some(Point(Numeric(row["cx"]).value, Numeric(row["cy"]).value))
    else None
  }

  /** The value written into tank_number: the tank, or None. */
  function TankTag(tank: Option<int>): Value
  {
    if tank.Some? then IntV(tank.value) else NullV
  }

  /** Tags one detection: centroid fallback, then the tank of the centroid
      under the inverse grid transform (None outside the grid). */
  function AssignRow(g: Grid, row: Row): (r: Result<Row>)
    ensures r.Ok? <==>
      && DeriveCentroid(row).Ok?
      && CentroidOf(DeriveCentroid(row).value).Some?
      && TankForPoint(g, CentroidOf(DeriveCentroid(row).value).value).Ok?
    ensures r.Ok? ==> CentroidOf(r.value) == CentroidOf(DeriveCentroid(row).value)
    ensures r.Ok? ==> r.value.Keys == DeriveCentroid(row).value.Keys + {"tank_number"}
    ensures r.Ok? ==> forall k :: k in row && k != "cx" && k != "cy" && k != "tank_number" ==> k in r.value && r.value[k] == row[k]
    ensures r.Ok? ==> CentroidOf(r.value).Some?
    ensures r.Ok? ==> TankForPoint(g, CentroidOf(r.value).value).Ok?
    ensures r.Ok? ==> r.value["tank_number"] == TankTag(TankForPoint(g, CentroidOf(r.value).value).value)
    ensures r.Ok? ==> (r.value["tank_number"] == NullV <==> !InFrame(g, Apply(g.inverse, CentroidOf(r.value).value)))
    ensures r.Ok? ==> r.value["tank_number"] == NullV || r.value["tank_number"].IntV?
    ensures r.Ok? && g.cols >= 1 && g.rows >= 1 && r.value["tank_number"].IntV? ==>
      1 <= r.value["tank_number"].n <= g.cols * g.rows
  {
    match DeriveCentroid(row)
    case Err(e) => Err(e)
    case Ok(c) =>
      if "cy" !in c then Err(MissingKey("cy"))
      else
        match (Numeric(c["cx"]), Numeric(c["cy"]))
        case (Some(x), Some(y)) =>
          (match TankForPoint(g, Point(x, y))
           case Err(e) => Err(e)
           case Ok(tank) =>
             var t := TankTag(tank);
             if g.cols >= 1 && g.rows >= 1 then
               TankNumberInRange(g, Point(x, y));
               Ok(c["tank_number" := t])
             else Ok(c["tank_number" := t]))
        case _ => Err(NotNumeric("cx"))
  }

  /** Tags every detection of one frame, in order; the first failure wins. */
  function AssignRows(g: Grid, rows: seq<Row>): (r: Result<seq<Row>>)
    ensures r.Ok? <==> forall i :: 0 <= i < |rows| ==> AssignRow(g, rows[i]).Ok?
    ensures r.Ok? ==> |r.value| == |rows| && forall i :: 0 <= i < |rows| ==> r.value[i] == AssignRow(g, rows[i]).value
  {
    if rows == [] then Ok([])
    else
      match AssignRow(g, rows[0])
      case Err(e) => Err(e)
      case Ok(head) =>
        match AssignRows(g, rows[1..])
        case Err(e) => Err(e)
        case Ok(tail) => Ok([head] + tail)
  }

  /** The frames holding a detection that cannot be tagged. */
  function FailingFrames(g: Grid, frames: map<int, seq<Row>>): (s: set<int>)
    ensures forall f :: f in s <==> f in frames && AssignRows(g, frames[f]).Err?
  {
    set f | f in frames && AssignRows(g, frames[f]).Err?
  }

  /** The assignment stage over the whole store: every frame keeps its
      detections, in order, each tagged; any untaggable detection fails the
      job with that detection's fault, taken from the lowest-numbered
      failing frame. Detections outside the grid are kept, with tank None. */
  function AssignTanks(g: Grid, frames: map<int, seq<Row>>): (r: Result<map<int, seq<Row>>>)
    ensures r.Ok? <==> forall f :: f in frames ==> AssignRows(g, frames[f]).Ok?
    ensures r.Ok? ==> r.value.Keys == frames.Keys
    ensures r.Ok? ==> forall f :: f in frames ==> r.value[f] == AssignRows(g, frames[f]).value
    ensures r.Err? ==> exists f :: f in frames && AssignRows(g, frames[f]) == Err(r.fault) &&
                                   forall e :: e in frames && e < f ==> AssignRows(g, frames[e]).Ok?
  {
    var failing := FailingFrames(g, frames);
    if failing == {} then
      Ok(map f | f in frames :: AssignRows(g, frames[f]).value)
    else
      var f := MinOf(failing);
      Err(AssignRows(g, frames[f]).fault)
  }

  /** Every tank number the assignment stage writes is in 1..cols*rows. */
  lemma AssignedTanksInRange(g: Grid, frames: map<int, seq<Row>>, f: int, i: int)
    requires g.cols >= 1 && g.rows >= 1
    requires AssignTanks(g, frames).Ok?
    requires f in frames && 0 <= i < |frames[f]|
    ensures var row := AssignTanks(g, frames).value[f][i];
            row["tank_number"] == NullV || (row["tank_number"].IntV? && 1 <= row["tank_number"].n <= g.cols * g.rows)
  {
    assert AssignRows(g, frames[f]).Ok?;
    assert AssignTanks(g, frames).value[f][i] == AssignRow(g, frames[f][i]).value;
  }

  /** The tank written on an assigned detection is the tank of its
      centroid: None outside the frame, and otherwise, on a grid with at
      least one column and row, the cell whose slices hold the
      inverse-mapped centroid. */
  lemma AssignedTankOfCentroid(g: Grid, frames: map<int, seq<Row>>, f: int, i: int)
    requires AssignTanks(g, frames).Ok?
    requires f in frames && 0 <= i < |frames[f]|
    ensures var row := AssignTanks(g, frames).value[f][i];
            && DeriveCentroid(frames[f][i]).Ok?
            && CentroidOf(row) == CentroidOf(DeriveCentroid(frames[f][i]).value)
            && CentroidOf(row).Some?
            && TankForPoint(g, CentroidOf(row).value).Ok?
            && row["tank_number"] == TankTag(TankForPoint(g, CentroidOf(row).value).value)
    ensures var row := AssignTanks(g, frames).value[f][i];
            CentroidOf(row).Some? ==>
            var t := Apply(g.inverse, CentroidOf(row).value);
            && (row["tank_number"] == NullV <==> !InFrame(g, t))
            && (g.cols >= 1 && g.rows >= 1 && InFrame(g, t) ==>
                  exists r, c ::
                    && 0 <= c < g.cols && 0 <= r < g.rows
                    && InSlice(t.x, g.width, g.cols, c) && InSlice(t.y, g.height, g.rows, r)
                    && row["tank_number"] == IntV(CellIndex(r, c, g.cols)))
  {
    assert AssignRows(g, frames[f]).Ok?;
    var row := AssignTanks(g, frames).value[f][i];
    assert row == AssignRow(g, frames[f][i]).value;
    var p := CentroidOf(row).value;
    if g.cols >= 1 && g.rows >= 1 && InFrame(g, Apply(g.inverse, p)) {
      TankIsContainingCell(g, p);
    }
  }
}

=== FILE: enriched_csv.dfy ===
/** The enriched detection table (workers/batch_processor.py): every
    output detection, frame by frame in ascending order, written under the
    columns of the first one; floats with four decimals. CSV quoting and
    the file itself are not modelled: the result is the header and the
    cells of each line. */
module EnrichedCsv {
  import opened Base
  import opened Decimal
  import opened Frames

  /** A cell as the writer shows it: a float with four decimals (row
      values that are floats are formatted first), an int in decimal, a
      text as it is, and None as an empty cell. */
  function Cell(v: Value): (s: string)
    ensures v.FloatV? ==> ParseFixed4(s) == Some(Rounded4(v.x))
    ensures v.IntV? ==> ParseInt(s) == Some(v.n)
    ensures v.StrV? ==> s == v.s
    ensures v.NullV? ==> s == ""
  {
    match v
    case FloatV(x) => FormatFixed4RoundTrip(x); FormatFixed4(x)
    case IntV(n) => IntStringRoundTrip(n); IntToString(n)
    case StrV(t) => t
    case NullV => ""
  }

  /** One line: for each column the row's cell, empty when the row lacks
      that column. */
  function Line(header: seq<string>, row: Row): (line: seq<string>)
    ensures |line| == |header|
  {
    if header == [] then []
    else [if header[0] in row then Cell(row[header[0]]) else ""] + Line(header[1..], row)
  }

  /** The row's fields that have no column. */
  function Extras(header: seq<string>, row: Row): set<string>
  {
    set key | key in row && key !in header
  }

  /** writer.writerow for each row in turn; the first row with a field
      outside the header raises, naming those fields. */
  function WriteRows(header: seq<string>, rows: seq<Row>): (r: Result<seq<seq<string>>>)
    ensures r.Ok? <==> forall i :: 0 <= i < |rows| ==> Extras(header, rows[i]) == {}
    ensures r.Ok? ==> |r.value| == |rows|
  {
    if rows == [] then Ok([])
    else if Extras(header, rows[0]) != {} then Err(ExtraFields(Extras(header, rows[0])))
    else
      match WriteRows(header, rows[1..])
      case Err(e) => Err(e)
      case Ok(lines) =>
        assert forall i :: 1 <= i < |rows| ==> rows[i] == rows[1..][i - 1];
        Ok([Line(header, rows[0])] + lines)
  }

  /** The enriched table: no file at all without detections; otherwise the
      header and one line per detection. */
  datatype Table = NoFile | Written(header: seq<string>, lines: seq<seq<string>>)

  /** final_headers = list(first.keys()): the dictionary's own key order
      is not modelled, so the header is given; it is meant to be a
      duplicate-free listing of the first detection's fields. */
  predicate HeaderOf(header: seq<string>, first: Row)
  {
    && (forall i, j :: 0 <= i < j < |header| ==> header[i] != header[j])
    && (forall key :: key in header ==> key in first)
    && (forall key :: key in first ==> key in header)
  }

  /** The table written under the given header. */
  function EnrichedTable(frames: map<int, seq<Row>>, header: seq<string>): (r: Result<Table>)
    ensures r.Ok? && Flatten(frames) == [] <==> r == Ok(NoFile)
    ensures r.Ok? && r.value.Written? ==> r.value.header == header && |r.value.lines| == |Flatten(frames)|
    ensures r.Err? ==> r.fault.ExtraFields? && r.fault.keys != {}
  {
    var rows := Flatten(frames);
    if rows == [] then Ok(NoFile)
    else
      match WriteRows(header, rows)
      case Err(e) => WriteRowsFault(header, rows); Err(e)
      case Ok(lines) => Ok(Written(header, lines))
  }

  /** A failure names the extra fields of the first row that has any. */
  lemma {:induction false} WriteRowsFault(header: seq<string>, rows: seq<Row>)
    requires WriteRows(header, rows).Err?
    ensures exists i :: 0 <= i < |rows| && FirstMisfit(header, rows, i) && WriteRows(header, rows).fault == ExtraFields(Extras(header, rows[i]))
    decreases |rows|
  {
    if Extras(header, rows[0]) == {} {
      var tail := rows[1..];
      WriteRowsFault(header, tail);
      var i :| 0 <= i < |tail| && FirstMisfit(header, tail, i) && WriteRows(header, tail).fault == ExtraFields(Extras(header, tail[i]));
      assert rows[i + 1] == tail[i];
      forall j | 0 <= j < i + 1
        ensures Extras(header, rows[j]) == {}
      {
        if j > 0 {
          assert rows[j] == tail[j - 1];
        }
      }
      assert FirstMisfit(header, rows, i + 1);
    } else {
      assert FirstMisfit(header, rows, 0);
    }
  }

  /** Row i is the first row with a field outside the header. */
  predicate FirstMisfit(header: seq<string>, rows: seq<Row>, i: int)
  {
    0 <= i < |rows| && Extras(header, rows[i]) != {} && forall j :: 0 <= j < i ==> Extras(header, rows[j]) == {}
  }

  /** The lines in the file when writing stops: one per row, up to the
      first row with a field outside the header (the one the writer
      raises on), or every row when there is none. */
  function WrittenLines(header: seq<string>, rows: seq<Row>): (lines: seq<seq<string>>)
    ensures |lines| <= |rows|
  {
    if rows == [] || Extras(header, rows[0]) != {} then []
    else [Line(header, rows[0])] + WrittenLines(header, rows[1..])
  }

  /** The written lines are those of the rows before the first misfit, in
      order; when they stop short, the next row is that misfit, and its
      extra fields are the fault the writer reports. */
  lemma {:induction false} WrittenLinesStop(header: seq<string>, rows: seq<Row>)
    ensures var lines := WrittenLines(header, rows);
            && (forall i :: 0 <= i < |lines| ==> lines[i] == Line(header, rows[i]) && Extras(header, rows[i]) == {})
            && (|lines| < |rows| ==> FirstMisfit(header, rows, |lines|))
            && (|lines| < |rows| <==> WriteRows(header, rows).Err?)
            && (|lines| < |rows| ==> WriteRows(header, rows).fault == ExtraFields(Extras(header, rows[|lines|])))
    decreases |rows|
  {
    if rows != [] && Extras(header, rows[0]) == {} {
      var tail := rows[1..];
      WrittenLinesStop(header, tail);
      var lines := WrittenLines(header, rows);
      var rest := WrittenLines(header, tail);
      assert lines == [Line(header, rows[0])] + rest;
      forall i | 0 < i < |lines|
        ensures lines[i] == Line(header, rows[i]) && Extras(header, rows[i]) == {}
      {
        assert lines[i] == rest[i - 1] && rows[i] == tail[i - 1];
      }
      if |lines| < |rows| {
        assert rows[|lines|] == tail[|rest|];
        forall j | 0 <= j < |lines|
          ensures Extras(header, rows[j]) == {}
        {
          if j > 0 {
            assert rows[j] == tail[j - 1];
          }
        }
      }
    } else if rows != [] {
      assert FirstMisfit(header, rows, 0);
    }
  }

  /** When no row misfits, the written lines are the whole table's. */
  lemma {:induction false} WrittenLinesComplete(header: seq<string>, rows: seq<Row>)
    requires WriteRows(header, rows).Ok?
    ensures WrittenLines(header, rows) == WriteRows(header, rows).value
    decreases |rows|
  {
    if rows != [] {
      WrittenLinesComplete(header, rows[1..]);
    }
  }

  /** The file the table leaves behind, whether or not writing finished:
      nothing without detections; otherwise the header and the lines
      written before the writer stopped. A completed write leaves exactly
      the table. */
  function TableOnDisk(frames: map<int, seq<Row>>, header: seq<string>): (t: Table)
    ensures t == NoFile <==> Flatten(frames) == []
    ensures EnrichedTable(frames, header).Ok? ==> t == EnrichedTable(frames, header).value
    ensures t.Written? ==> t.header == header && |t.lines| <= |Flatten(frames)|
  {
    var rows := Flatten(frames);
    if rows == [] then NoFile
    else
      (if WriteRows(header, rows).Ok? then WrittenLinesComplete(header, rows); Written(header, WrittenLines(header, rows))
       else Written(header, WrittenLines(header, rows)))
  }

  /** A failed write leaves the header and the lines of every row before
      the misfit, and the fault names that row's extra fields. */
  lemma TableOnDiskPartial(frames: map<int, seq<Row>>, header: seq<string>)
    requires EnrichedTable(frames, header).Err?
    ensures var t := TableOnDisk(frames, header);
            var rows := Flatten(frames);
            && t.Written? && t.header == header && |t.lines| < |rows|
            && (forall i :: 0 <= i < |t.lines| ==> t.lines[i] == Line(header, rows[i]))
            && FirstMisfit(header, rows, |t.lines|)
            && EnrichedTable(frames, header).fault == ExtraFields(Extras(header, rows[|t.lines|]))
  {
    WrittenLinesStop(header, Flatten(frames));
  }

  /** Line i of the table is detection i of the flattened store. */
  lemma {:induction false} WriteRowsLines(header: seq<string>, rows: seq<Row>, i: int)
    requires WriteRows(header, rows).Ok? && 0 <= i < |rows|
    ensures WriteRows(header, rows).value[i] == Line(header, rows[i])
    decreases |rows|
  {
    if i > 0 {
      WriteRowsLines(header, rows[1..], i - 1);
    }
  }

  /** Reading a line back: each column holds the row's value (a float
      to four decimals), or is empty when the row lacks it or holds None. */
  lemma {:induction false} LineReadBack(header: seq<string>, row: Row, c: int)
    requires 0 <= c < |header|
    ensures var cell := Line(header, row)[c];
            var key := header[c];
            && (key !in row ==> cell == "")
            && (key in row && row[key].FloatV? ==> ParseFixed4(cell) == Some(Rounded4(row[key].x)))
            && (key in row && row[key].IntV? ==> ParseInt(cell) == Some(row[key].n))
            && (key in row && row[key].StrV? ==> cell == row[key].s)
            && (key in row && row[key].NullV? ==> cell == "")
    decreases |header|
  {
    if c > 0 {
      LineReadBack(header[1..], row, c - 1);
    }
  }

  /** When every detection has the first one's fields, as the tracker's
      rows and the rows of one detection file do, writing never fails. */
  lemma UniformFieldsWrite(frames: map<int, seq<Row>>, header: seq<string>)
    requires Flatten(frames) != [] && HeaderOf(header, Flatten(frames)[0])
    requires forall i :: 0 <= i < |Flatten(frames)| ==> Flatten(frames)[i].Keys == Flatten(frames)[0].Keys
    ensures EnrichedTable(frames, header).Ok? && EnrichedTable(frames, header).value.Written?
  {
    var rows := Flatten(frames);
    forall i | 0 <= i < |rows|
      ensures Extras(header, rows[i]) == {}
    {
      assert rows[i].Keys == rows[0].Keys;
      NoExtras(header, rows[i]);
    }
  }

  /** A row whose fields all have columns has no extras. */
  lemma NoExtras(header: seq<string>, row: Row)
    requires forall key :: key in row ==> key in header
    ensures Extras(header, row) == {}
  {
  }
}

=== FILE: frames.dfy ===
/** The detection store: a dictionary from frame number to that frame's
    detections. The worker reads it in ascending frame order
    (sorted(detections.items())), which this module provides. */
module Frames {
  import opened Base

  /** Two different sets differ in some element. */
  lemma Differ<T>(a: set<T>, b: set<T>)
    ensures a == b || exists z :: (z in a) != (z in b)
  {
    if forall z :: (z in a) == (z in b) {
      assert a == b;
    }
  }

  /** A non-empty set has an element. */
  lemma Element(s: set<int>)
    requires s != {}
    ensures exists z :: z in s
  {
    if forall z :: z !in s {
      assert false;
    }
  }

  /** The smallest element of a non-empty set of frames. */
  lemma {:induction false} MinExists(s: set<int>)
    requires s != {}
    ensures exists m :: m in s && forall y :: y in s ==> m <= y
    decreases |s|
  {
    Element(s);
    var x :| x in s;
    var rest := s - {x};
    if rest == {} {
      forall y | y in s
        ensures x <= y
      {
        assert y == x || y in rest;
      }
      assert x in s;
    } else {
      MinExists(rest);
      var m :| m in rest && forall y :: y in rest ==> m <= y;
      var least := if x < m then x else m;
      forall y | y in s
        ensures least <= y
      {
        assert y == x || y in rest;
      }
      assert least in s;
    }
  }

  function MinOf(s: set<int>): (m: int)
    requires s != {}
    ensures m in s && forall y :: y in s ==> m <= y
  {
    MinExists(s);
    var m :| m in s && forall y :: y in s ==> m <= y;
    m
  }

  /** sorted(s): the elements of a set of frames in ascending order. */
  function SortedInts(s: set<int>): (r: seq<int>)
    ensures |r| == |s|
    ensures forall x :: x in r <==> x in s
    ensures forall i, j :: 0 <= i < j < |r| ==> r[i] < r[j]
    decreases |s|
  {
    if s == {} then []
    else
      var m := MinOf(s);
      var rest := SortedInts(s - {m});
      assert forall j :: 0 <= j < |rest| ==> m < rest[j] by {
        forall j | 0 <= j < |rest|
          ensures m < rest[j]
        {
          assert rest[j] in rest;
        }
      }
      var r := [m] + rest;
      assert forall j :: 1 <= j < |r| ==> r[j] == rest[j - 1];
      r
  }

  /** Frame by frame, in the given order, every detection. */
  function Gather(keys: seq<int>, frames: map<int, seq<Row>>): seq<Row>
    requires forall i :: 0 <= i < |keys| ==> keys[i] in frames
  {
    if keys == [] then [] else frames[keys[0]] + Gather(keys[1..], frames)
  }

  lemma SortedKeysInFrames(frames: map<int, seq<Row>>)
    ensures forall i :: 0 <= i < |SortedInts(frames.Keys)| ==> SortedInts(frames.Keys)[i] in frames
  {
    var keys := SortedInts(frames.Keys);
    forall i | 0 <= i < |keys|
      ensures keys[i] in frames
    {
      var y := keys[i];
      assert y in keys;
      assert y in frames.Keys;
    }
  }

  /** [det for frame, dets in sorted(detections.items()) for det in dets]. */
  function Flatten(frames: map<int, seq<Row>>): seq<Row>
  {
    SortedKeysInFrames(frames);
    Gather(SortedInts(frames.Keys), frames)
  }

  lemma {:induction false} GatherMembers(keys: seq<int>, frames: map<int, seq<Row>>, d: Row)
    requires forall i :: 0 <= i < |keys| ==> keys[i] in frames
    ensures d in Gather(keys, frames) <==> exists i :: 0 <= i < |keys| && d in frames[keys[i]]
    decreases |keys|
  {
    if keys != [] {
      var rest := keys[1..];
      GatherMembers(rest, frames, d);
      if exists i :: 0 <= i < |rest| && d in frames[rest[i]] {
        var i :| 0 <= i < |rest| && d in frames[rest[i]];
        assert keys[i + 1] == rest[i];
      }
      if exists i :: 0 <= i < |keys| && d in frames[keys[i]] {
        var i :| 0 <= i < |keys| && d in frames[keys[i]];
        if i > 0 {
          assert rest[i - 1] == keys[i];
        }
      }
    }
  }

  /** The flattened store holds exactly the detections of its frames. */
  lemma FlattenMembers(frames: map<int, seq<Row>>, d: Row)
    ensures d in Flatten(frames) <==> exists f :: f in frames && d in frames[f]
  {
    var keys := SortedInts(frames.Keys);
    SortedKeysInFrames(frames);
    GatherMembers(keys, frames, d);
    if exists f :: f in frames && d in frames[f] {
      var f :| f in frames && d in frames[f];
      assert f in frames.Keys;
      assert f in keys;
      var i :| 0 <= i < |keys| && keys[i] == f;
      assert d in frames[keys[i]];
    }
  }

  /** The earliest frame comes first, followed by the rest of the store. */
  lemma FlattenFirst(frames: map<int, seq<Row>>)
    requires frames != map[]
    ensures var m := MinOf(frames.Keys);
            Flatten(frames) == frames[m] + Flatten(frames - {m})
  {
    var m := MinOf(frames.Keys);
    var rest := frames - {m};
    assert rest.Keys == frames.Keys - {m};
    SortedKeysInFrames(frames);
    SortedKeysInFrames(rest);
    var keys := SortedInts(rest.Keys);
    assert SortedInts(frames.Keys) == [m] + keys;
    GatherSameFrames(keys, frames, rest);
  }

  lemma {:induction false} GatherSameFrames(keys: seq<int>, a: map<int, seq<Row>>, b: map<int, seq<Row>>)
    requires forall i :: 0 <= i < |keys| ==> keys[i] in a && keys[i] in b && a[keys[i]] == b[keys[i]]
    ensures Gather(keys, a) == Gather(keys, b)
    decreases |keys|
  {
    if keys != [] {
      GatherSameFrames(keys[1..], a, b);
    }
  }
}

=== FILE: geometry.dfy ===
/** The geometric mapper: the affine transform between video pixels and
    the un-rotated grid, its inverse, and the classification of a point
    into a 1-based, row-major tank number (workers/batch_processor.py). */
module Geometry {
  import opened Base
  import Decimal

  datatype Point = Point(x: real, y: real)

  /** The affine part of a Qt transform: (x, y) goes to
      (m11*x + m21*y + dx, m12*x + m22*y + dy). */
  datatype Affine = Affine(m11: real, m12: real, m21: real, m22: real, dx: real, dy: real)

  function Apply(t: Affine, p: Point): Point
  {
    Point(t.m11 * p.x + t.m21 * p.y + t.dx, t.m12 * p.x + t.m22 * p.y + t.dy)
  }

  const Identity := Affine(1.0, 0.0, 0.0, 1.0, 0.0, 0.0)

  function Determinant(t: Affine): real
  {
    t.m11 * t.m22 - t.m12 * t.m21
  }

  /** Qt counts a determinant this close to zero as zero. */
  const FuzzyZero: real := 0.000000000001

  /** Inverse of t and whether it exists. A transform Qt deems singular
      yields the identity together with false. */
  function Inverted(t: Affine): (r: (Affine, bool))
    ensures r.1 <==> Decimal.Abs(Determinant(t)) > FuzzyZero
    ensures !r.1 ==> r.0 == Identity
  {
    var det := Determinant(t);
    if -FuzzyZero <= det <= FuzzyZero then (Identity, false) else (InverseMatrix(t, det), true)
  }

  /** The adjugate of t divided by its determinant. */
  function InverseMatrix(t: Affine, det: real): Affine
    requires det != 0.0
  {
    Affine(t.m22 / det, -t.m12 / det, -t.m21 / det, t.m11 / det,
           (t.m21 * t.dy - t.m22 * t.dx) / det, (t.m12 * t.dx - t.m11 * t.dy) / det)
  }

  /** Three fractions over one denominator add up as their numerators do. */
  lemma AddFractions(a: real, b: real, c: real, d: real, x: real, y: real)
    requires d != 0.0
    ensures (a / d) * x + (b / d) * y + c / d == (a * x + b * y + c) / d
  {
    var a', b', c' := a / d, b / d, c / d;
    assert a' * d == a && b' * d == b && c' * d == c;
    var lhs := a' * x + b' * y + c';
    assert lhs * d == (a' * d) * x + (b' * d) * y + c' * d;
    assert lhs * d == a * x + b * y + c;
  }

  lemma MulDivCancel(a: real, d: real)
    requires d != 0.0
    ensures (d * a) / d == a && (a * d) / d == a
  {
    var q := (d * a) / d;
    assert q * d == d * a;
    assert (q - a) * d == 0.0;
  }

  /** The adjugate of a 2x3 affine matrix times the matrix is det times the identity. */
  lemma AdjugateLeft(m11: real, m12: real, m21: real, m22: real, dx: real, dy: real,
                     x: real, y: real, fx: real, fy: real, det: real)
    requires det == m11 * m22 - m12 * m21
    requires fx == m11 * x + m21 * y + dx && fy == m12 * x + m22 * y + dy
    ensures m22 * fx + (-m21) * fy + (m21 * dy - m22 * dx) == det * x
    ensures (-m12) * fx + m11 * fy + (m12 * dx - m11 * dy) == det * y
  {
    assert det * x == m11 * m22 * x - m12 * m21 * x;
    assert det * y == m11 * m22 * y - m12 * m21 * y;
    assert m22 * fx == m11 * m22 * x + m21 * m22 * y + m22 * dx;
    assert (-m21) * fy == -(m12 * m21 * x) - m21 * m22 * y - m21 * dy;
    assert (-m12) * fx == -(m11 * m12 * x) - m12 * m21 * y - m12 * dx;
    assert m11 * fy == m11 * m12 * x + m11 * m22 * y + m11 * dy;
  }

  /** The matrix times its adjugate is det times the identity. */
  lemma AdjugateRight(m11: real, m12: real, m21: real, m22: real, dx: real, dy: real,
                      x: real, y: real, a: real, b: real, det: real)
    requires det == m11 * m22 - m12 * m21
    requires a == m22 * x + (-m21) * y + (m21 * dy - m22 * dx)
    requires b == (-m12) * x + m11 * y + (m12 * dx - m11 * dy)
    ensures m11 * a + m21 * b + dx * det == det * x
    ensures m12 * a + m22 * b + dy * det == det * y
  {
    assert det * x == m11 * m22 * x - m12 * m21 * x;
    assert det * y == m11 * m22 * y - m12 * m21 * y;
    assert dx * det == m11 * m22 * dx - m12 * m21 * dx;
    assert dy * det == m11 * m22 * dy - m12 * m21 * dy;
    assert m11 * a == m11 * m22 * x - m11 * m21 * y + m11 * m21 * dy - m11 * m22 * dx;
    assert m21 * b == -(m12 * m21 * x) + m11 * m21 * y + m12 * m21 * dx - m11 * m21 * dy;
    assert m12 * a == m12 * m22 * x - m12 * m21 * y + m12 * m21 * dy - m12 * m22 * dx;
    assert m22 * b == -(m12 * m22 * x) + m11 * m22 * y + m12 * m22 * dx - m11 * m22 * dy;
  }

  /** The entries of InverseMatrix(t, det), named. */
  predicate IsInverse(m11: real, m12: real, m21: real, m22: real, dx: real, dy: real, det: real,
                      i11: real, i12: real, i21: real, i22: real, idx: real, idy: real)
  {
    det != 0.0 &&
    i11 == m22 / det && i12 == -m12 / det && i21 == -m21 / det && i22 == m11 / det &&
    idx == (m21 * dy - m22 * dx) / det && idy == (m12 * dx - m11 * dy) / det
  }

  /** When Qt reports an inverse, the determinant is non-zero and the
      inverse is the adjugate over it. */
  lemma InvertedEntries(t: Affine)
    requires Inverted(t).1
    ensures Determinant(t) != 0.0
    ensures var inv := Inverted(t).0;
            IsInverse(t.m11, t.m12, t.m21, t.m22, t.dx, t.dy, Determinant(t), inv.m11, inv.m12, inv.m21, inv.m22, inv.dx, inv.dy)
  {
    NonSingular(t);
    InverseMatrixEntries(t, Determinant(t), Inverted(t).0);
  }

  lemma NonSingular(t: Affine)
    requires Inverted(t).1
    ensures Determinant(t) != 0.0 && Inverted(t).0 == InverseMatrix(t, Determinant(t))
  {
    assert Decimal.Abs(Determinant(t)) > FuzzyZero;
  }

  lemma InverseMatrixEntries(t: Affine, det: real, inv: Affine)
    requires det != 0.0 && inv == InverseMatrix(t, det)
    ensures IsInverse(t.m11, t.m12, t.m21, t.m22, t.dx, t.dy, det, inv.m11, inv.m12, inv.m21, inv.m22, inv.dx, inv.dy)
  {
    assert inv == Affine(t.m22 / det, -t.m12 / det, -t.m21 / det, t.m11 / det,
                         (t.m21 * t.dy - t.m22 * t.dx) / det, (t.m12 * t.dx - t.m11 * t.dy) / det);
  }

  lemma UndoForwardCoords(m11: real, m12: real, m21: real, m22: real, dx: real, dy: real,
                          i11: real, i12: real, i21: real, i22: real, idx: real, idy: real,
                          x: real, y: real, fx: real, fy: real, det: real)
    requires det == m11 * m22 - m12 * m21
    requires IsInverse(m11, m12, m21, m22, dx, dy, det, i11, i12, i21, i22, idx, idy)
    requires fx == m11 * x + m21 * y + dx && fy == m12 * x + m22 * y + dy
    ensures i11 * fx + i21 * fy + idx == x
    ensures i12 * fx + i22 * fy + idy == y
  {
    AdjugateLeft(m11, m12, m21, m22, dx, dy, x, y, fx, fy, det);
    AddFractions(m22, -m21, m21 * dy - m22 * dx, det, fx, fy);
    AddFractions(-m12, m11, m12 * dx - m11 * dy, det, fx, fy);
    MulDivCancel(x, det);
    MulDivCancel(y, det);
    assert (m22 * fx + (-m21) * fy + (m21 * dy - m22 * dx)) / det == x;
    assert ((-m12) * fx + m11 * fy + (m12 * dx - m11 * dy)) / det == y;
  }

  lemma UndoInverseCoords(m11: real, m12: real, m21: real, m22: real, dx: real, dy: real,
                          i11: real, i12: real, i21: real, i22: real, idx: real, idy: real,
                          x: real, y: real, ix: real, iy: real, det: real)
    requires det == m11 * m22 - m12 * m21
    requires IsInverse(m11, m12, m21, m22, dx, dy, det, i11, i12, i21, i22, idx, idy)
    requires ix == i11 * x + i21 * y + idx && iy == i12 * x + i22 * y + idy
    ensures m11 * ix + m21 * iy + dx == x
    ensures m12 * ix + m22 * iy + dy == y
  {
    var c1 := m21 * dy - m22 * dx;
    var c2 := m12 * dx - m11 * dy;
    var a := m22 * x + (-m21) * y + c1;
    var b := (-m12) * x + m11 * y + c2;
    AddFractions(m22, -m21, c1, det, x, y);
    AddFractions(-m12, m11, c2, det, x, y);
    assert ix == a / det && iy == b / det;
    AdjugateRight(m11, m12, m21, m22, dx, dy, x, y, a, b, det);
    AddFractions(a, b, dx * det, det, m11, m21);
    AddFractions(a, b, dy * det, det, m12, m22);
    MulDivCancel(dx, det);
    MulDivCancel(dy, det);
    MulDivCancel(x, det);
    MulDivCancel(y, det);
    assert (a * m11 + b * m21 + dx * det) / det == x;
    assert (a * m12 + b * m22 + dy * det) / det == y;
    assert (a / det) * m11 + (b / det) * m21 + dx == x;
    assert (a / det) * m12 + (b / det) * m22 + dy == y;
  }

  lemma UndoForward(t: Affine, inv: Affine, p: Point, q: Point)
    requires Determinant(t) != 0.0
    requires IsInverse(t.m11, t.m12, t.m21, t.m22, t.dx, t.dy, Determinant(t), inv.m11, inv.m12, inv.m21, inv.m22, inv.dx, inv.dy)
    requires q == Apply(t, p)
    ensures Apply(inv, q) == p
  {
    UndoForwardCoords(t.m11, t.m12, t.m21, t.m22, t.dx, t.dy, inv.m11, inv.m12, inv.m21, inv.m22, inv.dx, inv.dy,
                      p.x, p.y, q.x, q.y, Determinant(t));
  }

  lemma UndoInverse(t: Affine, inv: Affine, p: Point, q: Point)
    requires Determinant(t) != 0.0
    requires IsInverse(t.m11, t.m12, t.m21, t.m22, t.dx, t.dy, Determinant(t), inv.m11, inv.m12, inv.m21, inv.m22, inv.dx, inv.dy)
    requires q == Apply(inv, p)
    ensures Apply(t, q) == p
  {
    UndoInverseCoords(t.m11, t.m12, t.m21, t.m22, t.dx, t.dy, inv.m11, inv.m12, inv.m21, inv.m22, inv.dx, inv.dy,
                      p.x, p.y, q.x, q.y, Determinant(t));
  }

  /** The inverse undoes the transform ... */
  lemma InverseUndoesForward(t: Affine, p: Point)
    requires Inverted(t).1
    ensures Apply(Inverted(t).0, Apply(t, p)) == p
  {
    InvertedEntries(t);
    UndoForward(t, Inverted(t).0, p, Apply(t, p));
  }

  /** ... and the transform undoes the inverse. */
  lemma ForwardUndoesInverse(t: Affine, p: Point)
    requires Inverted(t).1
    ensures Apply(t, Apply(Inverted(t).0, p)) == p
  {
    InvertedEntries(t);
    UndoInverse(t, Inverted(t).0, p, Apply(Inverted(t).0, p));
  }

  /** The map that applies b first and then a. Qt's translate, rotate and
      scale compose this way: the step added last acts on points first. */
  function Compose(a: Affine, b: Affine): Affine
  {
    Affine(b.m11 * a.m11 + b.m12 * a.m21, b.m11 * a.m12 + b.m12 * a.m22,
           b.m21 * a.m11 + b.m22 * a.m21, b.m21 * a.m12 + b.m22 * a.m22,
           b.dx * a.m11 + b.dy * a.m21 + a.dx, b.dx * a.m12 + b.dy * a.m22 + a.dy)
  }

  lemma ComposeApplies(a: Affine, b: Affine, p: Point)
    ensures Apply(Compose(a, b), p) == Apply(a, Apply(b, p))
  {
    var c, q := Compose(a, b), Apply(b, p);
    assert q.x == b.m11 * p.x + b.m21 * p.y + b.dx && q.y == b.m12 * p.x + b.m22 * p.y + b.dy;
    ComposeCoord(a.m11, a.m21, a.dx, b, p.x, p.y);
    assert Apply(c, p).x == Apply(a, q).x;
    ComposeCoord(a.m12, a.m22, a.dy, b, p.x, p.y);
    assert Apply(c, p).y == Apply(a, q).y;
  }

  /** One output coordinate of the composed map: u and v are a's weights
      on b's two coordinates and d its offset. */
  lemma ComposeCoord(u: real, v: real, d: real, b: Affine, x: real, y: real)
    ensures u * (b.m11 * x + b.m21 * y + b.dx) + v * (b.m12 * x + b.m22 * y + b.dy) + d
         == (b.m11 * u + b.m12 * v) * x + (b.m21 * u + b.m22 * v) * y + (b.dx * u + b.dy * v + d)
  {
    assert u * (b.m11 * x + b.m21 * y + b.dx) == (b.m11 * u) * x + (b.m21 * u) * y + b.dx * u;
    assert v * (b.m12 * x + b.m22 * y + b.dy) == (b.m12 * v) * x + (b.m22 * v) * y + b.dy * v;
  }

  function Translation(dx: real, dy: real): Affine { Affine(1.0, 0.0, 0.0, 1.0, dx, dy) }

  /** Qt's rotation by an angle with the given cosine and sine. */
  function Rotation(cos: real, sin: real): Affine { Affine(cos, sin, -sin, cos, 0.0, 0.0) }

  function Scaling(sx: real, sy: real): Affine { Affine(sx, 0.0, 0.0, sy, 0.0, 0.0) }

  /** The grid placement from the settings file: the grid centre as a
      fraction of the frame, the rotation (by its cosine and sine) and the
      scale. */
  datatype Placement = Placement(centerX: real, centerY: real, cos: real, sin: real, scaleX: real, scaleY: real)

  /** The grid transform for a frame of the given size: starting from the
      identity, translate to the grid centre, rotate, scale, and translate
      by minus half the frame. */
  function GridTransform(width: int, height: int, pl: Placement): Affine
  {
    var w, h := width as real, height as real;
    var t := Compose(Identity, Translation(w * pl.centerX, h * pl.centerY));
    var t := Compose(t, Rotation(pl.cos, pl.sin));
    var t := Compose(t, Scaling(pl.scaleX, pl.scaleY));
    Compose(t, Translation(-w / 2.0, -h / 2.0))
  }

  /** The grid transform takes a point's offset from the frame centre,
      scales it, rotates it, and places it relative to the grid centre. */
  lemma GridTransformMaps(width: int, height: int, pl: Placement, p: Point)
    ensures var w, h := width as real, height as real;
            var u, v := pl.scaleX * (p.x - w / 2.0), pl.scaleY * (p.y - h / 2.0);
            Apply(GridTransform(width, height, pl), p)
              == Point(w * pl.centerX + pl.cos * u - pl.sin * v, h * pl.centerY + pl.sin * u + pl.cos * v)
  {
    var w, h := width as real, height as real;
    var t0 := Compose(Identity, Translation(w * pl.centerX, h * pl.centerY));
    var t1 := Compose(t0, Rotation(pl.cos, pl.sin));
    var t2 := Compose(t1, Scaling(pl.scaleX, pl.scaleY));
    var back := Translation(-w / 2.0, -h / 2.0);
    ComposeApplies(t2, back, p);
    var p1 := Apply(back, p);
    ComposeApplies(t1, Scaling(pl.scaleX, pl.scaleY), p1);
    var p2 := Apply(Scaling(pl.scaleX, pl.scaleY), p1);
    ComposeApplies(t0, Rotation(pl.cos, pl.sin), p2);
    var p3 := Apply(Rotation(pl.cos, pl.sin), p2);
    ComposeApplies(Identity, Translation(w * pl.centerX, h * pl.centerY), p3);
  }

  /** The frame centre lands on the grid centre, whatever the rotation and
      scale: the centre depends on the frame's size. */
  lemma GridTransformCentre(width: int, height: int, pl: Placement)
    ensures Apply(GridTransform(width, height, pl), Point(width as real / 2.0, height as real / 2.0))
              == Point(width as real * pl.centerX, height as real * pl.centerY)
  {
    GridTransformMaps(width, height, pl, Point(width as real / 2.0, height as real / 2.0));
  }

  /** What the worker knows when classifying: the video size, the grid
      shape from the settings file, and the inverse grid transform. */
  datatype Grid = Grid(width: int, height: int, cols: int, rows: int, inverse: Affine)

  predicate InFrame(g: Grid, t: Point)
  {
    0.0 <= t.x < g.width as real && 0.0 <= t.y < g.height as real
  }

  /** Row-major, 1-based tank number of a grid cell. */
  function CellIndex(row: int, col: int, cols: int): int
  {
    row * cols + col + 1
  }

  /** The cell a tank number names: the partner of CellIndex. */
  function CellOf(tank: int, cols: int): (rc: (int, int))
    requires cols >= 1
  {
    ((tank - 1) / cols, (tank - 1) % cols)
  }

  /** Tank of the point (x, y) in video pixels: none when its grid
      coordinates fall outside the frame, otherwise the clamped cell. */
  function TankForPoint(g: Grid, p: Point): (r: Result<Option<int>>)
    ensures r == Ok(None) <==> !InFrame(g, Apply(g.inverse, p))
    ensures r.Err? <==> InFrame(g, Apply(g.inverse, p)) && (g.cols == 0 || g.rows == 0)
  {
    var t := Apply(g.inverse, p);
    if !InFrame(g, t) then Ok(None)
    else if g.cols == 0 || g.rows == 0 then Err(DivisionByZero)
    else
      var cellWidth := g.width as real / g.cols as real;
      var cellHeight := g.height as real / g.rows as real;
      var col := Min(g.cols - 1, Max(0, Trunc(t.x / cellWidth)));
      var row := Min(g.rows - 1, Max(0, Trunc(t.y / cellHeight)));
      Ok(Some(CellIndex(row, col, g.cols)))
  }

  /** With at least one column and one row, every point gets either no tank
      or a tank numbered 1..cols*rows. */
  lemma TankNumberInRange(g: Grid, p: Point)
    requires g.cols >= 1 && g.rows >= 1
    ensures TankForPoint(g, p).Ok?
    ensures TankForPoint(g, p).value.Some? ==> 1 <= TankForPoint(g, p).value.value <= g.cols * g.rows
  {
    var t := Apply(g.inverse, p);
    if InFrame(g, t) {
      var cellWidth := g.width as real / g.cols as real;
      var cellHeight := g.height as real / g.rows as real;
      var col := Min(g.cols - 1, Max(0, Trunc(t.x / cellWidth)));
      var row := Min(g.rows - 1, Max(0, Trunc(t.y / cellHeight)));
      CellInRange(row, col, g.cols, g.rows);
    }
  }

  lemma CellInRange(row: int, col: int, cols: int, rows: int)
    requires 0 <= col < cols && 0 <= row < rows
    ensures 1 <= CellIndex(row, col, cols) <= cols * rows
  {
    assert row * cols <= (rows - 1) * cols;
  }

  /** A tank number determines its cell: CellOf inverts CellIndex ... */
  lemma CellOfCellIndex(row: int, col: int, cols: int)
    requires 0 <= col < cols && 0 <= row
    ensures CellOf(CellIndex(row, col, cols), cols) == (row, col)
  {
    DivModUnique(row * cols + col, cols, row, col);
  }

  /** Euclidean division has one quotient and remainder. */
  lemma DivModUnique(k: int, n: int, q: int, r: int)
    requires n >= 1 && 0 <= r < n && k == q * n + r
    ensures k / n == q && k % n == r
  {
    var q', r' := k / n, k % n;
    assert k == q' * n + r';
    if q' > q {
      MulMonotone(q + 1, q', n);
      assert false;
    } else if q' < q {
      MulMonotone(q' + 1, q, n);
      assert false;
    }
  }

  lemma MulMonotone(a: int, b: int, n: int)
    requires a <= b && n >= 0
    ensures a * n <= b * n
  {
    assert b * n - a * n == (b - a) * n;
  }

  /** ... so two distinct cells never share a tank number ... */
  lemma CellIndexInjective(r1: int, c1: int, r2: int, c2: int, cols: int)
    requires 0 <= c1 < cols && 0 <= c2 < cols && 0 <= r1 && 0 <= r2
    requires CellIndex(r1, c1, cols) == CellIndex(r2, c2, cols)
    ensures r1 == r2 && c1 == c2
  {
    CellOfCellIndex(r1, c1, cols);
    CellOfCellIndex(r2, c2, cols);
  }

  /** ... and every tank number in range names a cell of the grid. */
  lemma CellIndexOfCellOf(tank: int, cols: int, rows: int)
    requires cols >= 1 && rows >= 1 && 1 <= tank <= cols * rows
    ensures 0 <= CellOf(tank, cols).0 < rows && 0 <= CellOf(tank, cols).1 < cols
    ensures CellIndex(CellOf(tank, cols).0, CellOf(tank, cols).1, cols) == tank
  {
    var k := tank - 1;
    assert k == k / cols * cols + k % cols;
    if k / cols >= rows {
      MulMonotone(rows, k / cols, cols);
      assert false;
    }
  }

  /** In exact arithmetic the clamps never fire: the tank found is the cell
      whose half-open rectangle holds the grid coordinates of the point. */
  lemma TankIsContainingCell(g: Grid, p: Point)
    requires g.cols >= 1 && g.rows >= 1
    requires InFrame(g, Apply(g.inverse, p))
    ensures var t := Apply(g.inverse, p);
            exists row, col ::
              && 0 <= col < g.cols && 0 <= row < g.rows
              && InSlice(t.x, g.width, g.cols, col) && InSlice(t.y, g.height, g.rows, row)
              && TankForPoint(g, p) == Ok(Some(CellIndex(row, col, g.cols)))
  {
    var t := Apply(g.inverse, p);
    var col := CellContaining(t.x, g.width, g.cols);
    var row := CellContaining(t.y, g.height, g.rows);
    TankOfClampedCell(g, p, row, col);
  }

  /** v lies in the k-th of n equal slices of [0, size): the half-open
      interval [k * size/n, (k+1) * size/n). */
  predicate InSlice(v: real, size: int, n: int, k: int)
    requires n >= 1
  {
    k as real * (size as real / n as real) <= v < (k + 1) as real * (size as real / n as real)
  }

  lemma TankOfClampedCell(g: Grid, p: Point, row: int, col: int)
    requires g.cols >= 1 && g.rows >= 1
    requires InFrame(g, Apply(g.inverse, p))
    requires col == Min(g.cols - 1, Max(0, Trunc(Apply(g.inverse, p).x / (g.width as real / g.cols as real))))
    requires row == Min(g.rows - 1, Max(0, Trunc(Apply(g.inverse, p).y / (g.height as real / g.rows as real))))
    ensures TankForPoint(g, p) == Ok(Some(CellIndex(row, col, g.cols)))
  {
  }

  /** For 0 <= v < size, floor(v / (size / n)) already lies in 0..n-1 and
      names the slice of width size / n holding v. */
  lemma CellContaining(v: real, size: int, n: int) returns (k: int)
    requires n >= 1 && 0.0 <= v < size as real
    ensures k == Min(n - 1, Max(0, Trunc(v / (size as real / n as real))))
    ensures 0 <= k < n
    ensures InSlice(v, size, n, k)
  {
    var w := size as real / n as real;
    var q := v / w;
    QuotientBounds(v, size as real, n as real, w, q);
    k := Trunc(q);
    ScaleLow(k as real, q, w, v);
    ScaleHigh(k as real, q, w, v);
  }

  lemma QuotientBounds(v: real, size: real, n: real, w: real, q: real)
    requires n >= 1.0 && 0.0 <= v < size && w == size / n && q == v / w
    ensures w > 0.0 && q * w == v && 0.0 <= q < n
  {
    assert w * n == size;
    assert q * w == v;
  }

  lemma ScaleLow(k: real, q: real, w: real, v: real)
    requires w > 0.0 && q * w == v && k <= q
    ensures k * w <= v
  {
    assert (q - k) * w >= 0.0;
  }

  lemma ScaleHigh(k: real, q: real, w: real, v: real)
    requires w > 0.0 && q * w == v && q < k + 1.0
    ensures v < (k + 1.0) * w
  {
    var d := k + 1.0 - q;
    assert d > 0.0;
    assert d * w > 0.0;
    assert d * w == k * w + w - q * w;
    assert (k + 1.0) * w == k * w + w;
  }

  /** The documented two-tank example: a 200 x 100 video, two columns and
      one row, identity transform. */
  lemma TwoTankExample()
    ensures TankForPoint(Grid(200, 100, 2, 1, Identity), Point(40.0, 50.0)) == Ok(Some(1))
    ensures TankForPoint(Grid(200, 100, 2, 1, Identity), Point(160.0, 50.0)) == Ok(Some(2))
    ensures TankForPoint(Grid(200, 100, 2, 1, Identity), Point(100.0, -5.0)) == Ok(None)
  {
    var g := Grid(200, 100, 2, 1, Identity);
    assert Apply(Identity, Point(40.0, 50.0)) == Point(40.0, 50.0);
    assert Apply(Identity, Point(160.0, 50.0)) == Point(160.0, 50.0);
    assert Apply(Identity, Point(100.0, -5.0)) == Point(100.0, -5.0);
    assert g.width as real / g.cols as real == 100.0;
    assert g.height as real / g.rows as real == 100.0;
    assert Trunc(40.0 / 100.0) == 0;
    assert Trunc(160.0 / 100.0) == 1;
    assert Trunc(50.0 / 100.0) == 0;
  }
}

=== FILE: order.dfy ===
/** How Python orders the cell values the pipeline sorts: numbers by
    value, strings by code point, and nothing else (None, or a number next
    to a string) at all. */
module Order {
  import opened Base

  /** A value as a sort key: a number, or a text. */
  datatype Key = Num(x: real) | Text(s: string)

  /** The key of a cell, if Python can compare it with anything. */
  function KeyOf(v: Value): (k: Option<Key>)
    ensures k.None? <==> v.NullV?
    ensures Numeric(v).Some? ==> k == Some(Num(Numeric(v).value))
    ensures v.StrV? ==> k == Some(Text(v.s))
  {
    match v
    case FloatV(x) => Some(Num(x))
    case IntV(n) => Some(Num(n as real))
    case StrV(s) => Some(Text(s))
    case NullV => None
  }

  /** Python's a < b on strings: the first differing code point decides,
      and a proper prefix comes first. */
  predicate StrLt(a: string, b: string)
    decreases |a|
  {
    if |a| == 0 then |b| > 0
    else if |b| == 0 then false
    else if a[0] != b[0] then a[0] < b[0]
    else StrLt(a[1..], b[1..])
  }

  lemma {:induction false} StrLtIrreflexive(a: string)
    ensures !StrLt(a, a)
    decreases |a|
  {
    if |a| > 0 {
      StrLtIrreflexive(a[1..]);
    }
  }

  lemma {:induction false} StrLtTransitive(a: string, b: string, c: string)
    requires StrLt(a, b) && StrLt(b, c)
    ensures StrLt(a, c)
    decreases |a|
  {
    if |a| > 0 && |b| > 0 && |c| > 0 && a[0] == b[0] && b[0] == c[0] {
      StrLtTransitive(a[1..], b[1..], c[1..]);
    }
  }

  lemma {:induction false} StrLtTotal(a: string, b: string)
    requires a != b
    ensures StrLt(a, b) || StrLt(b, a)
    decreases |a|
  {
    if |a| > 0 && |b| > 0 && a[0] == b[0] {
      assert a == [a[0]] + a[1..] && b == [b[0]] + b[1..];
      StrLtTotal(a[1..], b[1..]);
    }
  }

  lemma StrLtAsymmetric(a: string, b: string)
    requires StrLt(a, b)
    ensures !StrLt(b, a)
  {
    if StrLt(b, a) {
      StrLtTransitive(a, b, a);
      StrLtIrreflexive(a);
    }
  }

  predicate SameKind(a: Key, b: Key)
  {
    a.Num? == b.Num?
  }

  /** Python's a < b on keys; a number and a text are never ordered. */
  predicate KeyLt(a: Key, b: Key)
  {
    match (a, b)
    case (Num(x), Num(y)) => x < y
    case (Text(s), Text(t)) => StrLt(s, t)
    case _ => false
  }

  /** KeyLt is a strict total order on keys of one kind. */
  lemma KeyLtStrictOrder(a: Key, b: Key, c: Key)
    ensures !KeyLt(a, a)
    ensures KeyLt(a, b) ==> !KeyLt(b, a)
    ensures KeyLt(a, b) && KeyLt(b, c) ==> KeyLt(a, c)
    ensures SameKind(a, b) && a != b ==> KeyLt(a, b) || KeyLt(b, a)
  {
    if a.Text? {
      StrLtIrreflexive(a.s);
      if b.Text? {
        if StrLt(a.s, b.s) { StrLtAsymmetric(a.s, b.s); }
        if a != b { StrLtTotal(a.s, b.s); }
        if c.Text? && StrLt(a.s, b.s) && StrLt(b.s, c.s) { StrLtTransitive(a.s, b.s, c.s); }
      }
    }
  }

  /** Python's == on cell values: numbers compare by value (1 == 1.0),
      everything else structurally. */
  predicate PyEq(a: Value, b: Value)
  {
    if Numeric(a).Some? && Numeric(b).Some? then Numeric(a) == Numeric(b) else a == b
  }

  /** Two cells are equal in Python exactly when their keys are. */
  lemma PyEqIsKeyEq(a: Value, b: Value)
    ensures PyEq(a, b) <==> KeyOf(a) == KeyOf(b)
  {
  }
}

=== FILE: palette.dfy ===
/** The behaviour colours of the annotated video (workers/batch_processor.py):
    the distinct class names of all output detections, sorted ascending,
    the i-th of them coloured with the i-th of ten predefined colours,
    cycling. */
module Palette {
  import opened Base
  import opened Order
  import opened Sorting
  import opened Frames

  type Colour = (int, int, int)

  /** The ten predefined colours, in order. */
  const Predefined: seq<Colour> := [(31, 119, 180), (255, 127, 14), (44, 160, 44), (214, 39, 40), (148, 103, 189),
                                    (140, 86, 75), (227, 119, 194), (127, 127, 127), (188, 189, 34), (23, 190, 207)]

  /** A class name as Python's set and dict see it: its key (1 and 1.0
      are one name), or None. */
  type Name = Option<Key>

  /** det['class_name'] for every detection, in order; a detection without
      one fails. */
  function ClassNames(dets: seq<Row>): (r: Result<seq<Name>>)
    ensures r.Ok? <==> forall i :: 0 <= i < |dets| ==> "class_name" in dets[i]
    ensures r.Err? ==> r.fault == MissingKey("class_name")
    ensures r.Ok? ==> |r.value| == |dets| && forall i :: 0 <= i < |dets| ==> r.value[i] == KeyOf(dets[i]["class_name"])
  {
    if dets == [] then Ok([])
    else if "class_name" !in dets[0] then Err(MissingKey("class_name"))
    else
      match ClassNames(dets[1..])
      case Err(e) => Err(e)
      case Ok(rest) =>
        assert forall i :: 1 <= i < |dets| ==> dets[i] == dets[1..][i - 1];
        Ok([KeyOf(dets[0]["class_name"])] + rest)
  }

  predicate NoDuplicates(s: seq<Name>)
  {
    forall i, j :: 0 <= i < j < |s| ==> s[i] != s[j]
  }

  /** The names once each, in order of first appearance. */
  function Distinct(ns: seq<Name>): (r: seq<Name>)
    ensures forall x :: x in r <==> x in ns
    ensures NoDuplicates(r)
  {
    if ns == [] then []
    else
      var init := ns[..|ns| - 1];
      var r := Distinct(init);
      assert forall x :: x in ns <==> x in init || x == ns[|ns| - 1] by {
        assert ns == init + [ns[|ns| - 1]];
      }
      if ns[|ns| - 1] in r then r else r + [ns[|ns| - 1]]
  }

  /** The sort key of a name; None is only ever sorted alone. */
  function NameKey(n: Name): Key
  {
    if n.Some? then n.value else Num(0.0)
  }

  /** Whether Python can sort these names: fewer than two, or all of them
      numbers, or all of them texts. */
  predicate Comparable(ns: seq<Name>)
  {
    |ns| < 2 || ((forall i :: 0 <= i < |ns| ==> ns[i].Some?) && forall i, j :: 0 <= i < |ns| && 0 <= j < |ns| ==> SameKind(NameKey(ns[i]), NameKey(ns[j])))
  }

  /** sorted(names): with two or more names, a None or a number next to a
      text makes the comparison fail. */
  function SortNames(ns: seq<Name>): (r: Result<seq<Name>>)
    ensures r.Ok? <==> Comparable(ns)
    ensures r.Err? ==> r.fault == UncomparableClassNames
    ensures r.Ok? ==> multiset(r.value) == multiset(ns) && Ordered(r.value, NameKey, false)
  {
    if !Comparable(ns) then Err(UncomparableClassNames)
    else if |ns| < 2 then Ok(ns)
    else
      assert Uniform(ns, NameKey);
      Ok(Sort(ns, NameKey, false))
  }

  /** {name: colours[i % 10] for i, name in enumerate(names)}: a later
      entry for the same name replaces an earlier one. */
  function Colours(ns: seq<Name>): (m: map<Name, Colour>)
    ensures m.Keys == set x | x in ns
  {
    if ns == [] then map[]
    else
      var init := ns[..|ns| - 1];
      assert ns == init + [ns[|ns| - 1]];
      Colours(init)[ns[|ns| - 1] := Predefined[(|ns| - 1) % 10]]
  }

  /** The i-th of distinct names gets the i-th colour, cycling every ten. */
  lemma {:induction false} ColoursAt(ns: seq<Name>, i: int)
    requires NoDuplicates(ns) && 0 <= i < |ns|
    ensures Colours(ns)[ns[i]] == Predefined[i % 10]
    decreases |ns|
  {
    var n := |ns| - 1;
    if i < n {
      var init := ns[..n];
      assert init[i] == ns[i];
      assert NoDuplicates(init) by {
        forall a, b | 0 <= a < b < |init|
          ensures init[a] != init[b]
        {
          assert init[a] == ns[a] && init[b] == ns[b];
        }
      }
      ColoursAt(init, i);
      assert ns[i] != ns[n];
    }
  }

  /** The class names of the store, as a set. */
  function NameSet(frames: map<int, seq<Row>>): set<Name>
  {
    set f, d | f in frames && d in frames[f] && "class_name" in d :: KeyOf(d["class_name"])
  }

  /** Every detection has a class name. */
  predicate AllHaveNames(frames: map<int, seq<Row>>)
  {
    forall f, d :: f in frames && d in frames[f] ==> "class_name" in d
  }

  /** The colour of every class name in the store, or why there is none. */
  function BehaviorColors(frames: map<int, seq<Row>>): (r: Result<map<Name, Colour>>)
    ensures r.Err? ==> r.fault == MissingKey("class_name") || r.fault == UncomparableClassNames
    ensures r.Err? && ClassNames(Flatten(frames)).Ok? ==> r.fault == UncomparableClassNames
  {
    match ClassNames(Flatten(frames))
    case Err(e) => Err(e)
    case Ok(ns) =>
      match SortNames(Distinct(ns))
      case Err(e) => Err(e)
      case Ok(sorted) => Ok(Colours(sorted))
  }

  /** The number of names of the set that sort strictly before n. */
  function Rank(names: set<Name>, n: Name): nat
  {
    |set m | m in names && m.Some? && n.Some? && KeyLt(m.value, n.value)|
  }

  /** The distinct names of the flattened store are those of the store. */
  lemma DistinctNamesOfStore(frames: map<int, seq<Row>>)
    requires ClassNames(Flatten(frames)).Ok?
    ensures AllHaveNames(frames)
    ensures forall x :: x in Distinct(ClassNames(Flatten(frames)).value) <==> x in NameSet(frames)
  {
    var all := Flatten(frames);
    forall d
      ensures d in all <==> exists f :: f in frames && d in frames[f]
    {
      FlattenMembers(frames, d);
    }
    NamesOfRows(frames, all, ClassNames(all).value);
  }

  lemma NamesOfRows(frames: map<int, seq<Row>>, all: seq<Row>, ns: seq<Name>)
    requires forall d :: d in all <==> exists f :: f in frames && d in frames[f]
    requires |ns| == |all| && forall i :: 0 <= i < |all| ==> "class_name" in all[i] && ns[i] == KeyOf(all[i]["class_name"])
    ensures AllHaveNames(frames)
    ensures forall x :: x in ns <==> x in NameSet(frames)
  {
    forall f, d | f in frames && d in frames[f]
      ensures "class_name" in d
    {
      assert d in all;
      var i :| 0 <= i < |all| && all[i] == d;
    }
    forall x
      ensures x in ns <==> x in NameSet(frames)
    {
      if x in ns {
        var i :| 0 <= i < |ns| && ns[i] == x;
        var d := all[i];
        assert d in all;
        var f :| f in frames && d in frames[f];
        assert KeyOf(d["class_name"]) in NameSet(frames);
      }
      if x in NameSet(frames) {
        var f, d :| f in frames && d in frames[f] && "class_name" in d && KeyOf(d["class_name"]) == x;
        assert d in all;
        var i :| 0 <= i < |all| && all[i] == d;
        assert ns[i] == x;
      }
    }
  }

  /** The palette succeeds exactly when every detection has a class name
      and the distinct names can be ordered. */
  lemma BehaviorColorsOk(frames: map<int, seq<Row>>)
    ensures BehaviorColors(frames).Ok? <==> AllHaveNames(frames) && ComparableSet(NameSet(frames))
  {
    var all := Flatten(frames);
    if AllHaveNames(frames) {
      forall i | 0 <= i < |all|
        ensures "class_name" in all[i]
      {
        var d := all[i];
        assert d in all;
        FlattenMembers(frames, d);
      }
    }
    if ClassNames(all).Ok? {
      DistinctNamesOfStore(frames);
      var ds := Distinct(ClassNames(all).value);
      DistinctSize(ds, NameSet(frames));
      ComparableOfSet(ds, NameSet(frames));
    }
  }

  /** Whether Python can sort a set of names. */
  predicate ComparableSet(names: set<Name>)
  {
    |names| < 2 || ((forall n :: n in names ==> n.Some?) && forall a, b :: a in names && b in names ==> SameKind(NameKey(a), NameKey(b)))
  }

  /** A duplicate-free listing of a set is as long as the set is large. */
  lemma {:induction false} DistinctSize(s: seq<Name>, names: set<Name>)
    requires NoDuplicates(s) && forall x :: x in s <==> x in names
    ensures |s| == |names|
    decreases |s|
  {
    if s == [] {
      Differ(names, {});
    } else {
      var last := s[|s| - 1];
      var init := s[..|s| - 1];
      assert last in s;
      assert NoDuplicates(init) by {
        forall a, b | 0 <= a < b < |init|
          ensures init[a] != init[b]
        {
          assert init[a] == s[a] && init[b] == s[b];
        }
      }
      forall x
        ensures x in init <==> x in names - {last}
      {
        if x in init {
          var a :| 0 <= a < |init| && init[a] == x;
          assert s[a] == x && a < |s| - 1;
        }
        if x in names - {last} {
          assert x in s;
          var a :| 0 <= a < |s| && s[a] == x;
          assert a != |s| - 1;
          assert init[a] == x;
        }
      }
      DistinctSize(init, names - {last});
    }
  }

  lemma ComparableOfSet(s: seq<Name>, names: set<Name>)
    requires forall x :: x in s <==> x in names
    requires |s| == |names|
    ensures Comparable(s) <==> ComparableSet(names)
  {
    if |s| >= 2 && Comparable(s) {
      forall a, b | a in names && b in names
        ensures a.Some? && SameKind(NameKey(a), NameKey(b))
      {
        assert a in s && b in s;
        var i :| 0 <= i < |s| && s[i] == a;
        var j :| 0 <= j < |s| && s[j] == b;
      }
    }
    if |s| >= 2 && ComparableSet(names) {
      forall i, j | 0 <= i < |s| && 0 <= j < |s|
        ensures s[i].Some? && SameKind(NameKey(s[i]), NameKey(s[j]))
      {
        var a, b := s[i], s[j];
        assert a in s && b in s;
        assert a in names && b in names;
      }
    }
  }

  /** A name occurs at most once in a duplicate-free listing. */
  lemma {:induction false} CountNoDuplicates(s: seq<Name>, x: Name)
    requires NoDuplicates(s)
    ensures multiset(s)[x] <= 1
    decreases |s|
  {
    if s != [] {
      var init, last := s[..|s| - 1], s[|s| - 1];
      assert s == init + [last];
      assert NoDuplicates(init) by {
        forall a, b | 0 <= a < b < |init|
          ensures init[a] != init[b]
        {
          assert init[a] == s[a] && init[b] == s[b];
        }
      }
      CountNoDuplicates(init, x);
      forall a | 0 <= a < |init|
        ensures init[a] != last
      {
        assert init[a] == s[a];
      }
      assert last !in init;
    }
  }

  /** Reordering a duplicate-free listing leaves it duplicate-free. */
  lemma PermutationNoDuplicates(s: seq<Name>, t: seq<Name>)
    requires NoDuplicates(s) && multiset(t) == multiset(s)
    ensures NoDuplicates(t)
  {
    forall a, b | 0 <= a < b < |t|
      ensures t[a] != t[b]
    {
      var x, y := t[a], t[b];
      assert t == t[..b] + t[b..];
      assert t[..b][a] == x;
      assert x in t[..b];
      assert t[b..][0] == y;
      assert y in t[b..];
      CountNoDuplicates(s, x);
      assert multiset(t)[x] == multiset(t[..b])[x] + multiset(t[b..])[x];
    }
  }

  /** Ordered, comparable and duplicate-free: strictly ascending. */
  lemma StrictlyAscending(s: seq<Name>)
    requires Ordered(s, NameKey, false) && NoDuplicates(s) && Comparable(s) && |s| >= 2
    ensures forall a, b :: 0 <= a < b < |s| ==> KeyLt(NameKey(s[a]), NameKey(s[b]))
  {
    forall a, b | 0 <= a < b < |s|
      ensures KeyLt(NameKey(s[a]), NameKey(s[b]))
    {
      KeyLtStrictOrder(NameKey(s[a]), NameKey(s[b]), NameKey(s[a]));
    }
  }

  /** In the sorted names, the name at position i has exactly i names
      before it in order. */
  lemma RankInSorted(s: seq<Name>, names: set<Name>, i: int)
    requires Ordered(s, NameKey, false) && NoDuplicates(s) && Comparable(s)
    requires forall x :: x in s <==> x in names
    requires 0 <= i < |s|
    ensures Rank(names, s[i]) == i
  {
    var n := s[i];
    var smaller := set m | m in names && m.Some? && n.Some? && KeyLt(m.value, n.value);
    var prefix := s[..i];
    if |s| >= 2 {
      StrictlyAscending(s);
    }
    forall x
      ensures x in prefix <==> x in smaller
    {
      if x in prefix {
        var j :| 0 <= j < i && prefix[j] == x;
        assert s[j] == x;
        assert x in s;
      }
      if x in smaller {
        assert x in s;
        var j :| 0 <= j < |s| && s[j] == x;
        KeyLtStrictOrder(NameKey(x), NameKey(n), NameKey(x));
        assert j < i;
        assert prefix[j] == x;
      }
    }
    assert NoDuplicates(prefix) by {
      forall a, b | 0 <= a < b < |prefix|
        ensures prefix[a] != prefix[b]
      {
        assert prefix[a] == s[a] && prefix[b] == s[b];
      }
    }
    DistinctSize(prefix, smaller);
  }

  /** The sorted names list every name of the set once, and can still be
      compared. */
  lemma SortedListing(ds: seq<Name>, sorted: seq<Name>, names: set<Name>)
    requires NoDuplicates(ds) && (forall x :: x in ds <==> x in names) && Comparable(ds)
    requires multiset(sorted) == multiset(ds)
    ensures NoDuplicates(sorted) && (forall x :: x in sorted <==> x in names) && Comparable(sorted)
  {
    PermutationNoDuplicates(ds, sorted);
    forall x
      ensures x in sorted <==> x in names
    {
      assert x in sorted <==> x in multiset(sorted);
      assert x in ds <==> x in multiset(ds);
    }
    DistinctSize(ds, names);
    DistinctSize(sorted, names);
    ComparableOfSet(ds, names);
    ComparableOfSet(sorted, names);
  }

  /** Every class name of the store gets a colour, nothing else does, and
      a name's colour is fixed by how many names sort before it. */
  lemma BehaviorColorsByRank(frames: map<int, seq<Row>>, n: Name)
    requires BehaviorColors(frames).Ok?
    ensures n in BehaviorColors(frames).value <==> n in NameSet(frames)
    ensures n in BehaviorColors(frames).value ==> BehaviorColors(frames).value[n] == Predefined[Rank(NameSet(frames), n) % 10]
  {
    var names := NameSet(frames);
    var ds := Distinct(ClassNames(Flatten(frames)).value);
    DistinctNamesOfStore(frames);
    var sorted := SortNames(ds).value;
    assert BehaviorColors(frames).value == Colours(sorted);
    SortedListing(ds, sorted, names);
    if n in sorted {
      var i :| 0 <= i < |sorted| && sorted[i] == n;
      ColoursAt(sorted, i);
      RankInSorted(sorted, names, i);
    }
  }

  /** Every detection having a class name, reading them succeeds. */
  lemma NamesPresent(frames: map<int, seq<Row>>)
    requires AllHaveNames(frames)
    ensures ClassNames(Flatten(frames)).Ok?
  {
    var all := Flatten(frames);
    forall i | 0 <= i < |all|
      ensures "class_name" in all[i]
    {
      var d := all[i];
      assert d in all;
      FlattenMembers(frames, d);
    }
  }

  /** Each name of the set with the colour its rank picks. */
  function RankColours(names: set<Name>): (m: map<Name, Colour>)
    ensures m.Keys == names
  {
    map n | n in names :: Predefined[Rank(names, n) % 10]
  }

  /** The colour table is fixed by the set of class names alone. */
  lemma BehaviorColorsAreRankColours(frames: map<int, seq<Row>>)
    requires BehaviorColors(frames).Ok?
    ensures BehaviorColors(frames).value == RankColours(NameSet(frames))
  {
    var c, m := BehaviorColors(frames).value, RankColours(NameSet(frames));
    forall n
      ensures n in c <==> n in m
      ensures n in c ==> c[n] == m[n]
    {
      BehaviorColorsByRank(frames, n);
    }
  }

  /** Two stores with the same class names get the same colours. */
  lemma SameColours(a: map<int, seq<Row>>, b: map<int, seq<Row>>)
    requires BehaviorColors(a).Ok? && BehaviorColors(b).Ok? && NameSet(a) == NameSet(b)
    ensures BehaviorColors(a).value == BehaviorColors(b).value
  {
    BehaviorColorsAreRankColours(a);
    BehaviorColorsAreRankColours(b);
  }

  /** The colours depend only on the set of class names: not on the order
      of frames, detections or first appearances. */
  lemma BehaviorColorsOfNameSet(a: map<int, seq<Row>>, b: map<int, seq<Row>>)
    requires AllHaveNames(a) && AllHaveNames(b) && NameSet(a) == NameSet(b)
    ensures BehaviorColors(a) == BehaviorColors(b)
  {
    NamesPresent(a);
    NamesPresent(b);
    BehaviorColorsOk(a);
    BehaviorColorsOk(b);
    if BehaviorColors(a).Ok? {
      SameColours(a, b);
    }
  }
}

=== FILE: paths.dfy ===
/** POSIX path helpers as Python's os.path computes them: basename,
    dirname, splitext and join. */
module Paths {

  /** Position of the last c in s, or -1 when s holds none (str.rfind). */
  function LastIndexOf(s: string, c: char): (i: int)
    ensures -1 <= i < |s|
    ensures i >= 0 ==> s[i] == c
    ensures forall j :: i < j < |s| ==> s[j] != c
  {
    if |s| == 0 then -1
    else if s[|s| - 1] == c then |s| - 1
    else LastIndexOf(s[..|s| - 1], c)
  }

  /** os.path.basename: everything after the last '/'. */
  function Basename(p: string): (b: string)
    ensures forall j :: 0 <= j < |b| ==> b[j] != '/'
    ensures |b| <= |p| && b == p[|p| - |b|..]
    ensures |b| < |p| ==> p[|p| - |b| - 1] == '/'
  {
    p[LastIndexOf(p, '/') + 1..]
  }

  predicate AllSlashes(s: string) { forall i :: 0 <= i < |s| ==> s[i] == '/' }

  /** s without its trailing '/' characters (str.rstrip('/')). */
  function StripTrailingSlashes(s: string): (r: string)
    ensures r <= s
    ensures AllSlashes(s[|r|..])
    ensures r == [] || r[|r| - 1] != '/'
  {
    if |s| > 0 && s[|s| - 1] == '/' then StripTrailingSlashes(s[..|s| - 1]) else s
  }

  /** os.path.dirname: everything before the last '/', with trailing
      slashes removed unless the head is made of slashes only. */
  function Dirname(p: string): (d: string)
    ensures d <= p
  {
    var head := p[..LastIndexOf(p, '/') + 1];
    if head != [] && !AllSlashes(head) then StripTrailingSlashes(head) else head
  }

  /** os.path.splitext: the extension starts at the last '.' of the last
      path component, unless every character before that dot in the
      component is itself a dot (a leading-dot name has no extension). */
  function SplitExt(p: string): (r: (string, string))
    ensures r.0 + r.1 == p
    ensures r.1 == [] || (r.1[0] == '.' && '.' !in r.1[1..] && '/' !in r.1)
    ensures r.1 != [] ==> exists k :: LastIndexOf(p, '/') < k < |r.0| && p[k] != '.'
  {
    var sep := LastIndexOf(p, '/');
    var dot := LastIndexOf(p, '.');
    if dot > sep && exists k :: sep < k < dot && p[k] != '.' then
      assert p[..dot] + p[dot..] == p;
      (p[..dot], p[dot..])
    else
      (p, "")
  }

  /** Conversely, a dot in the last component that follows some character
      other than a dot starts an extension, and the extension begins at
      the last dot of p. */
  lemma SplitExtFindsDot(p: string, m: int, k: int)
    requires LastIndexOf(p, '/') < m < k < |p| && p[m] != '.' && p[k] == '.'
    ensures SplitExt(p).1 != []
    ensures |SplitExt(p).0| == LastIndexOf(p, '.')
  {
    var dot := LastIndexOf(p, '.');
    assert dot >= k;
    assert LastIndexOf(p, '/') < m < dot && p[m] != '.';
  }

  /** The file name of p without its extension, as the worker names its
      outputs: os.path.splitext(os.path.basename(p))[0]. */
  function Stem(p: string): (s: string)
    ensures forall j :: 0 <= j < |s| ==> s[j] != '/'
    ensures s <= Basename(p)
  {
    var b := Basename(p);
    var r := SplitExt(b);
    PrefixOfConcat(r.0, r.1);
    r.0
  }

  lemma PrefixOfConcat(a: string, b: string)
    ensures a <= a + b
  {
  }

  /** os.path.join(a, b): an absolute b replaces a; otherwise b follows a,
      with one '/' in between unless a is empty or already ends in '/'. */
  function Join(a: string, b: string): (r: string)
    ensures |b| > 0 && b[0] == '/' ==> r == b
    ensures (|b| == 0 || b[0] != '/') && a != [] && a[|a| - 1] != '/' ==> r == a + "/" + b
    ensures (|b| == 0 || b[0] != '/') && (a == [] || a[|a| - 1] == '/') ==> r == a + b
    ensures |r| >= |b| && r[|r| - |b|..] == b
  {
    if |b| > 0 && b[0] == '/' then b
    else if a == [] || a[|a| - 1] == '/' then a + b
    else a + "/" + b
  }
}

=== FILE: ranking.dfy ===
/** The confidence filter of the batch worker (workers/batch_processor.py):
    per frame and per tank, the detections sorted by confidence, highest
    first, and only the first K kept. The same top-K selection feeds each
    tank's tracker in the tracking mode. */
module Ranking {
  import opened Base
  import opened Order
  import opened Sorting

  /** The confidence a detection is ranked by: d.get('conf', 0.0). */
  function ConfValue(row: Row): (v: Value)
    ensures "conf" !in row ==> v == FloatV(0.0)
  {
    Get(row, "conf", FloatV(0.0))
  }

  /** The sort key of a detection's confidence (a None confidence, which
      Python can only sort when it is alone, counts as 0). */
  function ConfKey(row: Row): Key
  {
    match KeyOf(ConfValue(row))
    case Some(k) => k
    case None => Num(0.0)
  }

  /** Whether every confidence is a number (numeric) or every one is a
      text (not numeric). */
  predicate AllConf(rows: seq<Row>, numeric: bool)
  {
    rows == [] || (ConfValue(rows[0]).StrV? != numeric && !ConfValue(rows[0]).NullV? && AllConf(rows[1..], numeric))
  }

  /** Whether Python can sort these detections by confidence: no two to
      compare, or every confidence is a number, or every one is a text. */
  predicate Sortable(rows: seq<Row>)
  {
    |rows| < 2 || AllConf(rows, true) || AllConf(rows, false)
  }

  lemma {:induction false} AllConfKind(rows: seq<Row>, numeric: bool)
    requires AllConf(rows, numeric)
    ensures forall i :: 0 <= i < |rows| ==> ConfKey(rows[i]).Num? == numeric
    decreases |rows|
  {
    if rows != [] {
      AllConfKind(rows[1..], numeric);
      assert forall i :: 1 <= i < |rows| ==> rows[i] == rows[1..][i - 1];
    }
  }

  /** Numbers and texts alike sort within their own kind. */
  lemma SortableUniform(rows: seq<Row>)
    requires Sortable(rows)
    ensures Uniform(rows, ConfKey)
  {
    if AllConf(rows, true) {
      AllConfKind(rows, true);
    } else if AllConf(rows, false) {
      AllConfKind(rows, false);
    }
  }

  /** dets.sort(key=conf, reverse=True): most confident first, ties in
      their original order. */
  function Ranked(rows: seq<Row>): (r: seq<Row>)
    requires Sortable(rows)
    ensures multiset(r) == multiset(rows) && |r| == |rows|
    ensures Ordered(r, ConfKey, true)
  {
    SortableUniform(rows);
    Sort(rows, ConfKey, true)
  }

  /** dets.sort(key=conf, reverse=True)[:k]: the k most confident
      detections, ties kept in their original order. */
  function TopK(rows: seq<Row>, k: int): (r: Result<seq<Row>>)
    ensures r.Ok? <==> Sortable(rows)
    ensures r.Ok? && k >= 0 ==> |r.value| == Min(k, |rows|)
    ensures r.Ok? && k < 0 ==> |r.value| == Max(0, |rows| + k)
    ensures r.Ok? ==> multiset(r.value) <= multiset(rows)
    ensures r.Ok? ==> Ordered(r.value, ConfKey, true)
  {
    if Sortable(rows) then
      var kept := TakePrefix(Ranked(rows), k);
      SplitMultiset(Ranked(rows), |kept|);
      Ok(kept)
    else Err(UncomparableConfidence)
  }

  /** The detections TopK leaves out. */
  function Dropped(rows: seq<Row>, k: int): seq<Row>
    requires Sortable(rows)
  {
    Ranked(rows)[|TakePrefix(Ranked(rows), k)|..]
  }

  /** Kept and dropped detections split the input, and no dropped
      detection is more confident than a kept one. */
  lemma TopKKeepsMostConfident(rows: seq<Row>, k: int)
    requires Sortable(rows)
    ensures multiset(TopK(rows, k).value) + multiset(Dropped(rows, k)) == multiset(rows)
    ensures forall i, j :: 0 <= i < |TopK(rows, k).value| && 0 <= j < |Dropped(rows, k)| ==>
              !KeyLt(ConfKey(TopK(rows, k).value[i]), ConfKey(Dropped(rows, k)[j]))
  {
    var ranked := Ranked(rows);
    var n := |TakePrefix(ranked, k)|;
    assert TopK(rows, k).value == ranked[..n];
    assert Dropped(rows, k) == ranked[n..];
    SplitMultiset(ranked, n);
    OrderedSplit(ranked, n, ConfKey, true);
  }

  /** Among detections of equal confidence, the earlier ones are kept:
      the ranking keeps every confidence level's detections in input order. */
  lemma TopKStable(rows: seq<Row>, k: int, c: Key)
    requires Sortable(rows)
    ensures WithKey(TopK(rows, k).value + Dropped(rows, k), ConfKey, c) == WithKey(rows, ConfKey, c)
  {
    assert TopK(rows, k).value + Dropped(rows, k) == Sort(rows, ConfKey, true);
  }

  /** Two detections with numeric confidences 0.9 and 0.4 and K = 1: the
      0.9 one is kept. */
  lemma KeepOneExample()
    ensures var a := map["conf" := FloatV(0.4), "tank_number" := IntV(1)];
            var b := map["conf" := FloatV(0.9), "tank_number" := IntV(1)];
            TopK([a, b], 1) == Ok([b])
  {
    var a := map["conf" := FloatV(0.4), "tank_number" := IntV(1)];
    var b := map["conf" := FloatV(0.9), "tank_number" := IntV(1)];
    assert ConfKey(a) == Num(0.4) && ConfKey(b) == Num(0.9);
    assert Sort([b], ConfKey, true) == [b];
    assert [a, b][1..] == [b] && [b][1..] == [];
    assert AllConf([a, b], true);
    assert Ranked([a, b]) == [b, a];
    assert [a, b][1..] == [b];
  }

  /** The same two detections with K = 2: both are kept, the 0.9 one
      first. */
  lemma KeepTwoExample()
    ensures var a := map["conf" := FloatV(0.4), "tank_number" := IntV(1)];
            var b := map["conf" := FloatV(0.9), "tank_number" := IntV(1)];
            TopK([a, b], 2) == Ok([b, a])
  {
    var a := map["conf" := FloatV(0.4), "tank_number" := IntV(1)];
    var b := map["conf" := FloatV(0.9), "tank_number" := IntV(1)];
    assert ConfKey(a) == Num(0.4) && ConfKey(b) == Num(0.9);
    assert AllConf([a, b], true) by {
      assert [a, b][1..] == [b] && [b][1..] == [];
    }
    var kept := TopK([a, b], 2).value;
    assert kept == [kept[0], kept[1]];
    assert multiset(kept) <= multiset([a, b]);
    assert KeyLt(Num(0.4), Num(0.9));
    if kept[0] == a {
      assert false;
    }
  }

  /** The tank of an assigned detection, when it has one. The assignment
      stage writes an int or None, so no other value reaches this stage. */
  function TankOf(row: Row): Option<int>
  {
    if "tank_number" in row && row["tank_number"].IntV? then Some(row["tank_number"].n) else None
  }

  predicate HasTank(rows: seq<Row>, t: int)
  {
    exists i :: 0 <= i < |rows| && TankOf(rows[i]) == Some(t)
  }

  /** The detections of tank t, in order. */
  function Members(rows: seq<Row>, t: int): (r: seq<Row>)
    ensures forall i :: 0 <= i < |r| ==> TankOf(r[i]) == Some(t)
    ensures multiset(r) <= multiset(rows)
  {
    if rows == [] then []
    else
      assert rows == [rows[0]] + rows[1..];
      (if TankOf(rows[0]) == Some(t) then [rows[0]] else []) + Members(rows[1..], t)
  }

  /** A tank has members exactly when one of the detections names it. */
  lemma {:induction false} MembersNonEmpty(rows: seq<Row>, t: int)
    ensures Members(rows, t) != [] <==> HasTank(rows, t)
    decreases |rows|
  {
    if rows != [] {
      MembersNonEmpty(rows[1..], t);
      if HasTank(rows[1..], t) {
        var i :| 0 <= i < |rows[1..]| && TankOf(rows[1..][i]) == Some(t);
        assert rows[i + 1] == rows[1..][i];
      }
      if HasTank(rows, t) && TankOf(rows[0]) != Some(t) {
        var i :| 0 <= i < |rows| && TankOf(rows[i]) == Some(t);
        assert rows[1..][i - 1] == rows[i];
      }
    }
  }

  /** The tanks that have detections, in order of first appearance (the
      iteration order of the per-tank dictionary). */
  function TankOrder(rows: seq<Row>): (tanks: seq<int>)
    ensures forall i, j :: 0 <= i < j < |tanks| ==> tanks[i] != tanks[j]
    ensures forall t :: t in tanks <==> HasTank(rows, t)
  {
    if rows == [] then []
    else
      var init := rows[..|rows| - 1];
      var p := TankOrder(init);
      var last := TankOf(rows[|rows| - 1]);
      assert forall i :: 0 <= i < |init| ==> init[i] == rows[i];
      assert forall t :: HasTank(rows, t) <==> HasTank(init, t) || last == Some(t) by {
        forall t | HasTank(rows, t) && last != Some(t)
          ensures HasTank(init, t)
        {
          var i :| 0 <= i < |rows| && TankOf(rows[i]) == Some(t);
          assert i < |init|;
          assert TankOf(init[i]) == Some(t);
        }
      }
      if last.Some? && last.value !in p then p + [last.value] else p
  }

  lemma {:induction false} MembersConcat(a: seq<Row>, b: seq<Row>, t: int)
    ensures Members(a + b, t) == Members(a, t) + Members(b, t)
    decreases |a|
  {
    if a != [] {
      MembersConcat(a[1..], b, t);
      var head := if TankOf(a[0]) == Some(t) then [a[0]] else [];
      assert (a + b)[0] == a[0];
      assert (a + b)[1..] == a[1..] + b;
      assert Members(a + b, t) == head + Members(a[1..] + b, t);
      assert Members(a, t) == head + Members(a[1..], t);
      assert head + (Members(a[1..], t) + Members(b, t)) == (head + Members(a[1..], t)) + Members(b, t);
    } else {
      assert a + b == b;
    }
  }

  lemma {:induction false} MembersOfOneTank(rows: seq<Row>, u: int, t: int)
    requires forall i :: 0 <= i < |rows| ==> TankOf(rows[i]) == Some(u)
    ensures Members(rows, t) == if t == u then rows else []
    decreases |rows|
  {
    if rows != [] {
      MembersOfOneTank(rows[1..], u, t);
      assert rows == [rows[0]] + rows[1..];
    }
  }

  /** The filter applied to the listed tanks in turn; the first tank whose
      detections cannot be sorted fails the frame. */
  function FilterTanks(rows: seq<Row>, tanks: seq<int>, k: int): (r: Result<seq<Row>>)
    ensures r.Ok? <==> forall t :: t in tanks ==> Sortable(Members(rows, t))
  {
    if tanks == [] then Ok([])
    else
      var head := TopK(Members(rows, tanks[0]), k);
      var tail := FilterTanks(rows, tanks[1..], k);
      assert forall t :: t in tanks <==> t == tanks[0] || t in tanks[1..];
      if head.Err? then Err(head.fault)
      else if tail.Err? then Err(tail.fault)
      else Ok(head.value + tail.value)
  }

  /** A tank's top K are detections of that tank. */
  lemma KeptOfTank(rows: seq<Row>, u: int, k: int)
    requires TopK(Members(rows, u), k).Ok?
    ensures forall i :: 0 <= i < |TopK(Members(rows, u), k).value| ==> TankOf(TopK(Members(rows, u), k).value[i]) == Some(u)
  {
    var kept := TopK(Members(rows, u), k).value;
    forall i | 0 <= i < |kept|
      ensures TankOf(kept[i]) == Some(u)
    {
      assert kept[i] in multiset(Members(rows, u));
    }
  }

  lemma {:induction false} FilterTanksMembers(rows: seq<Row>, tanks: seq<int>, k: int, t: int)
    requires forall i, j :: 0 <= i < j < |tanks| ==> tanks[i] != tanks[j]
    requires FilterTanks(rows, tanks, k).Ok?
    ensures t in tanks ==> TopK(Members(rows, t), k).Ok? && Members(FilterTanks(rows, tanks, k).value, t) == TopK(Members(rows, t), k).value
    ensures t !in tanks ==> Members(FilterTanks(rows, tanks, k).value, t) == []
    decreases |tanks|
  {
    if tanks != [] {
      var u := tanks[0];
      var kept := TopK(Members(rows, u), k).value;
      var rest := FilterTanks(rows, tanks[1..], k).value;
      assert FilterTanks(rows, tanks, k).value == kept + rest;
      FilterTanksMembers(rows, tanks[1..], k, t);
      MembersConcat(kept, rest, t);
      KeptOfTank(rows, u, k);
      MembersOfOneTank(kept, u, t);
      if t == u {
        assert t !in tanks[1..];
      } else {
        assert t in tanks <==> t in tanks[1..];
      }
    }
  }

  /** Every detection names a tank. */
  predicate AllTanked(rows: seq<Row>)
  {
    forall i :: 0 <= i < |rows| ==> TankOf(rows[i]).Some?
  }

  lemma AllTankedConcat(a: seq<Row>, b: seq<Row>)
    requires AllTanked(a) && AllTanked(b)
    ensures AllTanked(a + b)
  {
    forall i | 0 <= i < |a + b|
      ensures TankOf((a + b)[i]).Some?
    {
      if i < |a| {
        assert (a + b)[i] == a[i];
      } else {
        assert (a + b)[i] == b[i - |a|];
      }
    }
  }

  lemma {:induction false} FilterTanksSubset(rows: seq<Row>, tanks: seq<int>, k: int)
    requires FilterTanks(rows, tanks, k).Ok?
    ensures AllTanked(FilterTanks(rows, tanks, k).value)
    decreases |tanks|
  {
    if tanks != [] {
      var u := tanks[0];
      var kept := TopK(Members(rows, u), k).value;
      var rest := FilterTanks(rows, tanks[1..], k).value;
      assert FilterTanks(rows, tanks, k).value == kept + rest;
      FilterTanksSubset(rows, tanks[1..], k);
      KeptOfTank(rows, u, k);
      AllTankedConcat(kept, rest);
    }
  }

  /** One frame of the confidence filter: each tank's top K, tanks in
      order of first appearance. */
  function FilterFrame(rows: seq<Row>, k: int): (r: Result<seq<Row>>)
    ensures r.Ok? <==> forall t :: HasTank(rows, t) ==> Sortable(Members(rows, t))
  {
    var tanks := TankOrder(rows);
    FilterTanks(rows, tanks, k)
  }

  /** What the filter keeps of a frame: for every tank, exactly that tank's
      top K; detections without a tank never. */
  lemma FilterFramePerTank(rows: seq<Row>, k: int, t: int)
    requires FilterFrame(rows, k).Ok?
    ensures Members(FilterFrame(rows, k).value, t) == if HasTank(rows, t) then TopK(Members(rows, t), k).value else []
    ensures AllTanked(FilterFrame(rows, k).value)
  {
    FilterTanksMembers(rows, TankOrder(rows), k, t);
    FilterTanksSubset(rows, TankOrder(rows), k);
  }

  /** No tank keeps more than K detections in a frame. */
  lemma FilterFrameBound(rows: seq<Row>, k: nat, t: int)
    requires FilterFrame(rows, k).Ok?
    ensures |Members(FilterFrame(rows, k).value, t)| <= k
  {
    FilterFramePerTank(rows, k, t);
  }

  /** The confidence filter over the whole store. A frame appears in the
      output exactly when one of its detections has a tank (the grouping
      dictionary gains the frame on first use, even when K keeps nothing). */
  function ConfidenceFilter(frames: map<int, seq<Row>>, k: int): (r: Result<map<int, seq<Row>>>)
    ensures r.Ok? <==> forall f :: f in frames ==> FilterFrame(frames[f], k).Ok?
    ensures r.Ok? ==> forall f :: f in r.value <==> f in frames && TankOrder(frames[f]) != []
    ensures r.Ok? ==> forall f :: f in r.value ==> r.value[f] == FilterFrame(frames[f], k).value
  {
    if forall f :: f in frames ==> FilterFrame(frames[f], k).Ok? then
      Ok(map f | f in frames && TankOrder(frames[f]) != [] :: FilterFrame(frames[f], k).value)
    else Err(UncomparableConfidence)
  }
}

=== FILE: sorting.dfy ===
/** Python's list.sort(key=...) and sorted(): a stable sort, ascending or,
    with reverse=True, descending, where elements with equal keys keep
    their original relative order in both directions. */
module Sorting {
  import opened Order

  /** Whether key a must come strictly before key b in the chosen direction. */
  predicate Before(a: Key, b: Key, descending: bool)
  {
    if descending then KeyLt(b, a) else KeyLt(a, b)
  }

  /** All keys are of one kind, so every pair can be compared. */
  predicate Uniform<T>(s: seq<T>, key: T -> Key)
  {
    forall i, j :: 0 <= i < |s| && 0 <= j < |s| ==> SameKind(key(s[i]), key(s[j]))
  }

  /** No element is strictly after one that follows it. */
  predicate Ordered<T>(s: seq<T>, key: T -> Key, descending: bool)
  {
    forall i, j :: 0 <= i < j < |s| ==> !Before(key(s[j]), key(s[i]), descending)
  }

  /** The elements of s with key k, in their order in s. */
  function WithKey<T>(s: seq<T>, key: T -> Key, k: Key): seq<T>
  {
    if s == [] then [] else (if key(s[0]) == k then [s[0]] else []) + WithKey(s[1..], key, k)
  }

  /** x placed after every element that must come before it, and before
      the rest (including those with its own key, which came later). */
  function Insert<T>(x: T, s: seq<T>, key: T -> Key, descending: bool): seq<T>
  {
    if s == [] then [x]
    else if Before(key(s[0]), key(x), descending) then [s[0]] + Insert(x, s[1..], key, descending)
    else [x] + s
  }

  /** The stable insertion sort. */
  function Sort<T>(s: seq<T>, key: T -> Key, descending: bool): (r: seq<T>)
    ensures multiset(r) == multiset(s) && |r| == |s|
    ensures Uniform(s, key) ==> Ordered(r, key, descending)
    ensures forall k :: WithKey(r, key, k) == WithKey(s, key, k)
  {
    if s == [] then []
    else
      var rest := Sort(s[1..], key, descending);
      assert s == [s[0]] + s[1..];
      InsertPermutes(s[0], rest, key, descending);
      InsertStable(s[0], rest, key, descending);
      if Uniform(s, key) then
        assert Uniform(s[1..], key) by {
          forall i, j | 0 <= i < |s[1..]| && 0 <= j < |s[1..]|
            ensures SameKind(key(s[1..][i]), key(s[1..][j]))
          {
            assert s[1..][i] == s[i + 1] && s[1..][j] == s[j + 1];
          }
        }
        UniformPermutation(s, [s[0]] + rest, key);
        InsertOrdered(s[0], rest, key, descending);
        WithKeyCons(s[0], s[1..], key);
        Insert(s[0], rest, key, descending)
      else
        WithKeyCons(s[0], s[1..], key);
        Insert(s[0], rest, key, descending)
  }

  lemma WithKeyCons<T>(x: T, s: seq<T>, key: T -> Key)
    ensures forall k :: WithKey([x] + s, key, k) == (if key(x) == k then [x] else []) + WithKey(s, key, k)
  {
    assert ([x] + s)[1..] == s;
  }

  lemma {:induction false} InsertPermutes<T>(x: T, s: seq<T>, key: T -> Key, descending: bool)
    ensures multiset(Insert(x, s, key, descending)) == multiset([x] + s)
    ensures |Insert(x, s, key, descending)| == |s| + 1
    decreases |s|
  {
    if s != [] && Before(key(s[0]), key(x), descending) {
      InsertPermutes(x, s[1..], key, descending);
      assert s == [s[0]] + s[1..];
    }
  }

  /** Inserting x keeps the elements of every key in order, with x ahead
      of those of its own key. */
  lemma {:induction false} InsertStable<T>(x: T, s: seq<T>, key: T -> Key, descending: bool)
    ensures forall k :: WithKey(Insert(x, s, key, descending), key, k) == (if key(x) == k then [x] else []) + WithKey(s, key, k)
    decreases |s|
  {
    if s == [] {
      WithKeyCons(x, [], key);
    } else if Before(key(s[0]), key(x), descending) {
      InsertStable(x, s[1..], key, descending);
      KeyLtStrictOrder(key(s[0]), key(x), key(x));
      WithKeyCons(s[0], Insert(x, s[1..], key, descending), key);
      WithKeyCons(s[0], s[1..], key);
      assert s == [s[0]] + s[1..];
    } else {
      WithKeyCons(x, s, key);
    }
  }

  /** Permuting a uniform sequence keeps it uniform. */
  lemma UniformPermutation<T>(s: seq<T>, t: seq<T>, key: T -> Key)
    requires Uniform(s, key) && multiset(t) == multiset(s)
    ensures Uniform(t, key)
  {
    forall i, j | 0 <= i < |t| && 0 <= j < |t|
      ensures SameKind(key(t[i]), key(t[j]))
    {
      assert t[i] in multiset(t) && t[j] in multiset(t);
      var a :| 0 <= a < |s| && s[a] == t[i];
      var b :| 0 <= b < |s| && s[b] == t[j];
    }
  }

  /** "Not before" chains in a uniform sequence. */
  lemma NotBeforeChain(a: Key, b: Key, c: Key, descending: bool)
    requires SameKind(a, b) && SameKind(b, c)
    requires !Before(b, a, descending) && !Before(c, b, descending)
    ensures !Before(c, a, descending)
  {
    KeyLtStrictOrder(a, b, c);
    KeyLtStrictOrder(c, b, a);
    KeyLtStrictOrder(a, c, b);
    KeyLtStrictOrder(b, a, c);
    KeyLtStrictOrder(c, a, b);
    KeyLtStrictOrder(b, c, a);
  }

  lemma {:induction false} InsertOrdered<T>(x: T, s: seq<T>, key: T -> Key, descending: bool)
    requires Ordered(s, key, descending) && Uniform([x] + s, key)
    ensures Ordered(Insert(x, s, key, descending), key, descending)
    decreases |s|
  {
    var xs := [x] + s;
    if s == [] {
    } else if Before(key(s[0]), key(x), descending) {
      assert Uniform([x] + s[1..], key) by {
        forall i, j | 0 <= i < |[x] + s[1..]| && 0 <= j < |[x] + s[1..]|
          ensures SameKind(key(([x] + s[1..])[i]), key(([x] + s[1..])[j]))
        {
          assert ([x] + s[1..])[i] == xs[if i == 0 then 0 else i + 1];
          assert ([x] + s[1..])[j] == xs[if j == 0 then 0 else j + 1];
        }
      }
      InsertOrdered(x, s[1..], key, descending);
      var tail := Insert(x, s[1..], key, descending);
      InsertElements(x, s[1..], key, descending);
      KeyLtStrictOrder(key(s[0]), key(x), key(x));
      forall j | 0 <= j < |tail|
        ensures !Before(key(tail[j]), key(s[0]), descending)
      {
        assert tail[j] in tail;
        if tail[j] != x {
          assert tail[j] in s[1..];
          var m :| 0 <= m < |s[1..]| && s[1..][m] == tail[j];
          assert s[m + 1] == tail[j];
        }
      }
      OrderedCons(s[0], tail, key, descending);
    } else {
      forall j | 0 <= j < |s|
        ensures !Before(key(s[j]), key(x), descending)
      {
        if j > 0 {
          assert xs[0] == x && xs[1] == s[0] && xs[j + 1] == s[j];
          NotBeforeChain(key(x), key(s[0]), key(s[j]), descending);
        }
      }
      OrderedCons(x, s, key, descending);
    }
  }

  lemma {:induction false} InsertElements<T>(x: T, s: seq<T>, key: T -> Key, descending: bool)
    ensures forall e :: e in Insert(x, s, key, descending) ==> e == x || e in s
    decreases |s|
  {
    if s != [] && Before(key(s[0]), key(x), descending) {
      InsertElements(x, s[1..], key, descending);
    }
  }

  lemma OrderedCons<T>(h: T, t: seq<T>, key: T -> Key, descending: bool)
    requires Ordered(t, key, descending)
    requires forall j :: 0 <= j < |t| ==> !Before(key(t[j]), key(h), descending)
    ensures Ordered([h] + t, key, descending)
  {
    var r := [h] + t;
    forall i, j | 0 <= i < j < |r|
      ensures !Before(key(r[j]), key(r[i]), descending)
    {
      assert r[j] == t[j - 1];
      if i > 0 { assert r[i] == t[i - 1]; }
    }
  }

  /** Cutting a sequence in two splits its elements. */
  lemma SplitMultiset<T>(s: seq<T>, n: int)
    requires 0 <= n <= |s|
    ensures multiset(s[..n]) + multiset(s[n..]) == multiset(s)
  {
    assert s == s[..n] + s[n..];
  }

  /** In an ordered sequence nothing after a cut comes strictly before
      anything ahead of it. */
  lemma OrderedSplit<T>(s: seq<T>, n: int, key: T -> Key, descending: bool)
    requires Ordered(s, key, descending) && 0 <= n <= |s|
    ensures forall i, j :: 0 <= i < |s[..n]| && 0 <= j < |s[n..]| ==> !Before(key(s[n..][j]), key(s[..n][i]), descending)
  {
    forall i, j | 0 <= i < |s[..n]| && 0 <= j < |s[n..]|
      ensures !Before(key(s[n..][j]), key(s[..n][i]), descending)
    {
      assert s[..n][i] == s[i] && s[n..][j] == s[n + j];
    }
  }
}

=== FILE: timeline.dfy ===
/** The behaviour timeline drawn under the annotated video
    (workers/batch_processor.py): for every tank, the frames in which it
    has a detection, each with the class label of its last detection in
    that frame, cut into runs of consecutive frames sharing a label. */
module Timeline {
  import opened Base
  import opened Order
  import opened Ranking

  /** A frame and the label shown for it. */
  datatype Labelled = Labelled(frame: int, behavior: Value)

  /** A run of frames start .. end (both included) under one label. */
  datatype Segment = Segment(start: int, end: int, behavior: Value)

  /** Frames strictly increase, as sorted() leaves the keys of a dict. */
  predicate Increasing(ps: seq<Labelled>)
  {
    forall i, j :: 0 <= i < j < |ps| ==> ps[i].frame < ps[j].frame
  }

  /** The segmenter: each frame extends the open run when its behavior equals
      the run's behavior (Python ==) and it directly follows the previous
      frame; otherwise it opens a new run. Written over the frames seen so
      far, as the loop consumes them. */
  function Runs(ps: seq<Labelled>): (r: seq<Segment>)
    ensures |r| <= |ps| && (|ps| > 0 ==> |r| > 0)
  {
    if |ps| == 0 then []
    else if |ps| == 1 then [Segment(ps[0].frame, ps[0].frame, ps[0].behavior)]
    else
      var r := Runs(ps[..|ps| - 1]);
      var last := ps[|ps| - 1];
      if PyEq(last.behavior, r[|r| - 1].behavior) && last.frame == ps[|ps| - 2].frame + 1 then
        r[..|r| - 1] + [r[|r| - 1].(end := last.frame)]
      else
        r + [Segment(last.frame, last.frame, last.behavior)]
  }

  /** The loop of the source: the closed segments, and the open run's start
      and behavior. */
  method SegmentRuns(ps: seq<Labelled>) returns (segs: seq<Segment>)
    requires |ps| > 0
    ensures segs == Runs(ps)
    ensures Matches(Expand(segs), ps)
    ensures |segs| > 0 && segs[0].start == ps[0].frame && segs[|segs| - 1].end == ps[|ps| - 1].frame
    ensures forall j :: 0 <= j < |segs| - 1 ==> segs[j].end + 1 != segs[j + 1].start || !PyEq(segs[j].behavior, segs[j + 1].behavior)
  {
    segs := [];
    var start, current := ps[0].frame, ps[0].behavior;
    var i := 1;
    while i < |ps|
      invariant 1 <= i <= |ps|
      invariant segs + [Segment(start, ps[i - 1].frame, current)] == Runs(ps[..i])
    {
      var frame, prev, behavior := ps[i].frame, ps[i - 1].frame, ps[i].behavior;
      RunsExtend(ps, i, segs, start, current);
      if !PyEq(behavior, current) || frame != prev + 1 {
        segs := segs + [Segment(start, prev, current)];
        start, current := frame, behavior;
      }
      i := i + 1;
    }
    segs := segs + [Segment(start, ps[|ps| - 1].frame, current)];
    assert ps[..|ps|] == ps;
    RunsFacts(ps);
  }

  /** One step of the loop: frame i either opens a segment after the open
      run, which closes, or extends the open run. */
  lemma RunsExtend(ps: seq<Labelled>, i: int, segs: seq<Segment>, start: int, current: Value)
    requires 1 <= i < |ps|
    requires segs + [Segment(start, ps[i - 1].frame, current)] == Runs(ps[..i])
    ensures var p := ps[i];
            if !PyEq(p.behavior, current) || p.frame != ps[i - 1].frame + 1 then
              (segs + [Segment(start, ps[i - 1].frame, current)]) + [Segment(p.frame, p.frame, p.behavior)] == Runs(ps[..i + 1])
            else
              segs + [Segment(start, p.frame, current)] == Runs(ps[..i + 1])
  {
    var qs := ps[..i + 1];
    assert qs[..|qs| - 1] == ps[..i];
    assert qs[|qs| - 1] == ps[i] && qs[|qs| - 2] == ps[i - 1];
    var r := Runs(ps[..i]);
    assert r[..|r| - 1] == segs;
  }

  /** What the segments promise: they expand back to the input, run from
      its first frame to its last, and no two neighbours could be merged. */
  lemma RunsFacts(ps: seq<Labelled>)
    requires |ps| > 0
    ensures var r := Runs(ps);
            && Matches(Expand(r), ps)
            && |r| > 0 && r[0].start == ps[0].frame && r[|r| - 1].end == ps[|ps| - 1].frame
            && forall j :: 0 <= j < |r| - 1 ==> r[j].end + 1 != r[j + 1].start || !PyEq(r[j].behavior, r[j + 1].behavior)
  {
    ExpandRuns(ps);
    RunsEnds(ps);
    RunsMaximal(ps);
  }

  /** The frames of a segment, in order, each with the segment's behavior. */
  function Span(s: Segment): (xs: seq<Labelled>)
    ensures |xs| == if s.end < s.start then 0 else s.end - s.start + 1
    decreases if s.end < s.start then 0 else s.end - s.start + 1
  {
    if s.end < s.start then [] else Span(s.(end := s.end - 1)) + [Labelled(s.end, s.behavior)]
  }

  /** Every frame the segments cover, with its behavior: the inverse of Runs. */
  function Expand(r: seq<Segment>): seq<Labelled>
  {
    if r == [] then [] else Expand(r[..|r| - 1]) + Span(r[|r| - 1])
  }

  /** Same frames, in the same order, with labels Python considers equal. */
  predicate Matches(xs: seq<Labelled>, ps: seq<Labelled>)
  {
    |xs| == |ps| && forall i :: 0 <= i < |xs| ==> xs[i].frame == ps[i].frame && PyEq(xs[i].behavior, ps[i].behavior)
  }

  /** One step of the segmenter: the new frame either extends the last
      segment or is appended as a segment of its own; earlier segments stay. */
  lemma RunsStep(ps: seq<Labelled>)
    requires |ps| > 1
    ensures var r' := Runs(ps[..|ps| - 1]);
            var r := Runs(ps);
            var last := ps[|ps| - 1];
            var tail := r'[|r'| - 1];
            var extend := PyEq(last.behavior, tail.behavior) && last.frame == ps[|ps| - 2].frame + 1;
            && (extend ==> |r| == |r'| && r[|r| - 1] == tail.(end := last.frame) && forall j :: 0 <= j < |r| - 1 ==> r[j] == r'[j])
            && (!extend ==> |r| == |r'| + 1 && r[|r| - 1] == Segment(last.frame, last.frame, last.behavior) &&
                            forall j :: 0 <= j < |r'| ==> r[j] == r'[j])
  {
  }

  /** Python's == on cells is an equivalence. */
  lemma PyEqEquivalence(a: Value, b: Value, c: Value)
    ensures PyEq(a, a)
    ensures PyEq(a, b) ==> PyEq(b, a)
    ensures PyEq(a, b) && PyEq(b, c) ==> PyEq(a, c)
  {
    PyEqIsKeyEq(a, a);
    PyEqIsKeyEq(a, b);
    PyEqIsKeyEq(b, a);
    PyEqIsKeyEq(b, c);
    PyEqIsKeyEq(a, c);
  }

  /** The segments start at the first frame and end at the last, and the
      last one is a range whose label equals the last frame's. */
  lemma {:induction false} RunsEnds(ps: seq<Labelled>)
    requires |ps| > 0
    ensures var r := Runs(ps);
            && r[0].start == ps[0].frame
            && r[|r| - 1].start <= r[|r| - 1].end == ps[|ps| - 1].frame
            && PyEq(r[|r| - 1].behavior, ps[|ps| - 1].behavior)
    decreases |ps|
  {
    var last := ps[|ps| - 1];
    if |ps| == 1 {
      PyEqEquivalence(last.behavior, last.behavior, last.behavior);
    } else {
      var init := ps[..|ps| - 1];
      RunsEnds(init);
      RunsStep(ps);
      var r' := Runs(init);
      PyEqEquivalence(last.behavior, r'[|r'| - 1].behavior, last.behavior);
      assert init[0] == ps[0];
    }
  }

  /** Each segment is a non-empty range of frames, and each ends before the
      next one starts. */
  lemma {:induction false} RunsOrdered(ps: seq<Labelled>)
    requires Increasing(ps)
    ensures var r := Runs(ps);
            && (forall j :: 0 <= j < |r| ==> r[j].start <= r[j].end)
            && (forall j :: 0 <= j < |r| - 1 ==> r[j].end < r[j + 1].start)
    decreases |ps|
  {
    if |ps| > 1 {
      var init := ps[..|ps| - 1];
      assert Increasing(init);
      RunsOrdered(init);
      RunsEnds(init);
      RunsStep(ps);
      var r' := Runs(init);
      var r := Runs(ps);
      assert init[|init| - 1] == ps[|ps| - 2];
      assert ps[|ps| - 2].frame < ps[|ps| - 1].frame;
      forall j | 0 <= j < |r|
        ensures r[j].start <= r[j].end
      {
        if j < |r'| - 1 { assert r[j] == r'[j]; }
      }
      forall j | 0 <= j < |r| - 1
        ensures r[j].end < r[j + 1].start
      {
        assert r[j] == r'[j];
        if j + 1 < |r'| - 1 { assert r[j + 1] == r'[j + 1]; }
      }
    }
  }

  /** Each segment carries exactly the label of its first frame. */
  lemma {:induction false} RunsStartLabels(ps: seq<Labelled>)
    ensures var r := Runs(ps);
            forall j :: 0 <= j < |r| ==> Labelled(r[j].start, r[j].behavior) in ps
    decreases |ps|
  {
    if |ps| > 1 {
      var init := ps[..|ps| - 1];
      RunsStartLabels(init);
      RunsStep(ps);
      var r' := Runs(init);
      var r := Runs(ps);
      forall j | 0 <= j < |r|
        ensures Labelled(r[j].start, r[j].behavior) in ps
      {
        if j < |r'| {
          assert r[j].start == r'[j].start && r[j].behavior == r'[j].behavior;
          assert Labelled(r'[j].start, r'[j].behavior) in init;
        } else {
          assert ps[|ps| - 1] in ps;
        }
      }
    }
  }

  /** Extending a segment by one frame extends its span by that frame. */
  lemma SpanExtend(s: Segment)
    requires s.start <= s.end + 1
    ensures Span(s.(end := s.end + 1)) == Span(s) + [Labelled(s.end + 1, s.behavior)]
  {
    assert s.(end := s.end + 1).(end := s.end) == s;
  }

  lemma ExpandSnoc(r: seq<Segment>, s: Segment)
    ensures Expand(r + [s]) == Expand(r) + Span(s)
  {
    assert (r + [s])[..|r|] == r;
  }

  /** Run-length decoding undoes the segmenter: expanding the segments
      gives back every frame, in order, with its label. */
  lemma {:induction false} ExpandRuns(ps: seq<Labelled>)
    ensures Matches(Expand(Runs(ps)), ps)
    decreases |ps|
  {
    if |ps| > 0 {
      var last := ps[|ps| - 1];
      var single := Segment(last.frame, last.frame, last.behavior);
      SpanSingle(single);
      PyEqEquivalence(last.behavior, last.behavior, last.behavior);
      if |ps| == 1 {
        ExpandSnoc([], single);
        assert [single] == [] + [single];
        MatchesSnoc([], [], last, last);
        assert ps == [] + [last];
      } else {
        var init := ps[..|ps| - 1];
        assert ps == init + [last];
        ExpandRuns(init);
        RunsEnds(init);
        RunsStep(ps);
        var r' := Runs(init);
        var xs' := Expand(r');
        assert init[|init| - 1] == ps[|ps| - 2];
        var tail := r'[|r'| - 1];
        if PyEq(last.behavior, tail.behavior) && last.frame == ps[|ps| - 2].frame + 1 {
          var front := r'[..|r'| - 1];
          assert r' == front + [tail];
          assert Runs(ps) == front + [tail.(end := tail.end + 1)];
          ExpandExtendLast(front, tail);
          PyEqEquivalence(last.behavior, tail.behavior, last.behavior);
          MatchesSnoc(xs', init, Labelled(last.frame, tail.behavior), last);
        } else {
          assert Runs(ps) == r' + [single];
          ExpandSnoc(r', single);
          MatchesSnoc(xs', init, last, last);
        }
      }
    }
  }

  /** Extending the last segment by one frame adds that frame to the
      expansion. */
  lemma ExpandExtendLast(front: seq<Segment>, tail: Segment)
    requires tail.start <= tail.end
    ensures Expand(front + [tail.(end := tail.end + 1)]) == Expand(front + [tail]) + [Labelled(tail.end + 1, tail.behavior)]
  {
    ExpandSnoc(front, tail);
    ExpandSnoc(front, tail.(end := tail.end + 1));
    SpanExtend(tail);
  }

  lemma SpanSingle(s: Segment)
    requires s.start == s.end
    ensures Span(s) == [Labelled(s.end, s.behavior)]
  {
    assert s.(end := s.end - 1).end < s.start;
  }

  lemma MatchesSnoc(xs: seq<Labelled>, ps: seq<Labelled>, x: Labelled, p: Labelled)
    requires Matches(xs, ps) && x.frame == p.frame && PyEq(x.behavior, p.behavior)
    ensures Matches(xs + [x], ps + [p])
  {
    var xs2, ps2 := xs + [x], ps + [p];
    forall i | 0 <= i < |xs2|
      ensures xs2[i].frame == ps2[i].frame && PyEq(xs2[i].behavior, ps2[i].behavior)
    {
      if i < |xs| {
        assert xs2[i] == xs[i] && ps2[i] == ps[i];
      }
    }
  }

  /** Neighbouring segments could not be merged: between them there is a
      gap in the frames or a change of label. */
  lemma {:induction false} RunsMaximal(ps: seq<Labelled>)
    ensures var r := Runs(ps);
            forall j :: 0 <= j < |r| - 1 ==> r[j].end + 1 != r[j + 1].start || !PyEq(r[j].behavior, r[j + 1].behavior)
    decreases |ps|
  {
    if |ps| > 1 {
      var init := ps[..|ps| - 1];
      RunsMaximal(init);
      RunsEnds(init);
      RunsStep(ps);
      var r' := Runs(init);
      var r := Runs(ps);
      var last := ps[|ps| - 1];
      assert init[|init| - 1] == ps[|ps| - 2];
      var tail := r'[|r'| - 1];
      forall j | 0 <= j < |r| - 1
        ensures r[j].end + 1 != r[j + 1].start || !PyEq(r[j].behavior, r[j + 1].behavior)
      {
        assert r[j] == r'[j];
        if j + 1 < |r'| {
          assert r[j + 1].start == r'[j + 1].start && r[j + 1].behavior == r'[j + 1].behavior;
        } else {
          PyEqEquivalence(tail.behavior, last.behavior, tail.behavior);
        }
      }
    }
  }

  /** Some segment starts at frame f. */
  predicate StartsAt(r: seq<Segment>, f: int)
  {
    exists j :: 0 <= j < |r| && r[j].start == f
  }

  /** A frame after the first opens a new segment exactly when its label
      differs from the previous frame's or it does not directly follow it. */
  lemma {:induction false} RunsBoundaries(ps: seq<Labelled>, i: int)
    requires Increasing(ps) && 0 < i < |ps|
    ensures StartsAt(Runs(ps), ps[i].frame) <==>
            !PyEq(ps[i].behavior, ps[i - 1].behavior) || ps[i].frame != ps[i - 1].frame + 1
    decreases |ps|
  {
    if i < |ps| - 1 {
      var init := ps[..|ps| - 1];
      assert Increasing(init);
      RunsBoundaries(init, i);
      assert init[i] == ps[i] && init[i - 1] == ps[i - 1];
      StartsAtStep(ps, ps[i].frame);
    } else {
      LastBoundary(ps);
    }
  }

  /** A later frame leaves the starts of the segments before it alone. */
  lemma StartsAtStep(ps: seq<Labelled>, f: int)
    requires |ps| > 1 && f != ps[|ps| - 1].frame
    ensures StartsAt(Runs(ps), f) <==> StartsAt(Runs(ps[..|ps| - 1]), f)
  {
    var r' := Runs(ps[..|ps| - 1]);
    var r := Runs(ps);
    RunsNewStart(ps);
    if StartsAt(r, f) {
      var j :| 0 <= j < |r| && r[j].start == f;
      assert j < |r'|;
      RunsKeepsStarts(ps, j);
    }
    if StartsAt(r', f) {
      var j :| 0 <= j < |r'| && r'[j].start == f;
      RunsKeepsStarts(ps, j);
    }
  }

  /** The segments before the newest frame keep their starts. */
  lemma RunsKeepsStarts(ps: seq<Labelled>, j: int)
    requires |ps| > 1 && 0 <= j < |Runs(ps[..|ps| - 1])|
    ensures j < |Runs(ps)| && Runs(ps)[j].start == Runs(ps[..|ps| - 1])[j].start
  {
    RunsStep(ps);
  }

  /** The newest frame adds at most one segment, which starts at it. */
  lemma RunsNewStart(ps: seq<Labelled>)
    requires |ps| > 1
    ensures var r, r' := Runs(ps), Runs(ps[..|ps| - 1]);
            |r| == |r'| || (|r| == |r'| + 1 && r[|r| - 1].start == ps[|ps| - 1].frame)
  {
    RunsStep(ps);
  }

  /** The newest frame opens a segment exactly when it cannot extend the
      previous frame's run. */
  lemma LastBoundary(ps: seq<Labelled>)
    requires Increasing(ps) && |ps| > 1
    ensures var last, prev := ps[|ps| - 1], ps[|ps| - 2];
            StartsAt(Runs(ps), last.frame) <==> !PyEq(last.behavior, prev.behavior) || last.frame != prev.frame + 1
  {
    var init := ps[..|ps| - 1];
    assert Increasing(init);
    RunsEnds(init);
    RunsOrdered(init);
    RunsStep(ps);
    var r' := Runs(init);
    var r := Runs(ps);
    var last, prev := ps[|ps| - 1], ps[|ps| - 2];
    assert init[|init| - 1] == prev;
    var tail := r'[|r'| - 1];
    PyEqEquivalence(last.behavior, tail.behavior, prev.behavior);
    PyEqEquivalence(tail.behavior, prev.behavior, last.behavior);
    PyEqEquivalence(last.behavior, prev.behavior, tail.behavior);
    if PyEq(last.behavior, tail.behavior) && last.frame == prev.frame + 1 {
      forall j | 0 <= j < |r|
        ensures r[j].start != last.frame
      {
        assert r[j].start == r'[j].start;
        StartsBeforeEnd(r', j);
      }
    } else {
      assert r[|r| - 1].start == last.frame;
    }
  }

  /** In ordered segments every start lies at or before the last end. */
  lemma {:induction false} StartsBeforeEnd(r: seq<Segment>, j: int)
    requires forall k :: 0 <= k < |r| ==> r[k].start <= r[k].end
    requires forall k :: 0 <= k < |r| - 1 ==> r[k].end < r[k + 1].start
    requires 0 <= j < |r|
    ensures r[j].start <= r[|r| - 1].end
    decreases |r| - j
  {
    if j < |r| - 1 {
      StartsBeforeEnd(r, j + 1);
    }
  }
}

=== FILE: timeline_data.dfy ===
/** What the timeline is built from (workers/batch_processor.py): for each
    tank, the frames in which it has a detection, each labelled with the
    class name of the tank's last detection in that frame; the frames are
    taken in ascending order and cut into runs by the segmenter. */
module TimelineData {
  import opened Base
  import opened Order
  import opened Ranking
  import opened Timeline
  import opened Frames

  /** Every detection that names a tank has a class name; reading
      det["class_name"] fails on one that has not. */
  predicate Named(dets: seq<Row>)
  {
    forall i :: 0 <= i < |dets| && TankOf(dets[i]).Some? ==> "class_name" in dets[i]
  }

  /** Detection i is tank t's last detection in the frame. */
  predicate IsLastOf(dets: seq<Row>, t: int, i: int)
  {
    0 <= i < |dets| && TankOf(dets[i]) == Some(t) && forall j :: i < j < |dets| ==> TankOf(dets[j]) != Some(t)
  }

  /** Dropping the frame's last detection keeps the others named. */
  lemma NamedInit(dets: seq<Row>)
    requires Named(dets) && dets != []
    ensures Named(dets[..|dets| - 1])
  {
    var init := dets[..|dets| - 1];
    forall i | 0 <= i < |init| && TankOf(init[i]).Some?
      ensures "class_name" in init[i]
    {
      assert init[i] == dets[i];
    }
  }

  /** The label a frame gives tank t: each of the tank's detections writes
      the frame's entry, so the last one stays. */
  function LastLabel(dets: seq<Row>, t: int): Option<Value>
    requires Named(dets)
  {
    if dets == [] then None
    else
      var d := dets[|dets| - 1];
      NamedInit(dets);
      if TankOf(d) == Some(t) then Some(d["class_name"]) else LastLabel(dets[..|dets| - 1], t)
  }

  /** A frame labels tank t exactly when the tank has a detection there. */
  lemma {:induction false} LastLabelPresent(dets: seq<Row>, t: int)
    requires Named(dets)
    ensures LastLabel(dets, t).Some? <==> HasTank(dets, t)
    decreases |dets|
  {
    if dets != [] {
      var init := dets[..|dets| - 1];
      var n := |dets| - 1;
      NamedInit(dets);
      LastLabelPresent(init, t);
      if TankOf(dets[n]) != Some(t) {
        if HasTank(dets, t) {
          var i :| 0 <= i < |dets| && TankOf(dets[i]) == Some(t);
          assert init[i] == dets[i];
        }
        if HasTank(init, t) {
          var i :| 0 <= i < |init| && TankOf(init[i]) == Some(t);
          assert init[i] == dets[i];
        }
      }
    }
  }

  /** The label is the class name of the tank's last detection. */
  lemma {:induction false} LastLabelOfLast(dets: seq<Row>, t: int, i: int)
    requires Named(dets) && IsLastOf(dets, t, i)
    ensures LastLabel(dets, t) == Some(dets[i]["class_name"])
    decreases |dets|
  {
    var n := |dets| - 1;
    if i < n {
      var init := dets[..n];
      NamedInit(dets);
      assert init[i] == dets[i];
      assert IsLastOf(init, t, i);
      LastLabelOfLast(init, t, i);
    }
  }

  /** The tanks with a detection in some frame. */
  function Tanks(frames: map<int, seq<Row>>): set<int>
  {
    set f, d | f in frames && d in frames[f] && TankOf(d).Some? :: TankOf(d).value
  }

  lemma TanksSpec(frames: map<int, seq<Row>>, t: int)
    ensures t in Tanks(frames) <==> exists f :: f in frames && HasTank(frames[f], t)
  {
    if t in Tanks(frames) {
      var f, d :| f in frames && d in frames[f] && TankOf(d) == Some(t);
      var i :| 0 <= i < |frames[f]| && frames[f][i] == d;
      assert HasTank(frames[f], t);
    }
    if exists f :: f in frames && HasTank(frames[f], t) {
      var f :| f in frames && HasTank(frames[f], t);
      var i :| 0 <= i < |frames[f]| && TankOf(frames[f][i]) == Some(t);
      assert frames[f][i] in frames[f];
    }
  }

  predicate AllNamed(frames: map<int, seq<Row>>)
  {
    forall f :: f in frames ==> Named(frames[f])
  }

  /** tank_data_for_timeline[t]: frame to label, for the frames where
      tank t has a detection. */
  function TankLabels(frames: map<int, seq<Row>>, t: int): map<int, Value>
    requires AllNamed(frames)
  {
    map f | f in frames && LastLabel(frames[f], t).Some? :: LastLabel(frames[f], t).value
  }

  /** Each frame paired with its label. */
  function Pair(keys: seq<int>, labels: map<int, Value>): (ps: seq<Labelled>)
    requires forall i :: 0 <= i < |keys| ==> keys[i] in labels
    ensures |ps| == |keys|
    ensures forall i :: 0 <= i < |ps| ==> ps[i] == Labelled(keys[i], labels[keys[i]])
  {
    if keys == [] then [] else [Labelled(keys[0], labels[keys[0]])] + Pair(keys[1..], labels)
  }

  /** The labelled frames of a tank in ascending frame order. */
  function Points(labels: map<int, Value>): (ps: seq<Labelled>)
    ensures Increasing(ps)
    ensures forall i :: 0 <= i < |ps| ==> ps[i].frame in labels && ps[i].behavior == labels[ps[i].frame]
    ensures forall f :: f in labels ==> exists i :: 0 <= i < |ps| && ps[i].frame == f
  {
    var keys := SortedInts(labels.Keys);
    KeysInLabels(labels, keys);
    var ps := Pair(keys, labels);
    PairFrames(keys, labels, ps);
    ps
  }

  lemma KeysInLabels(labels: map<int, Value>, keys: seq<int>)
    requires forall x :: x in keys <==> x in labels.Keys
    ensures forall i :: 0 <= i < |keys| ==> keys[i] in labels
  {
    forall i | 0 <= i < |keys|
      ensures keys[i] in labels
    {
      var y := keys[i];
      assert y in keys;
      assert y in labels.Keys;
    }
  }

  /** Pairing ascending keys with their labels lists every key once, in
      ascending order. */
  lemma PairFrames(keys: seq<int>, labels: map<int, Value>, ps: seq<Labelled>)
    requires forall i :: 0 <= i < |keys| ==> keys[i] in labels
    requires forall x :: x in keys <==> x in labels.Keys
    requires forall i, j :: 0 <= i < j < |keys| ==> keys[i] < keys[j]
    requires |ps| == |keys| && forall i :: 0 <= i < |ps| ==> ps[i] == Labelled(keys[i], labels[keys[i]])
    ensures Increasing(ps)
    ensures forall i :: 0 <= i < |ps| ==> ps[i].frame in labels && ps[i].behavior == labels[ps[i].frame]
    ensures forall f :: f in labels ==> exists i :: 0 <= i < |ps| && ps[i].frame == f
  {
    forall f | f in labels
      ensures exists i :: 0 <= i < |ps| && ps[i].frame == f
    {
      assert f in keys;
      var i :| 0 <= i < |keys| && keys[i] == f;
      assert ps[i].frame == f;
    }
  }

  /** The timeline: nothing unless overlays are drawn; otherwise, for
      every tank with a detection, the runs of its labelled frames. A
      detection with a tank but no class name fails the job. */
  function BuildTimeline(frames: map<int, seq<Row>>, drawOverlays: bool): (r: Result<map<int, seq<Segment>>>)
    ensures !drawOverlays ==> r == Ok(map[])
    ensures drawOverlays ==> (r.Ok? <==> forall f :: f in frames ==> Named(frames[f]))
    ensures r.Err? ==> r.fault == MissingKey("class_name")
    ensures drawOverlays && r.Ok? ==> forall t :: t in r.value ==> r.value[t] != []
  {
    if !drawOverlays then Ok(map[])
    else if !AllNamed(frames) then Err(MissingKey("class_name"))
    else
      assert forall t :: t in Tanks(frames) ==> Runs(Points(TankLabels(frames, t))) != [] by {
        forall t | t in Tanks(frames)
          ensures Runs(Points(TankLabels(frames, t))) != []
        {
          TanksSpec(frames, t);
          var f :| f in frames && HasTank(frames[f], t);
          LastLabelPresent(frames[f], t);
          assert f in TankLabels(frames, t);
        }
      }
      Ok(map t | t in Tanks(frames) :: Runs(Points(TankLabels(frames, t))))
  }

  /** The timeline has a row exactly for the tanks that have a detection. */
  lemma TimelineTanks(frames: map<int, seq<Row>>, t: int)
    requires BuildTimeline(frames, true).Ok?
    ensures t in BuildTimeline(frames, true).value <==> exists f :: f in frames && HasTank(frames[f], t)
  {
    TanksSpec(frames, t);
  }

  /** Expanding a tank's segments lists, in ascending order, exactly the
      frames in which the tank has a detection, each with a label equal to
      the class name of the tank's last detection in that frame. */
  lemma TimelineCoverage(frames: map<int, seq<Row>>, t: int)
    requires BuildTimeline(frames, true).Ok? && t in BuildTimeline(frames, true).value
    ensures var xs := Expand(BuildTimeline(frames, true).value[t]);
            && Increasing(xs)
            && (forall f :: f in frames && HasTank(frames[f], t) <==> exists i :: 0 <= i < |xs| && xs[i].frame == f)
            && (forall i, k :: 0 <= i < |xs| && IsLastOf(frames[xs[i].frame], t, k) ==>
                  PyEq(xs[i].behavior, frames[xs[i].frame][k]["class_name"]))
  {
    var labels := TankLabels(frames, t);
    var ps := Points(labels);
    var xs := Expand(BuildTimeline(frames, true).value[t]);
    ExpandRuns(ps);
    assert xs == Expand(Runs(ps));
    forall f
      ensures f in frames && HasTank(frames[f], t) <==> exists i :: 0 <= i < |xs| && xs[i].frame == f
    {
      if f in frames {
        LastLabelPresent(frames[f], t);
      }
      if exists i :: 0 <= i < |xs| && xs[i].frame == f {
        var i :| 0 <= i < |xs| && xs[i].frame == f;
        assert ps[i].frame == f;
      }
      if f in labels {
        var i :| 0 <= i < |ps| && ps[i].frame == f;
        assert xs[i].frame == f;
      }
    }
    forall i, k | 0 <= i < |xs| && IsLastOf(frames[xs[i].frame], t, k)
      ensures PyEq(xs[i].behavior, frames[xs[i].frame][k]["class_name"])
    {
      var f := xs[i].frame;
      assert ps[i].frame == f && PyEq(xs[i].behavior, ps[i].behavior);
      LastLabelOfLast(frames[f], t, k);
    }
    MatchesIncreasing(xs, ps);
  }

  /** A sequence matching an increasing one is increasing. */
  lemma MatchesIncreasing(xs: seq<Labelled>, ps: seq<Labelled>)
    requires Matches(xs, ps) && Increasing(ps)
    ensures Increasing(xs)
  {
    forall i, j | 0 <= i < j < |xs|
      ensures xs[i].frame < xs[j].frame
    {
      assert xs[i].frame == ps[i].frame && xs[j].frame == ps[j].frame;
    }
  }
}

=== FILE: tracking.dfy ===
/** The multi-object tracking mode (core/tracker.py and
    workers/batch_processor.py): detections converted to the tracker's
    record, one tracker per tank, each fed every frame with that tank's
    top-K detections. The tracker itself is a parameter: a state and an
    update function. */
module Tracking {
  import opened Base
  import opened Ranking

  /** The payload carried with a tracker detection. The box is the list
      [x1, y1, x2, y2]. */
  datatype NorfairData = NorfairData(className: Value, conf: Value, x1: Value, y1: Value, x2: Value, y2: Value, polygon: Value)

  /** A tracker detection: its point (cx, cy) and its payload. */
  datatype NorfairDetection = NorfairDetection(cx: Value, cy: Value, data: NorfairData)

  /** One detection converted, with the defaults the source gives to
      missing fields. */
  function Convert(det: Row): (d: NorfairDetection)
    requires "cx" in det && "cy" in det
    ensures d.cx == det["cx"] && d.cy == det["cy"]
    ensures "class_name" in det ==> d.data.className == det["class_name"]
    ensures "class_name" !in det ==> d.data.className == StrV("")
    ensures "conf" in det ==> d.data.conf == det["conf"]
    ensures "conf" !in det ==> d.data.conf == FloatV(0.0)
    ensures "polygon" in det ==> d.data.polygon == det["polygon"]
    ensures "polygon" !in det ==> d.data.polygon == StrV("")
    ensures forall key :: key in {"x1", "y1", "x2", "y2"} && key !in det ==> BoxField(d.data, key) == IntV(0)
    ensures forall key :: key in {"x1", "y1", "x2", "y2"} && key in det ==> BoxField(d.data, key) == det[key]
  {
    NorfairDetection(det["cx"], det["cy"],
      NorfairData(Get(det, "class_name", StrV("")), Get(det, "conf", FloatV(0.0)),
                  Get(det, "x1", IntV(0)), Get(det, "y1", IntV(0)), Get(det, "x2", IntV(0)), Get(det, "y2", IntV(0)),
                  Get(det, "polygon", StrV(""))))
  }

  /** A box coordinate of a payload, by its detection-row name. */
  function BoxField(data: NorfairData, key: string): Value
  {
    if key == "x1" then data.x1 else if key == "y1" then data.y1 else if key == "x2" then data.x2 else data.y2
  }

  /** to_norfair: nothing at all without the tracker library; otherwise
      every detection converted, in order. A detection without a centroid
      fails. */
  function ToNorfair(available: bool, dets: seq<Row>): (r: Result<seq<NorfairDetection>>)
    ensures !available ==> r == Ok([])
    ensures available ==> (r.Ok? <==> forall i :: 0 <= i < |dets| ==> "cx" in dets[i] && "cy" in dets[i])
    ensures available && r.Ok? ==> |r.value| == |dets| && forall i :: 0 <= i < |dets| ==> r.value[i] == Convert(dets[i])
  {
    if !available then Ok([])
    else if dets == [] then Ok([])
    else if "cx" !in dets[0] then Err(MissingKey("cx"))
    else if "cy" !in dets[0] then Err(MissingKey("cy"))
    else
      match ToNorfair(available, dets[1..])
      case Err(e) => Err(e)
      case Ok(rest) =>
        assert forall i :: 1 <= i < |dets| ==> dets[i] == dets[1..][i - 1];
        Ok([Convert(dets[0])] + rest)
  }

  /** Each converted detection's point is exactly the centroid it came from. */
  lemma ToNorfairPoints(dets: seq<Row>, i: int)
    requires ToNorfair(true, dets).Ok? && 0 <= i < |dets|
    ensures ToNorfair(true, dets).value[i].cx == dets[i]["cx"]
    ensures ToNorfair(true, dets).value[i].cy == dets[i]["cy"]
  {
  }

  /** What the tracker reports for one track: its id, its smoothed
      position, and the last detection matched to it. */
  datatype TrackedObject = TrackedObject(id: int, estimate: (real, real), last: NorfairDetection)

  /** One call of a tank's tracker: in which frame, for which tank, with
      which detections. */
  datatype Call = Call(frame: int, tank: int, input: seq<NorfairDetection>)

  /** The row written for a tracked object. */
  function TrackedRow(frame: int, tank: int, obj: TrackedObject): (row: Row)
    ensures row.Keys == {"frame_idx", "tank_number", "track_id", "class_name", "conf", "x1", "y1", "x2", "y2", "polygon", "cx", "cy"}
    ensures row["frame_idx"] == IntV(frame) && row["tank_number"] == IntV(tank) && row["track_id"] == IntV(obj.id)
    ensures row["cx"] == FloatV(obj.estimate.0) && row["cy"] == FloatV(obj.estimate.1)
    ensures row["class_name"] == obj.last.data.className && row["conf"] == obj.last.data.conf
    ensures forall key :: key in {"x1", "y1", "x2", "y2"} ==> row[key] == BoxField(obj.last.data, key)
    ensures row["polygon"] == obj.last.data.polygon
    ensures TankOf(row) == Some(tank)
  {
    var d := obj.last.data;
    map["frame_idx" := IntV(frame), "tank_number" := IntV(tank), "track_id" := IntV(obj.id),
        "class_name" := d.className, "conf" := d.conf,
        "x1" := d.x1, "y1" := d.y1, "x2" := d.x2, "y2" := d.y2,
        "polygon" := d.polygon, "cx" := FloatV(obj.estimate.0), "cy" := FloatV(obj.estimate.1)]
  }

  function TrackedRows(frame: int, tank: int, objs: seq<TrackedObject>): (rows: seq<Row>)
    ensures |rows| == |objs|
    ensures forall i :: 0 <= i < |objs| ==> rows[i] == TrackedRow(frame, tank, objs[i])
  {
    if objs == [] then [] else [TrackedRow(frame, tank, objs[0])] + TrackedRows(frame, tank, objs[1..])
  }

  /** The input tank t's tracker gets in a frame: the tank's top K
      detections, converted. */
  function TankInput(dets: seq<Row>, t: int, k: int): Result<seq<NorfairDetection>>
  {
    match TopK(Members(dets, t), k)
    case Err(e) => Err(e)
    case Ok(kept) => ToNorfair(true, kept)
  }

  /** A tracker: its state and the state's update with one frame's
      detections, which returns the tracks it currently reports. */
  type Update<!S> = (S, seq<NorfairDetection>) -> (S, seq<TrackedObject>)

  /** How a tank's input is chosen from a frame's detections. */
  type Select = (seq<Row>, int) -> Result<seq<NorfairDetection>>

  /** What one tracker call produced: the tracker's new state, the rows
      for the tracks it reported, and the call itself. */
  datatype Fed<S> = Fed(state: S, rows: seq<Row>, call: Call)

  /** Feeds tank t's input of a frame to its tracker. */
  function Feed<S>(update: Update<S>, select: Select, state: S, frame: int, dets: seq<Row>, t: int): (r: Result<Fed<S>>)
    ensures r.Ok? <==> select(dets, t).Ok?
    ensures r.Ok? ==> r.value.call == Call(frame, t, select(dets, t).value)
    ensures r.Ok? ==> r.value.state == update(state, select(dets, t).value).0
    ensures r.Ok? ==> r.value.rows == TrackedRows(frame, t, update(state, select(dets, t).value).1)
    ensures r.Ok? ==> forall i :: 0 <= i < |r.value.rows| ==>
              Get(r.value.rows[i], "frame_idx", NullV) == IntV(frame) && TankOf(r.value.rows[i]) == Some(t)
  {
    match select(dets, t)
    case Err(e) => Err(e)
    case Ok(input) =>
      var next := update(state, input);
      Ok(Fed(next.0, TrackedRows(frame, t, next.1), Call(frame, t, input)))
  }

  /** A tank's input is the converted top K of its own detections: at most K
      of them, each with the centroid of a detection of that tank. */
  lemma TankInputMembers(dets: seq<Row>, t: int, k: nat)
    requires TankInput(dets, t, k).Ok?
    ensures |TankInput(dets, t, k).value| <= k
    ensures forall d :: d in TankInput(dets, t, k).value ==>
              exists row :: row in dets && TankOf(row) == Some(t) && "cx" in row && "cy" in row && d.cx == row["cx"] && d.cy == row["cy"]
  {
    var input := TankInput(dets, t, k).value;
    forall d | d in input
      ensures exists row :: row in dets && TankOf(row) == Some(t) && "cx" in row && "cy" in row && d.cx == row["cx"] && d.cy == row["cy"]
    {
      var i :| 0 <= i < |input| && input[i] == d;
      TankInputMember(dets, t, k, i);
    }
  }

  /** The i-th input of tank t's tracker comes from a detection of tank t. */
  lemma TankInputMember(dets: seq<Row>, t: int, k: nat, i: int)
    requires TankInput(dets, t, k).Ok? && 0 <= i < |TankInput(dets, t, k).value|
    ensures var d := TankInput(dets, t, k).value[i];
            exists row :: row in dets && TankOf(row) == Some(t) && "cx" in row && "cy" in row && d.cx == row["cx"] && d.cy == row["cy"]
  {
    var kept := TopK(Members(dets, t), k).value;
    var row := kept[i];
    assert row in multiset(kept);
    var members := Members(dets, t);
    assert row in multiset(members);
    assert row in members;
    var m :| 0 <= m < |members| && members[m] == row;
    assert row in multiset(dets);
  }

  /** What one frame's dispatch produced: the new tracker states, the rows
      written and the calls made. */
  datatype Step<S> = Step(trackers: map<int, S>, rows: seq<Row>, calls: seq<Call>)

  /** One frame, for the listed tanks in turn: a tank without a tracker is
      skipped; otherwise its input goes to its tracker, and every track the
      tracker reports becomes a row. */
  function TrackTanks<S>(update: Update<S>, select: Select, trackers: map<int, S>,
                         frame: int, dets: seq<Row>, tanks: seq<int>): (r: Result<Step<S>>)
    ensures r.Ok? ==> r.value.trackers.Keys == trackers.Keys
  {
    if tanks == [] then Ok(Step(trackers, [], []))
    else if tanks[0] !in trackers then TrackTanks(update, select, trackers, frame, dets, tanks[1..])
    else
      match Feed(update, select, trackers[tanks[0]], frame, dets, tanks[0])
      case Err(e) => Err(e)
      case Ok(fed) =>
        match TrackTanks(update, select, trackers[tanks[0] := fed.state], frame, dets, tanks[1..])
        case Err(e) => Err(e)
        case Ok(rest) => Ok(Step(rest.trackers, fed.rows + rest.rows, [fed.call] + rest.calls))
  }

  /** Every call made in a frame is to a listed tank that has a tracker,
      with that tank's input. */
  lemma {:induction false} TrackTanksCalls<S>(update: Update<S>, select: Select, trackers: map<int, S>,
                                              frame: int, dets: seq<Row>, tanks: seq<int>, c: Call)
    requires TrackTanks(update, select, trackers, frame, dets, tanks).Ok?
    requires c in TrackTanks(update, select, trackers, frame, dets, tanks).value.calls
    ensures c.frame == frame && c.tank in tanks && c.tank in trackers
    ensures select(dets, c.tank) == Ok(c.input)
    decreases |tanks|
  {
    assert tanks != [];
    if tanks[0] !in trackers {
      TrackTanksCalls(update, select, trackers, frame, dets, tanks[1..], c);
    } else {
      var fed := Feed(update, select, trackers[tanks[0]], frame, dets, tanks[0]).value;
      var next := trackers[tanks[0] := fed.state];
      if c != fed.call {
        TrackTanksCalls(update, select, next, frame, dets, tanks[1..], c);
      }
    }
  }

  /** Every row written in a frame carries the frame and a listed tank
      that has a tracker. */
  lemma {:induction false} TrackTanksRows<S>(update: Update<S>, select: Select, trackers: map<int, S>,
                                             frame: int, dets: seq<Row>, tanks: seq<int>, i: int)
    requires TrackTanks(update, select, trackers, frame, dets, tanks).Ok?
    requires 0 <= i < |TrackTanks(update, select, trackers, frame, dets, tanks).value.rows|
    ensures var row := TrackTanks(update, select, trackers, frame, dets, tanks).value.rows[i];
            Get(row, "frame_idx", NullV) == IntV(frame) && TankOf(row).Some? &&
            TankOf(row).value in tanks && TankOf(row).value in trackers
    decreases |tanks|
  {
    assert tanks != [];
    if tanks[0] !in trackers {
      TrackTanksRows(update, select, trackers, frame, dets, tanks[1..], i);
    } else {
      var fed := Feed(update, select, trackers[tanks[0]], frame, dets, tanks[0]).value;
      var next := trackers[tanks[0] := fed.state];
      var rest := TrackTanks(update, select, next, frame, dets, tanks[1..]).value;
      var rows := fed.rows + rest.rows;
      assert TrackTanks(update, select, trackers, frame, dets, tanks).value.rows == rows;
      if i >= |fed.rows| {
        assert rows[i] == rest.rows[i - |fed.rows|];
        TrackTanksRows(update, select, next, frame, dets, tanks[1..], i - |fed.rows|);
      } else {
        assert rows[i] == fed.rows[i];
      }
    }
  }

  /** A frame's step leaves the tracker of every tank not listed as it was. */
  lemma {:induction false} TrackTanksKeepsOthers<S>(update: Update<S>, select: Select, trackers: map<int, S>,
                                                    frame: int, dets: seq<Row>, tanks: seq<int>, t: int)
    requires TrackTanks(update, select, trackers, frame, dets, tanks).Ok?
    requires t in trackers && t !in tanks
    ensures TrackTanks(update, select, trackers, frame, dets, tanks).value.trackers[t] == trackers[t]
    decreases |tanks|
  {
    if tanks != [] {
      assert t !in tanks[1..];
      if tanks[0] !in trackers {
        TrackTanksKeepsOthers(update, select, trackers, frame, dets, tanks[1..], t);
      } else {
        var fed := Feed(update, select, trackers[tanks[0]], frame, dets, tanks[0]).value;
        TrackTanksKeepsOthers(update, select, trackers[tanks[0] := fed.state], frame, dets, tanks[1..], t);
      }
    }
  }

  /** A listed tank's tracker leaves the frame updated exactly once, from
      its state before the frame, with its own input. */
  lemma {:induction false} TrackTanksUpdates<S>(update: Update<S>, select: Select, trackers: map<int, S>,
                                                frame: int, dets: seq<Row>, tanks: seq<int>, t: int)
    requires TrackTanks(update, select, trackers, frame, dets, tanks).Ok?
    requires DistinctTanks(tanks) && t in tanks && t in trackers
    ensures select(dets, t).Ok?
    ensures TrackTanks(update, select, trackers, frame, dets, tanks).value.trackers[t] ==
            update(trackers[t], select(dets, t).value).0
    decreases |tanks|
  {
    DistinctTanksTail(tanks);
    var tail := tanks[1..];
    if tanks[0] != t {
      var k :| 0 <= k < |tanks| && tanks[k] == t;
      assert tail[k - 1] == t;
    }
    if tanks[0] !in trackers {
      TrackTanksUpdates(update, select, trackers, frame, dets, tail, t);
    } else {
      var fed := Feed(update, select, trackers[tanks[0]], frame, dets, tanks[0]).value;
      var next := trackers[tanks[0] := fed.state];
      if tanks[0] == t {
        TrackTanksKeepsOthers(update, select, next, frame, dets, tail, t);
      } else {
        TrackTanksUpdates(update, select, next, frame, dets, tail, t);
      }
    }
  }

  /** Reference definition of the rows of one frame: for each listed tank
      that has a tracker, the tracks its tracker reports when fed the
      tank's input from the state it entered the frame with. */
  function StepRows<S>(update: Update<S>, select: Select, trackers: map<int, S>,
                       frame: int, dets: seq<Row>, tanks: seq<int>): seq<Row>
  {
    if tanks == [] then []
    else
      var here := if tanks[0] in trackers && select(dets, tanks[0]).Ok? then
                    TrackedRows(frame, tanks[0], update(trackers[tanks[0]], select(dets, tanks[0]).value).1)
                  else [];
      here + StepRows(update, select, trackers, frame, dets, tanks[1..])
  }

  /** Changing the tracker of a tank that is not listed does not change
      the frame's rows. */
  lemma {:induction false} StepRowsFrame<S>(update: Update<S>, select: Select, trackers: map<int, S>,
                                            frame: int, dets: seq<Row>, tanks: seq<int>, u: int, s: S)
    requires u in trackers && u !in tanks
    ensures StepRows(update, select, trackers[u := s], frame, dets, tanks) == StepRows(update, select, trackers, frame, dets, tanks)
    decreases |tanks|
  {
    if tanks != [] {
      assert u !in tanks[1..];
      StepRowsFrame(update, select, trackers, frame, dets, tanks[1..], u, s);
    }
  }

  /** With distinct tanks listed, the rows a frame's step writes are the
      reference rows: each tracker's report from its state before the
      frame, tank after tank. */
  lemma {:induction false} TrackTanksStepRows<S>(update: Update<S>, select: Select, trackers: map<int, S>,
                                                 frame: int, dets: seq<Row>, tanks: seq<int>)
    requires TrackTanks(update, select, trackers, frame, dets, tanks).Ok?
    requires DistinctTanks(tanks)
    ensures TrackTanks(update, select, trackers, frame, dets, tanks).value.rows ==
            StepRows(update, select, trackers, frame, dets, tanks)
    decreases |tanks|
  {
    if tanks != [] {
      DistinctTanksTail(tanks);
      var tail := tanks[1..];
      if tanks[0] !in trackers {
        TrackTanksStepRows(update, select, trackers, frame, dets, tail);
      } else {
        var fed := Feed(update, select, trackers[tanks[0]], frame, dets, tanks[0]).value;
        var next := trackers[tanks[0] := fed.state];
        TrackTanksStepRows(update, select, next, frame, dets, tail);
        StepRowsFrame(update, select, trackers, frame, dets, tail, tanks[0], fed.state);
      }
    }
  }

  /** No tank listed twice. */
  predicate DistinctTanks(tanks: seq<int>)
  {
    forall a, b :: 0 <= a < b < |tanks| ==> tanks[a] != tanks[b]
  }

  lemma DistinctTanksTail(tanks: seq<int>)
    requires tanks != [] && DistinctTanks(tanks)
    ensures DistinctTanks(tanks[1..]) && tanks[0] !in tanks[1..]
  {
    var tail := tanks[1..];
    forall a, b | 0 <= a < b < |tail|
      ensures tail[a] != tail[b]
    {
      assert tail[a] == tanks[a + 1] && tail[b] == tanks[b + 1];
    }
    forall b | 0 <= b < |tail|
      ensures tail[b] != tanks[0]
    {
      assert tail[b] == tanks[b + 1];
    }
  }

  /** With distinct tanks listed, no tracker is called twice in a frame. */
  lemma {:induction false} TrackTanksOncePerTank<S>(update: Update<S>, select: Select, trackers: map<int, S>,
                                                    frame: int, dets: seq<Row>, tanks: seq<int>, i: int, j: int)
    requires DistinctTanks(tanks)
    requires TrackTanks(update, select, trackers, frame, dets, tanks).Ok?
    requires 0 <= i < j < |TrackTanks(update, select, trackers, frame, dets, tanks).value.calls|
    ensures TrackTanks(update, select, trackers, frame, dets, tanks).value.calls[i].tank !=
            TrackTanks(update, select, trackers, frame, dets, tanks).value.calls[j].tank
    decreases |tanks|
  {
    assert tanks != [];
    var tail := tanks[1..];
    DistinctTanksTail(tanks);
    if tanks[0] !in trackers {
      TrackTanksOncePerTank(update, select, trackers, frame, dets, tail, i, j);
    } else {
      var fed := Feed(update, select, trackers[tanks[0]], frame, dets, tanks[0]).value;
      var next := trackers[tanks[0] := fed.state];
      var rest := TrackTanks(update, select, next, frame, dets, tail).value;
      var calls := TrackTanks(update, select, trackers, frame, dets, tanks).value.calls;
      assert calls == [fed.call] + rest.calls;
      assert calls[j] == rest.calls[j - 1];
      if i == 0 {
        assert calls[0].tank == tanks[0];
        TrackTanksCalls(update, select, next, frame, dets, tail, rest.calls[j - 1]);
      } else {
        assert calls[i] == rest.calls[i - 1];
        TrackTanksOncePerTank(update, select, next, frame, dets, tail, i - 1, j - 1);
      }
    }
  }

  /** A listed tank that has a tracker is called in the frame. */
  lemma {:induction false} TrackTanksCovers<S>(update: Update<S>, select: Select, trackers: map<int, S>,
                                               frame: int, dets: seq<Row>, tanks: seq<int>, t: int)
    requires TrackTanks(update, select, trackers, frame, dets, tanks).Ok?
    requires t in tanks && t in trackers
    ensures exists i :: 0 <= i < |TrackTanks(update, select, trackers, frame, dets, tanks).value.calls| &&
                        TrackTanks(update, select, trackers, frame, dets, tanks).value.calls[i].tank == t
    decreases |tanks|
  {
    var tail := tanks[1..];
    if t != tanks[0] {
      var k :| 0 <= k < |tanks| && tanks[k] == t;
      assert tail[k - 1] == t;
    }
    if tanks[0] !in trackers {
      TrackTanksCovers(update, select, trackers, frame, dets, tail, t);
    } else {
      var fed := Feed(update, select, trackers[tanks[0]], frame, dets, tanks[0]).value;
      var next := trackers[tanks[0] := fed.state];
      var rest := TrackTanks(update, select, next, frame, dets, tail).value;
      var calls := TrackTanks(update, select, trackers, frame, dets, tanks).value.calls;
      assert calls == [fed.call] + rest.calls;
      if t == tanks[0] {
        assert calls[0].tank == t;
      } else {
        TrackTanksCovers(update, select, next, frame, dets, tail, t);
        var i :| 0 <= i < |rest.calls| && rest.calls[i].tank == t;
        assert calls[i + 1] == rest.calls[i];
      }
    }
  }

  /** Everything the tracking mode has produced after the first n frames. */
  datatype Run<S> = Run(trackers: map<int, S>, out: map<int, seq<Row>>, calls: seq<Call>)

  /** The detections of frame f, none when the file has none for it. */
  function FrameDets(frames: map<int, seq<Row>>, f: int): seq<Row>
  {
    if f in frames then frames[f] else []
  }

  /** Frames 0 .. n-1 in order, each frame's detections dispatched per tank
      in order of first appearance. A frame gets an output entry only when
      some tracker reported a track in it. */
  function TrackFrames<S>(update: Update<S>, select: Select, trackers: map<int, S>,
                          frames: map<int, seq<Row>>, n: nat): (r: Result<Run<S>>)
    ensures r.Ok? ==> r.value.trackers.Keys == trackers.Keys
    ensures r.Ok? ==> forall f :: f in r.value.out ==> 0 <= f < n && r.value.out[f] != []
  {
    if n == 0 then Ok(Run(trackers, map[], []))
    else
      match TrackFrames(update, select, trackers, frames, n - 1)
      case Err(e) => Err(e)
      case Ok(prev) =>
        var dets := FrameDets(frames, n - 1);
        match TrackTanks(update, select, prev.trackers, n - 1, dets, TankOrder(dets))
        case Err(e) => Err(e)
        case Ok(step) =>
          var out := if step.rows != [] then prev.out[n - 1 := step.rows] else prev.out;
          Ok(Run(step.trackers, out, prev.calls + step.calls))
  }

  /** Every call is made in one of the frames, to a tank with a tracker,
      with that tank's input of that frame. */
  lemma {:induction false} TrackFramesCalls<S>(update: Update<S>, select: Select, trackers: map<int, S>,
                                               frames: map<int, seq<Row>>, n: nat, c: Call)
    requires TrackFrames(update, select, trackers, frames, n).Ok?
    requires c in TrackFrames(update, select, trackers, frames, n).value.calls
    ensures 0 <= c.frame < n && c.tank in trackers
    ensures HasTank(FrameDets(frames, c.frame), c.tank)
    ensures select(FrameDets(frames, c.frame), c.tank) == Ok(c.input)
  {
    assert n > 0;
    var prev := TrackFrames(update, select, trackers, frames, n - 1).value;
    var dets := FrameDets(frames, n - 1);
    var step := TrackTanks(update, select, prev.trackers, n - 1, dets, TankOrder(dets)).value;
    assert TrackFrames(update, select, trackers, frames, n).value.calls == prev.calls + step.calls;
    if c in prev.calls {
      TrackFramesCalls(update, select, trackers, frames, n - 1, c);
    } else {
      TrackTanksCalls(update, select, prev.trackers, n - 1, dets, TankOrder(dets), c);
    }
  }

  /** Every output row sits under its own frame and names a tank with a
      tracker. */
  lemma {:induction false} TrackFramesRows<S>(update: Update<S>, select: Select, trackers: map<int, S>,
                                              frames: map<int, seq<Row>>, n: nat, f: int, i: int)
    requires TrackFrames(update, select, trackers, frames, n).Ok?
    requires f in TrackFrames(update, select, trackers, frames, n).value.out
    requires 0 <= i < |TrackFrames(update, select, trackers, frames, n).value.out[f]|
    ensures var row := TrackFrames(update, select, trackers, frames, n).value.out[f][i];
            Get(row, "frame_idx", NullV) == IntV(f) && TankOf(row).Some? && TankOf(row).value in trackers
  {
    assert n > 0;
    var prev := TrackFrames(update, select, trackers, frames, n - 1).value;
    var dets := FrameDets(frames, n - 1);
    var step := TrackTanks(update, select, prev.trackers, n - 1, dets, TankOrder(dets)).value;
    if f == n - 1 {
      TrackTanksRows(update, select, prev.trackers, n - 1, dets, TankOrder(dets), i);
    } else {
      TrackFramesRows(update, select, trackers, frames, n - 1, f, i);
    }
  }

  /** Calls happen frame by frame: their frames never decrease. */
  lemma {:induction false} TrackFramesInOrder<S>(update: Update<S>, select: Select, trackers: map<int, S>,
                                                 frames: map<int, seq<Row>>, n: nat, i: int, j: int)
    requires TrackFrames(update, select, trackers, frames, n).Ok?
    requires 0 <= i < j < |TrackFrames(update, select, trackers, frames, n).value.calls|
    ensures TrackFrames(update, select, trackers, frames, n).value.calls[i].frame <=
            TrackFrames(update, select, trackers, frames, n).value.calls[j].frame
  {
    assert n > 0;
    var prev := TrackFrames(update, select, trackers, frames, n - 1).value;
    var dets := FrameDets(frames, n - 1);
    var step := TrackTanks(update, select, prev.trackers, n - 1, dets, TankOrder(dets)).value;
    var calls := prev.calls + step.calls;
    assert TrackFrames(update, select, trackers, frames, n).value.calls == calls;
    if j < |prev.calls| {
      TrackFramesInOrder(update, select, trackers, frames, n - 1, i, j);
    } else {
      TrackFramesCalls(update, select, trackers, frames, n, calls[i]);
      LastFrameCalls(update, select, trackers, frames, n, j);
    }
  }

  /** The calls after those of the first n-1 frames are frame n-1's. */
  lemma LastFrameCalls<S>(update: Update<S>, select: Select, trackers: map<int, S>,
                          frames: map<int, seq<Row>>, n: nat, j: int)
    requires n > 0 && TrackFrames(update, select, trackers, frames, n).Ok?
    requires |TrackFrames(update, select, trackers, frames, n - 1).value.calls| <= j < |TrackFrames(update, select, trackers, frames, n).value.calls|
    ensures TrackFrames(update, select, trackers, frames, n).value.calls[j].frame == n - 1
  {
    var prev := TrackFrames(update, select, trackers, frames, n - 1).value;
    var dets := FrameDets(frames, n - 1);
    var step := TrackTanks(update, select, prev.trackers, n - 1, dets, TankOrder(dets)).value;
    var calls := prev.calls + step.calls;
    assert TrackFrames(update, select, trackers, frames, n).value.calls == calls;
    assert calls[j] == step.calls[j - |prev.calls|];
    TrackTanksCalls(update, select, prev.trackers, n - 1, dets, TankOrder(dets), calls[j]);
  }

  /** Some call of the list is made in frame f to tank t. */
  predicate CalledIn(calls: seq<Call>, f: int, t: int)
  {
    exists i :: 0 <= i < |calls| && calls[i].frame == f && calls[i].tank == t
  }

  /** Every tank that has a tracker and a detection in one of the first n
      frames is called in that frame. */
  lemma {:induction false} TrackFramesCovers<S>(update: Update<S>, select: Select, trackers: map<int, S>,
                                                frames: map<int, seq<Row>>, n: nat, f: int, t: int)
    requires TrackFrames(update, select, trackers, frames, n).Ok?
    requires 0 <= f < n && t in trackers && HasTank(FrameDets(frames, f), t)
    ensures CalledIn(TrackFrames(update, select, trackers, frames, n).value.calls, f, t)
  {
    if f < n - 1 {
      var prev := TrackFrames(update, select, trackers, frames, n - 1).value;
      var dets := FrameDets(frames, n - 1);
      var step := TrackTanks(update, select, prev.trackers, n - 1, dets, TankOrder(dets)).value;
      var calls := prev.calls + step.calls;
      assert TrackFrames(update, select, trackers, frames, n).value.calls == calls;
      TrackFramesCovers(update, select, trackers, frames, n - 1, f, t);
      var i :| 0 <= i < |prev.calls| && prev.calls[i].frame == f && prev.calls[i].tank == t;
      assert calls[i] == prev.calls[i];
    } else {
      LastFrameCovers(update, select, trackers, frames, n, t);
    }
  }

  /** The last frame's step calls every tank with a tracker and a detection. */
  lemma LastFrameCovers<S>(update: Update<S>, select: Select, trackers: map<int, S>,
                           frames: map<int, seq<Row>>, n: nat, t: int)
    requires n > 0 && TrackFrames(update, select, trackers, frames, n).Ok?
    requires t in trackers && HasTank(FrameDets(frames, n - 1), t)
    ensures CalledIn(TrackFrames(update, select, trackers, frames, n).value.calls, n - 1, t)
  {
    TrackFramesStep(update, select, trackers, frames, n);
    var prev := TrackFrames(update, select, trackers, frames, n - 1).value;
    var dets := FrameDets(frames, n - 1);
    StepCovers(update, select, prev.trackers, n - 1, dets, t);
    CalledInSuffix(prev.calls, TrackTanks(update, select, prev.trackers, n - 1, dets, TankOrder(dets)).value.calls, n - 1, t);
  }

  /** One frame's step calls every tank with a tracker and a detection in
      the frame. */
  lemma StepCovers<S>(update: Update<S>, select: Select, trackers: map<int, S>,
                      frame: int, dets: seq<Row>, t: int)
    requires TrackTanks(update, select, trackers, frame, dets, TankOrder(dets)).Ok?
    requires t in trackers && HasTank(dets, t)
    ensures CalledIn(TrackTanks(update, select, trackers, frame, dets, TankOrder(dets)).value.calls, frame, t)
  {
    var calls := TrackTanks(update, select, trackers, frame, dets, TankOrder(dets)).value.calls;
    assert t in TankOrder(dets);
    TrackTanksCovers(update, select, trackers, frame, dets, TankOrder(dets), t);
    var i :| 0 <= i < |calls| && calls[i].tank == t;
    TrackTanksCalls(update, select, trackers, frame, dets, TankOrder(dets), calls[i]);
  }

  /** A call of the second part of a list of calls is a call of the whole. */
  lemma CalledInSuffix(a: seq<Call>, b: seq<Call>, f: int, t: int)
    requires CalledIn(b, f, t)
    ensures CalledIn(a + b, f, t)
  {
    var i :| 0 <= i < |b| && b[i].frame == f && b[i].tank == t;
    assert (a + b)[|a| + i] == b[i];
  }

  /** The calls of the first n frames are those of the first n-1 frames
      followed by those of frame n-1's step. */
  lemma TrackFramesStep<S>(update: Update<S>, select: Select, trackers: map<int, S>,
                           frames: map<int, seq<Row>>, n: nat)
    requires n > 0 && TrackFrames(update, select, trackers, frames, n).Ok?
    ensures TrackFrames(update, select, trackers, frames, n - 1).Ok?
    ensures var prev := TrackFrames(update, select, trackers, frames, n - 1).value;
            var dets := FrameDets(frames, n - 1);
            var step := TrackTanks(update, select, prev.trackers, n - 1, dets, TankOrder(dets));
            step.Ok? && TrackFrames(update, select, trackers, frames, n).value.calls == prev.calls + step.value.calls
  {
  }

  /** Reference definition of one tank's tracker over the first n frames:
      updated with the tank's input in every frame where the tank has a
      detection, and left alone in every other frame. Other tanks play no
      part. */
  function TankHistory<S>(update: Update<S>, select: Select, s: S, frames: map<int, seq<Row>>, t: int, n: nat): S
  {
    if n == 0 then s
    else
      var prev := TankHistory(update, select, s, frames, t, n - 1);
      var dets := FrameDets(frames, n - 1);
      if HasTank(dets, t) && select(dets, t).Ok? then update(prev, select(dets, t).value).0 else prev
  }

  /** Every tank's tracker after the first n frames, by its own history. */
  function Histories<S>(update: Update<S>, select: Select, trackers: map<int, S>,
                        frames: map<int, seq<Row>>, n: nat): (m: map<int, S>)
    ensures m.Keys == trackers.Keys
    ensures forall t :: t in m ==> m[t] == TankHistory(update, select, trackers[t], frames, t, n)
  {
    map t | t in trackers :: TankHistory(update, select, trackers[t], frames, t, n)
  }

  /** The trackers after the first n frames are those frame n-1's step
      leaves, starting from the trackers after n-1 frames. */
  lemma TrackFramesStepTrackers<S>(update: Update<S>, select: Select, trackers: map<int, S>,
                                   frames: map<int, seq<Row>>, n: nat)
    requires n > 0 && TrackFrames(update, select, trackers, frames, n).Ok?
    ensures TrackFrames(update, select, trackers, frames, n - 1).Ok?
    ensures var prev := TrackFrames(update, select, trackers, frames, n - 1).value;
            var dets := FrameDets(frames, n - 1);
            var step := TrackTanks(update, select, prev.trackers, n - 1, dets, TankOrder(dets));
            step.Ok? && TrackFrames(update, select, trackers, frames, n).value.trackers == step.value.trackers
  {
  }

  /** After n frames a tank's tracker is in the state of its own history:
      the trackers of different tanks never affect each other, and a
      tank's tracker advances exactly in the frames that hold one of its
      detections. */
  lemma {:induction false} TrackFramesTankState<S>(update: Update<S>, select: Select, trackers: map<int, S>,
                                                   frames: map<int, seq<Row>>, n: nat, t: int)
    requires TrackFrames(update, select, trackers, frames, n).Ok?
    requires t in trackers
    ensures t in TrackFrames(update, select, trackers, frames, n).value.trackers
    ensures TrackFrames(update, select, trackers, frames, n).value.trackers[t] ==
            TankHistory(update, select, trackers[t], frames, t, n)
  {
    if n > 0 {
      TrackFramesStepTrackers(update, select, trackers, frames, n);
      var prev := TrackFrames(update, select, trackers, frames, n - 1).value;
      TrackFramesTankState(update, select, trackers, frames, n - 1, t);
      var dets := FrameDets(frames, n - 1);
      if HasTank(dets, t) {
        TrackTanksUpdates(update, select, prev.trackers, n - 1, dets, TankOrder(dets), t);
      } else {
        TrackTanksKeepsOthers(update, select, prev.trackers, n - 1, dets, TankOrder(dets), t);
      }
    }
  }

  /** All trackers at once: after n frames the trackers are the histories. */
  lemma TrackFramesHistories<S>(update: Update<S>, select: Select, trackers: map<int, S>,
                                frames: map<int, seq<Row>>, n: nat)
    requires TrackFrames(update, select, trackers, frames, n).Ok?
    ensures TrackFrames(update, select, trackers, frames, n).value.trackers == Histories(update, select, trackers, frames, n)
  {
    var got := TrackFrames(update, select, trackers, frames, n).value.trackers;
    forall t | t in trackers
      ensures got[t] == Histories(update, select, trackers, frames, n)[t]
    {
      TrackFramesTankState(update, select, trackers, frames, n, t);
    }
  }

  /** The output after the first n frames is that after n-1 frames, with
      frame n-1's rows added when there are any. */
  lemma TrackFramesStepOut<S>(update: Update<S>, select: Select, trackers: map<int, S>,
                              frames: map<int, seq<Row>>, n: nat)
    requires n > 0 && TrackFrames(update, select, trackers, frames, n).Ok?
    ensures TrackFrames(update, select, trackers, frames, n - 1).Ok?
    ensures var prev := TrackFrames(update, select, trackers, frames, n - 1).value;
            var dets := FrameDets(frames, n - 1);
            var step := TrackTanks(update, select, prev.trackers, n - 1, dets, TankOrder(dets));
            && step.Ok?
            && TrackFrames(update, select, trackers, frames, n).value.out ==
                 if step.value.rows != [] then prev.out[n - 1 := step.value.rows] else prev.out
  {
  }

  /** Frame n-1's rows are the reference rows of its tanks, each tracker
      fed from its history up to that frame. */
  lemma LastFrameRows<S>(update: Update<S>, select: Select, trackers: map<int, S>,
                         frames: map<int, seq<Row>>, n: nat)
    requires n > 0 && TrackFrames(update, select, trackers, frames, n).Ok?
    ensures TrackFrames(update, select, trackers, frames, n - 1).Ok?
    ensures var prev := TrackFrames(update, select, trackers, frames, n - 1).value;
            var dets := FrameDets(frames, n - 1);
            var step := TrackTanks(update, select, prev.trackers, n - 1, dets, TankOrder(dets));
            && step.Ok?
            && step.value.rows == StepRows(update, select, Histories(update, select, trackers, frames, n - 1), n - 1, dets, TankOrder(dets))
  {
    TrackFramesStepOut(update, select, trackers, frames, n);
    var prev := TrackFrames(update, select, trackers, frames, n - 1).value;
    var dets := FrameDets(frames, n - 1);
    TrackFramesHistories(update, select, trackers, frames, n - 1);
    TrackTanksStepRows(update, select, prev.trackers, n - 1, dets, TankOrder(dets));
  }

  /** A frame before n-1 has after n frames the output it had after n-1. */
  lemma EarlierFrameOut<S>(update: Update<S>, select: Select, trackers: map<int, S>,
                           frames: map<int, seq<Row>>, n: nat, f: int)
    requires n > 0 && TrackFrames(update, select, trackers, frames, n).Ok?
    requires f < n - 1
    ensures TrackFrames(update, select, trackers, frames, n - 1).Ok?
    ensures var out := TrackFrames(update, select, trackers, frames, n).value.out;
            var prev := TrackFrames(update, select, trackers, frames, n - 1).value.out;
            (f in out <==> f in prev) && (f in out ==> out[f] == prev[f])
  {
    TrackFramesStepOut(update, select, trackers, frames, n);
  }

  /** Frame n-1 has output exactly when its reference rows are not empty,
      and the output is those rows. */
  lemma LastFrameOut<S>(update: Update<S>, select: Select, trackers: map<int, S>,
                        frames: map<int, seq<Row>>, n: nat)
    requires n > 0 && TrackFrames(update, select, trackers, frames, n).Ok?
    ensures var dets := FrameDets(frames, n - 1);
            var rows := StepRows(update, select, Histories(update, select, trackers, frames, n - 1), n - 1, dets, TankOrder(dets));
            var out := TrackFrames(update, select, trackers, frames, n).value.out;
            && (n - 1 in out <==> rows != [])
            && (n - 1 in out ==> out[n - 1] == rows)
  {
    TrackFramesStepOut(update, select, trackers, frames, n);
    LastFrameRows(update, select, trackers, frames, n);
    assert n - 1 !in TrackFrames(update, select, trackers, frames, n - 1).value.out;
  }

  /** The output of frame f, frame for frame: the reference rows of the
      frame's tanks fed from their histories up to f, and an entry for f
      exactly when those rows are not empty. */
  lemma {:induction false} TrackFramesOut<S>(update: Update<S>, select: Select, trackers: map<int, S>,
                                             frames: map<int, seq<Row>>, n: nat, f: nat)
    requires TrackFrames(update, select, trackers, frames, n).Ok?
    requires f < n
    ensures var dets := FrameDets(frames, f);
            var rows := StepRows(update, select, Histories(update, select, trackers, frames, f), f, dets, TankOrder(dets));
            var out := TrackFrames(update, select, trackers, frames, n).value.out;
            && (f in out <==> rows != [])
            && (f in out ==> out[f] == rows)
  {
    if f == n - 1 {
      LastFrameOut(update, select, trackers, frames, n);
    } else {
      EarlierFrameOut(update, select, trackers, frames, n, f);
      TrackFramesOut(update, select, trackers, frames, n - 1, f);
    }
  }

  /** No tracker is called twice in one frame. */
  lemma {:induction false} TrackFramesOncePerTank<S>(update: Update<S>, select: Select, trackers: map<int, S>,
                                                     frames: map<int, seq<Row>>, n: nat, i: int, j: int)
    requires TrackFrames(update, select, trackers, frames, n).Ok?
    requires 0 <= i < j < |TrackFrames(update, select, trackers, frames, n).value.calls|
    requires TrackFrames(update, select, trackers, frames, n).value.calls[i].frame ==
             TrackFrames(update, select, trackers, frames, n).value.calls[j].frame
    ensures TrackFrames(update, select, trackers, frames, n).value.calls[i].tank !=
            TrackFrames(update, select, trackers, frames, n).value.calls[j].tank
  {
    var prev := TrackFrames(update, select, trackers, frames, n - 1).value;
    var dets := FrameDets(frames, n - 1);
    var step := TrackTanks(update, select, prev.trackers, n - 1, dets, TankOrder(dets)).value;
    var calls := prev.calls + step.calls;
    assert TrackFrames(update, select, trackers, frames, n).value.calls == calls;
    if j < |prev.calls| {
      assert calls[i] == prev.calls[i] && calls[j] == prev.calls[j];
      TrackFramesOncePerTank(update, select, trackers, frames, n - 1, i, j);
    } else if i < |prev.calls| {
      assert calls[i] == prev.calls[i];
      TrackFramesCalls(update, select, trackers, frames, n - 1, prev.calls[i]);
      LastFrameCalls(update, select, trackers, frames, n, j);
    } else {
      var p := |prev.calls|;
      assert calls[i] == step.calls[i - p] && calls[j] == step.calls[j - p];
      assert DistinctTanks(TankOrder(dets));
      TrackTanksOncePerTank(update, select, prev.trackers, n - 1, dets, TankOrder(dets), i - p, j - p);
    }
  }

  /** The input the tracking mode gives a tank: its top K, converted. */
  function TopKInput(k: int): Select
  {
    (dets: seq<Row>, t: int) => TankInput(dets, t, k)
  }

  /** The tracking mode: without the tracker library the job fails;
      otherwise a fresh tracker for each tank 1 .. cols*rows and the frames
      0 .. totalFrames-1 of the video dispatched to them. Detections in
      frames outside the video are never tracked. */
  function TrackAll<S>(available: bool, update: Update<S>, init: S,
                       frames: map<int, seq<Row>>, totalFrames: int, cols: int, rows: int, k: int): (r: Result<Run<S>>)
    ensures !available ==> r == Err(TrackerUnavailable)
    ensures r.Ok? ==> r.value.trackers.Keys == TankNumbers(cols * rows)
    ensures r.Ok? ==> forall f :: f in r.value.out ==> 0 <= f < totalFrames && r.value.out[f] != []
  {
    if !available then Err(TrackerUnavailable)
    else
      var trackers := FreshTrackers(init, cols * rows);
      TrackFrames(update, TopKInput(k), trackers, frames, Max(totalFrames, 0))
  }

  /** One fresh tracker per tank 1 .. n. */
  function FreshTrackers<S>(init: S, n: int): (trackers: map<int, S>)
    ensures trackers.Keys == TankNumbers(n)
    ensures forall t :: t in trackers ==> trackers[t] == init
  {
    map t | t in TankNumbers(n) :: init
  }

  /** The tank numbers 1 .. n. */
  function TankNumbers(n: int): (tanks: set<int>)
    ensures forall t :: t in tanks <==> 1 <= t <= n
    decreases n
  {
    if n < 1 then {} else TankNumbers(n - 1) + {n}
  }

  /** Each call of the tracking mode goes to a tank of the grid, in a frame
      of the video, with that tank's top K of the frame. */
  lemma TrackAllCalls<S>(available: bool, update: Update<S>, init: S,
                         frames: map<int, seq<Row>>, totalFrames: int, cols: int, rows: int, k: int, c: Call)
    requires TrackAll(available, update, init, frames, totalFrames, cols, rows, k).Ok?
    requires c in TrackAll(available, update, init, frames, totalFrames, cols, rows, k).value.calls
    ensures 0 <= c.frame < totalFrames && 1 <= c.tank <= cols * rows
    ensures HasTank(FrameDets(frames, c.frame), c.tank)
    ensures TankInput(FrameDets(frames, c.frame), c.tank, k) == Ok(c.input)
  {
    TrackFramesCalls(update, TopKInput(k), FreshTrackers(init, cols * rows), frames, Max(totalFrames, 0), c);
  }

  /** In every frame of the video, each grid tank with a detection in that
      frame has its tracker called. */
  lemma TrackAllCoversTanks<S>(available: bool, update: Update<S>, init: S,
                               frames: map<int, seq<Row>>, totalFrames: int, cols: int, rows: int, k: int, f: int, t: int)
    requires TrackAll(available, update, init, frames, totalFrames, cols, rows, k).Ok?
    requires 0 <= f < totalFrames && 1 <= t <= cols * rows && HasTank(FrameDets(frames, f), t)
    ensures CalledIn(TrackAll(available, update, init, frames, totalFrames, cols, rows, k).value.calls, f, t)
  {
    TrackFramesCovers(update, TopKInput(k), FreshTrackers(init, cols * rows), frames, Max(totalFrames, 0), f, t);
  }

  /** Within one frame, no tank's tracker is called twice. */
  lemma TrackAllOncePerTank<S>(available: bool, update: Update<S>, init: S,
                               frames: map<int, seq<Row>>, totalFrames: int, cols: int, rows: int, k: int, i: int, j: int)
    requires TrackAll(available, update, init, frames, totalFrames, cols, rows, k).Ok?
    requires 0 <= i < j < |TrackAll(available, update, init, frames, totalFrames, cols, rows, k).value.calls|
    requires TrackAll(available, update, init, frames, totalFrames, cols, rows, k).value.calls[i].frame ==
             TrackAll(available, update, init, frames, totalFrames, cols, rows, k).value.calls[j].frame
    ensures TrackAll(available, update, init, frames, totalFrames, cols, rows, k).value.calls[i].tank !=
            TrackAll(available, update, init, frames, totalFrames, cols, rows, k).value.calls[j].tank
  {
    TrackFramesOncePerTank(update, TopKInput(k), FreshTrackers(init, cols * rows), frames, Max(totalFrames, 0), i, j);
  }

  /** Each output row of the tracking mode lies in its own frame and names a
      tank of the grid. */
  lemma TrackAllRows<S>(available: bool, update: Update<S>, init: S,
                        frames: map<int, seq<Row>>, totalFrames: int, cols: int, rows: int, k: int, f: int, i: int)
    requires TrackAll(available, update, init, frames, totalFrames, cols, rows, k).Ok?
    requires f in TrackAll(available, update, init, frames, totalFrames, cols, rows, k).value.out
    requires 0 <= i < |TrackAll(available, update, init, frames, totalFrames, cols, rows, k).value.out[f]|
    ensures var row := TrackAll(available, update, init, frames, totalFrames, cols, rows, k).value.out[f][i];
            Get(row, "frame_idx", NullV) == IntV(f) && TankOf(row).Some? && 1 <= TankOf(row).value <= cols * rows
  {
    TrackFramesRows(update, TopKInput(k), FreshTrackers(init, cols * rows), frames, Max(totalFrames, 0), f, i);
  }

  /** Frame for frame, the tracking mode's output for frame f of the video
      is what each of the frame's tanks' trackers reports, fed that tank's
      top K from the state its own earlier frames left it in. */
  lemma TrackAllOut<S>(available: bool, update: Update<S>, init: S,
                       frames: map<int, seq<Row>>, totalFrames: int, cols: int, rows: int, k: int, f: nat)
    requires TrackAll(available, update, init, frames, totalFrames, cols, rows, k).Ok?
    requires f < totalFrames
    ensures var trackers := FreshTrackers(init, cols * rows);
            var dets := FrameDets(frames, f);
            var expected := StepRows(update, TopKInput(k), Histories(update, TopKInput(k), trackers, frames, f), f, dets, TankOrder(dets));
            var out := TrackAll(available, update, init, frames, totalFrames, cols, rows, k).value.out;
            && (f in out <==> expected != [])
            && (f in out ==> out[f] == expected)
  {
    TrackFramesOut(update, TopKInput(k), FreshTrackers(init, cols * rows), frames, Max(totalFrames, 0), f);
  }

  /** No tracker ever sees more than K detections in one call, and each
      detection it sees has the centroid of a detection of its own tank in
      that frame. */
  lemma TrackerInputBound<S>(available: bool, update: Update<S>, init: S,
                             frames: map<int, seq<Row>>, totalFrames: int, cols: int, rows: int, k: nat, c: Call)
    requires TrackAll(available, update, init, frames, totalFrames, cols, rows, k).Ok?
    requires c in TrackAll(available, update, init, frames, totalFrames, cols, rows, k).value.calls
    ensures |c.input| <= k
    ensures forall d :: d in c.input ==>
              exists row :: row in FrameDets(frames, c.frame) && TankOf(row) == Some(c.tank) && "cx" in row && "cy" in row &&
                            d.cx == row["cx"] && d.cy == row["cy"]
  {
    TrackAllCalls(available, update, init, frames, totalFrames, cols, rows, k, c);
    TankInputMembers(FrameDets(frames, c.frame), c.tank, k);
  }
}
